=== FILE: README.md ===
# EaseMyTrip flight-filter automation — a Dafny model of its pure core

The repository drives the EaseMyTrip site with Playwright. It checks that
the site's stops filter and price filter work, collects the flights left
visible, and writes Excel reports. Beneath the browser calls sit small
deterministic rules, and this project models those rules and proves
properties about them:

- **Engine helpers** (`src/automation/flight_filter_engine.py`):
  - the departure-date rewrite `YYYY-MM-DD` → `DD/MM/YYYY`;
  - airport-code extraction from a selected suggestion;
  - the engine's cache of the codes found, kept across runs;
  - the city selector's variations, tiered scoring, best-pair choice and confidence threshold;
  - the stops filter's label table, clicks and success check;
  - the price filter's slider clamp, row hiding and counting;
  - the visible-flight counter;
  - the extractor's price/stop fallbacks, match predicate and record shape;
  - the whole `test_ui_filter_functionality` run as a method over a modelled page.
- **Part 1** (`tests/test_part1_core_automation.py`):
  - the status branch;
  - consolidation into report records (rupee formatting, defaults, a stable sort by price, the summary);
  - the "Flight Details" sheet;
  - the "Airline Summary" grouping and layout.
- **Part 2** (`tests/test_part2_data_driven.py`):
  - status classification and the pass/fail counters, including the unassigned `flights_found` variable;
  - the critical-failure count;
  - the Test_Execution_Summary columns;
  - the per-test details sheets.
- **Configuration** (`src/utils/config.py`): `TestConfig.from_dict` with its key fallbacks, and `AppConfig.get_default`.

Files, one module each (modules import each other; there is no nesting):

| file | module | contents |
|---|---|---|
| `common.dfy` | `Common` | `Option`, `Result`; `Init`, `Last`, `StartsWith`, `EndsWith` on sequences |
| `text.dfy` | `Text` | ASCII case mapping, JavaScript `trim`, `includes`, `split`/`join` |
| `number_format.dfy` | `NumberFormat` | decimal digits, `f"{n:,}"` grouping and its parse, `f"{i:03d}"` |
| `stable_sort.dfy` | `StableSort` | a stable insertion sort by an integer key, as `list.sort(key=…)` |
| `dom.dfy` | `Dom` | a results row as a record; the visible-flight counter |
| `engine_helpers.dfy` | `EngineHelpers` | date rewrite, airport code, code cache |
| `city_match.dfy` | `CityMatch` | variations, scoring, best match, selection |
| `stops_filter.dfy` | `StopsFilter` | the stops checkbox procedure |
| `price_filter.dfy` | `PriceFilter` | the price script |
| `extraction.dfy` | `Extraction` | the extractor |
| `engine_run.dfy` | `EngineRun` | one run and a suite of runs; the result dictionary |
| `consolidation.dfy` | `Consolidation` | Part 1 records, sort, summary, Flight Details |
| `airline_summary.dfy` | `AirlineSummary` | Part 1 grouping and sheet layout |
| `part1_outcome.dfy` | `Part1Outcome` | Part 1 status branch, messages, workbook |
| `config.dfy` | `Config` | `TestConfig.from_dict`, `AppConfig` defaults |
| `part2_outcomes.dfy` | `Part2Outcomes` | Part 2 loop, counters, report sheets |

The browser is a value, not an effect:
- the suggestion texts the selector scores, and whether the city field is filled afterwards;
- whether the results page loads;
- the checkbox state and the checkboxes whose click fails;
- the rows the site shows for each set of ticked checkboxes;
- which page scripts (jQuery, AngularJS, scope, slider) are present, and whether `scope.$apply()` or `scope.$digest()` throws;
- whether the visible-flight counter raises before or after filtering;
- whether the extractor's page script raises.

Rows arrive with the browser's layout already evaluated (`laidOut`, stylesheet visibility). The airline and flight-number scraping results arrive already evaluated too.

## Model

| member | source | states |
|---|---|---|
| EngineHelpers.FormatDateForInput | src/automation/flight_filter_engine.py:787-790 | succeeds exactly when the date has two dashes (three pieces), otherwise reports the piece count; the result has no dash and the input's length |
| EngineHelpers.FormatDateOfParts | src/automation/flight_filter_engine.py:787-790 | a date built from three dash-free pieces is rewritten as day/month/year, e.g. "2025-12-01" to "01/12/2025" |
| EngineHelpers.FormatDateRoundTrip | src/automation/flight_filter_engine.py:787-790 | reading a rewritten slash-free date back recovers the original date |
| EngineHelpers.FirstCodeFrom | src/automation/flight_filter_engine.py:781 | finds the leftmost position where `\(([A-Z]{3})\)` matches, or proves there is none |
| EngineHelpers.ExtractAirportCode | src/automation/flight_filter_engine.py:773-785 | "" or three capitals; "" exactly when no parenthesised three-capital code occurs; otherwise the leftmost such code |
| EngineHelpers.CodeOfSuggestion | src/automation/flight_filter_engine.py:774 | a suggestion of the form city(CODE)airport yields CODE when the city has no parenthesis |
| EngineHelpers.RememberCode | src/automation/flight_filter_engine.py:506-513 | a found code replaces only its own side of the cache; no code leaves the cache unchanged; well-formedness is kept |
| CityMatch.CityVariations | src/automation/flight_filter_engine.py:344-354 | four variations (seven for delhi or goa), the name first; each lower-cases to the name, or to "new delhi" for Delhi |
| CityMatch.CityPart | src/automation/flight_filter_engine.py:409 | the compared city part has no `(` and no surrounding white space |
| CityMatch.TierScore | src/automation/flight_filter_engine.py:412-433 | the score is one of 0, 650, 700, 850, 900, 1000; 1000 exactly for equality; positive exactly for equality or a long-enough containment either way |
| CityMatch.ScoreIgnoresCase | src/automation/flight_filter_engine.py:415-416 | the lower-, upper- and title-case variants score like the name itself |
| CityMatch.VariationsBestScore | src/automation/flight_filter_engine.py:344-354 | the best score over all variations is the name's own, or the "new delhi" score for Delhi when higher |
| CityMatch.BestMatch | src/automation/flight_filter_engine.py:407-454 | the first pair with the strictly highest positive score; every pair scores at most it and every earlier pair scores less; none when nothing scores above 0 |
| CityMatch.ValidSuggestions | src/automation/flight_filter_engine.py:384-390 | the non-empty trimmed suggestion texts; empty exactly when every text trims to "" |
| CityMatch.BestOfTable | src/automation/flight_filter_engine.py:437-446 | the best pair of the score table is a (suggestion, variation) pair scoring the maximum, which is at least 650 |
| CityMatch.SelectAmong | src/automation/flight_filter_engine.py:474-497 | no valid suggestions fails first; otherwise the selection succeeds exactly when some pair scores above 0, with a text and score reaching the 300 threshold that no pair beats; the text is the kept suggestion (`KeptSelection`): the first one reaching that score, every earlier suggestion scoring strictly less with every variation |
| CityMatch.SelectCity | src/automation/flight_filter_engine.py:344-497 | the same for the variations of a typed city name, including the first-suggestion tie-break |
| CityMatch.KeptSelectionUnique | src/automation/flight_filter_engine.py:444-454 | at most one (text, score) is the kept suggestion, so the strict `score > bestScore` update fixes the choice among equally scoring suggestions |
| StopsFilter.CheckboxFor | src/automation/flight_filter_engine.py:857-869 | a checkbox exactly for the nine accepted labels, the one the table assigns |
| StopsFilter.CheckboxTable | src/automation/flight_filter_engine.py:857-874 | the three ids are distinct, each box is visited once, and each is the target of some label |
| StopsFilter.Click | src/automation/flight_filter_engine.py:907 | a click toggles its box unless the click fails, and touches no other box |
| StopsFilter.UncheckOthers | src/automation/flight_filter_engine.py:894-914 | every ticked non-target box is clicked once and ends unticked unless its click fails; other boxes are untouched |
| StopsFilter.ApplyStopsFilter | src/automation/flight_filter_engine.py:852-964 | an unknown label clicks nothing and fails; otherwise the target ends ticked unless it was unticked and stuck; success iff the final ticked set is exactly the target |
| StopsFilter.ClicksThatWorkSucceed | src/automation/flight_filter_engine.py:957 | with no failing clicks every accepted label succeeds |
| StopsFilter.StopsFilterSuccess | src/automation/flight_filter_engine.py:894-957 | success exactly when no click the filter needs fails |
| StopsFilter.StopsFilterIdempotent | src/automation/flight_filter_engine.py:894-957 | re-running after success clicks nothing and succeeds again |
| PriceFilter.SliderMax | src/automation/flight_filter_engine.py:1010 | an unset or zero slider maximum becomes 50000 |
| PriceFilter.Targets | src/automation/flight_filter_engine.py:1009-1012 | a price lies in the applied range exactly when it lies in both the requested range and the slider's range |
| PriceFilter.MarkRow | src/automation/flight_filter_engine.py:1053-1069 | an unpriced row is untouched; a priced row becomes visible exactly when laid out and not numerically out of range (NaN stays shown); nothing but the style changes |
| PriceFilter.MarkRowIdempotent | src/automation/flight_filter_engine.py:1053-1069 | marking a row twice is marking it once |
| PriceFilter.ApplyPriceFilter | src/automation/flight_filter_engine.py:981-1127 | the four early errors in order, then an exception from `$apply`, all touching nothing; otherwise every row is marked for the clamped range, and an exception from `$digest` is reported on the marked page; on success hidden plus visible equals the number of priced rows |
| PriceFilter.VisibleRowsInRange | src/automation/flight_filter_engine.py:1011-1012 | a numerically priced row left visible lies within both the requested and the slider's range |
| PriceFilter.CountAfterMarking | src/automation/flight_filter_engine.py:796-812 | after marking, the counter sees exactly the laid-out in-range rows with both attributes, whatever their earlier inline styles |
| Dom.CountVisible | src/automation/flight_filter_engine.py:796-812 | at most the number of rows; zero exactly when no row with price and stop attributes is visible |
| Dom.CountVisibleAppend | src/automation/flight_filter_engine.py:798-812 | the count over two stretches of rows is the sum of their counts |
| Extraction.StopFromText | src/automation/flight_filter_engine.py:1209-1218 | the text fallback yields "0", "1", "2" or nothing; "0" exactly when "Non-stop" or "non-stop" occurs |
| Extraction.EffectiveStop | src/automation/flight_filter_engine.py:1197-1218 | a non-empty stop attribute wins; otherwise the text fallback |
| Extraction.StopType | src/automation/flight_filter_engine.py:1223-1226 | one of the four labels; "Unknown" exactly when the stop is not "0", "1" or "2" |
| Extraction.StopMatchesExactly | src/automation/flight_filter_engine.py:1230-1234 | a stop matches exactly when the target is one of the five known labels and the stop is that label's count |
| Extraction.FirstRupeeFrom | src/automation/flight_filter_engine.py:1202 | the leftmost start of a `₹([0-9,]+)` match, or proof that none exists |
| Extraction.RunLength | src/automation/flight_filter_engine.py:1202 | the greedy `[0-9,]+` run: all digits or commas and not extendable |
| Extraction.PriceFromText | src/automation/flight_filter_engine.py:1200-1205 | no result exactly when no `₹` followed by a digit or comma occurs |
| Extraction.PriceFromRupeeText | src/automation/flight_filter_engine.py:1200-1205 | a price written as ₹ and a comma-grouped amount reads back as that amount |
| Extraction.EffectivePrice | src/automation/flight_filter_engine.py:1196-1205 | a non-zero numeric attribute is the price; with no attribute price and no text match the price is 0 |
| Extraction.CodeOrNA | src/automation/flight_filter_engine.py:1283-1284 | an empty cached code shows as "N/A", any other as itself |
| Extraction.Positions | src/automation/flight_filter_engine.py:1177-1239 | increasing positions within the stretch, at most one per row, each of a row satisfying the predicate |
| Extraction.ExtractFlights | src/automation/flight_filter_engine.py:1177-1345 | one record per kept row, in page order, each built from its row at its index |
| Extraction.ExtractMembership | src/automation/flight_filter_engine.py:1177-1345 | a row has a record exactly when it is visible and both its price and its stop match |
| Extraction.ExtractedFlightsMatch | src/automation/flight_filter_engine.py:1229-1239 | every record's price is in range, its stop label is the target's canonical one, and its codes and route are the cached ones or "N/A" |
| Extraction.UnmatchedLabelExtractsNothing | src/automation/flight_filter_engine.py:1230-1234 | with a label outside the five the extractor knows, nothing is ever extracted |
| Extraction.ExtractedPriceFromAttribute | src/automation/flight_filter_engine.py:1196 | a record of a row with a non-zero numeric price attribute carries that number |
| EngineRun.SelectCityField | src/automation/flight_filter_engine.py:500-527 | success iff some pair scores above 0 and the field is filled; a confident selection updates the cache even when the field stays blank, with the code of the kept suggestion's text |
| EngineRun.PerformSearch | src/automation/flight_filter_engine.py:98-260 | success iff both cities are selected, the date rewrite succeeds and the results page loads; both fields are always tried |
| EngineRun.Extracted | src/automation/flight_filter_engine.py:1177-1406 | the records of the matching shown rows, or none when the extractor's page script raises |
| EngineRun.FilterAndExtract | src/automation/flight_filter_engine.py:67-78 | the before count over the initial rows; stops then price filter; the after count and the extractor's answer over the rows then shown |
| EngineRun.TestUiFilter | src/automation/flight_filter_engine.py:41-97 | FAIL iff the search fails; ERROR iff the counter raises before or after filtering once the search succeeded, carrying the first error; otherwise SUCCESS with the counts and records of the filtered page (no records when the extractor raises) |
| EngineRun.KeptAtMostCounted | src/automation/flight_filter_engine.py:1177-1239 | on rows that all carry both attributes, the records never outnumber the visible-flight count |
| EngineRun.AfterCountOfRun | src/automation/flight_filter_engine.py:74-75 | when the price script reached its row marking, the after count is the laid-out in-range rows shown for the final checkbox state |
| EngineRun.RunRecordsMatch | src/automation/flight_filter_engine.py:1229-1239 | each record of a run is in the configured range with the canonical stop label and well-formed codes or "N/A" |
| EngineRun.ToDict | src/automation/flight_filter_engine.py:63-96 | the status key names the outcome; only SUCCESS carries `ui_filtered_flights`, holding the run's records; FAIL and ERROR carry an empty `flights` list |
| EngineRun.DictRoundTrip | src/automation/flight_filter_engine.py:63-96 | the result can be read back from its dictionary |
| EngineRun.RunSuite | src/automation/flight_filter_engine.py:36-39 | the cache starts empty and carries over from run to run; each run keeps the step guarantees |
| EngineRun.RunOnce | src/automation/flight_filter_engine.py:41-97 | a run leaves a well-formed cache, fails iff the search fails, and its records carry the configured range and cached codes |
| StableSort.SortBy | tests/test_part1_core_automation.py:205 | the sort is a permutation of its input and sorted by the key |
| StableSort.SortByStable | tests/test_part1_core_automation.py:205 | records with equal keys keep their input order |
| StableSort.SortBySorted | tests/test_part1_core_automation.py:260 | sorting an already sorted list changes nothing |
| StableSort.SortByIdempotent | tests/test_part1_core_automation.py:260 | sorting twice is sorting once |
| NumberFormat.DigitsRoundTrip | tests/test_part1_core_automation.py:99 | the decimal digits of a count read back as the count |
| NumberFormat.GroupCommas | tests/test_part1_core_automation.py:180 | grouping adds a comma before every third digit from the right and nowhere else |
| NumberFormat.ThousandsRoundTrip | tests/test_part1_core_automation.py:180 | a comma-grouped amount parses back to the amount |
| NumberFormat.ParseGrouped | src/automation/flight_filter_engine.py:1204 | removing commas and parsing fails exactly when only commas are left |
| NumberFormat.PaddedValue | tests/test_part1_core_automation.py:187 | a zero-padded number reads back as the number |
| Consolidation.DefaultFlightNumber | tests/test_part1_core_automation.py:187 | "FL" followed by digits whose value is the flight's position |
| Consolidation.ToRecord | tests/test_part1_core_automation.py:177-188 | each missing key takes its default; the displayed price is ₹ and the grouped amount, reading back as the numeric price |
| Consolidation.RupeesReadBack | tests/test_part1_core_automation.py:180 | a displayed price starts with ₹, and for a non-negative amount the rest parses back to it |
| Consolidation.Records | tests/test_part1_core_automation.py:174-193 | one record per flight, numbered from 1, in input order |
| Consolidation.EngineRecordKeepsValues | tests/test_part1_core_automation.py:177-188 | a record built from an extractor record never falls back to a default |
| Consolidation.KnownAirlines | tests/test_part1_core_automation.py:195-196 | the distinct airline names other than "Unknown" |
| Consolidation.PositivePrices | tests/test_part1_core_automation.py:197-198 | exactly the strictly positive prices |
| Consolidation.Summarize | tests/test_part1_core_automation.py:208-215 | the known-airline count, min and max over strictly positive prices (0 when none, each attained), and the total |
| Consolidation.Consolidate | tests/test_part1_core_automation.py:158-224 | no flights gives the empty result; otherwise every flight kept, the records a price-sorted permutation, the count and summary of them |
| Consolidation.ConsolidatedStable | tests/test_part1_core_automation.py:205 | consolidated records with the same price keep the flights' order |
| Consolidation.SummaryOfSorted | tests/test_part1_core_automation.py:205-215 | summarising the sorted records gives the same summary |
| Consolidation.SummaryPermutation | tests/test_part1_core_automation.py:208-215 | the summary depends only on the multiset of records |
| Consolidation.FlightDetails | tests/test_part1_core_automation.py:256-269 | one detail row per record |
| Consolidation.FlightDetailsFollowConsolidated | tests/test_part1_core_automation.py:256-269 | the detail rows follow the consolidated order, one per flight, with the records' own columns |
| AirlineSummary.GroupNames | tests/test_part1_core_automation.py:308-313 | the distinct airline names, each name of some record appearing once |
| AirlineSummary.GroupNamesFirstAppearance | tests/test_part1_core_automation.py:308-313 | the names are in the dictionary's key order: each name occurs in the records before the first record of every later name |
| AirlineSummary.Members | tests/test_part1_core_automation.py:308-313 | a group holds exactly the records of its airline |
| AirlineSummary.GroupMin | tests/test_part1_core_automation.py:329-330 | the lowest price of an airline's records, attained and at most every member's; none exactly when the airline has no record |
| AirlineSummary.SortedAirlines | tests/test_part1_core_automation.py:329-330 | the group names ordered by lowest price, a permutation of the names |
| AirlineSummary.SortedGroup | tests/test_part1_core_automation.py:325-326 | a group sorted by price, a permutation of its members |
| AirlineSummary.LayoutPositions | tests/test_part1_core_automation.py:333-345 | record k of group i is on line `Start(i) + k`, where `Start(i)` counts the earlier groups' lines and one blank each; the line before every group but the first is blank |
| AirlineSummary.LayoutShape | tests/test_part1_core_automation.py:333-345 | each group on consecutive lines from its start, a blank line right before every group but the first; size is rows plus groups minus one, the blanks number groups minus one, and the filled rows are the groups' rows in order |
| AirlineSummary.AirlinesCount | tests/test_part1_core_automation.py:372 | the number of groups, at most the number of records and at least 1 when there is one |
| AirlineSummary.SortedGroupOfSorted | tests/test_part1_core_automation.py:325-326 | on price-sorted records the group sort keeps each group's order |
| AirlineSummary.NamesByLowestPrice | tests/test_part1_core_automation.py:329-330 | on price-sorted records the first-appearance order is already ordered by lowest price |
| AirlineSummary.SortedAirlinesOfSorted | tests/test_part1_core_automation.py:329-330 | on price-sorted records the airline sort keeps the first-appearance order |
| AirlineSummary.RecordInOneGroup | tests/test_part1_core_automation.py:308-313 | every record lands in exactly one group, its airline's |
| AirlineSummary.SummaryOfSortedInput | tests/test_part1_core_automation.py:325-330 | on price-sorted records the sheet's groups are the members in first-appearance order |
| AirlineSummary.Partition | tests/test_part1_core_automation.py:308-313 | the groups of a list of distinct names covering every airline hold every record exactly once |
| AirlineSummary.SummarySheetShape | tests/test_part1_core_automation.py:308-345 | the sheet lists every record exactly once, with `airlines_count - 1` blank lines and `n + airlines_count - 1` lines in all |
| Part1Outcome.FailureRoundTrip | tests/test_part1_core_automation.py:77-88 | each failure message names its failure and carries the reason, error or status unchanged |
| Part1Outcome.FoundRoundTrip | tests/test_part1_core_automation.py:94-99 | the success message announces exactly its count; the no-flights message announces none |
| Part1Outcome.Export | tests/test_part1_core_automation.py:236-373 | Flight Details lists every record once; `total_flights` and `airlines_count` are the record and group counts; the summary sheet puts each group on consecutive lines from its start with a blank line before every group but the first, one line per record plus the blanks |
| Part1Outcome.SheetRowsMultiset | tests/test_part1_core_automation.py:262-269 | rows of two permuted record lists are permutations of each other |
| Part1Outcome.DetailsArePermutation | tests/test_part1_core_automation.py:256-269 | the Flight Details rows are a permutation of the records' rows |
| Part1Outcome.RunPart1 | tests/test_part1_core_automation.py:77-121 | completes iff the status is SUCCESS, with the failure for each other status; PASSED iff `before_count` > 0, else NO_FLIGHTS_FOUND; the message reads back as the count; the report's data is the consolidation of the dictionary's flights and its workbook is the export of the consolidated records |
| Part1Outcome.Part1OfEngine | tests/test_part1_core_automation.py:77-101 | on an engine result the test completes iff the engine succeeded, and a failure message carries the engine's reason or error; a completed run reports `before_count` and consolidates exactly the engine's records, with the detail rows a permutation of their sheet rows |
| Part1Outcome.ConsolidatesEngineFlights | tests/test_part1_core_automation.py:103-121 | on a successful engine result the valid flights are the engine's records, and the consolidated data and detail rows are permutations of their records and rows |
| Part1Outcome.PassedWithNothingExtracted | tests/test_part1_core_automation.py:92-101 | a run whose filters left no flight still passes, because the status follows the count before filtering |
| Config.FromDict | src/utils/config.py:40-54 | each of the eleven fields from its own key, with "" or 0 when the key is missing; the departure and arrival cities fall back to the legacy keys, never the other way |
| Config.ConfigRoundTrip | src/utils/config.py:40-54 | writing every field under its key and reading it back gives the same configuration |
| Config.EmptyDict | src/utils/config.py:42-54 | an empty object gives the all-default configuration |
| Config.RunConfigOf | src/automation/flight_filter_engine.py:106-110 | the engine routes by the legacy `from_city` and `to_city` fields |
| Config.NewKeysOnly | src/utils/config.py:44-51 | a test case naming its cities only under the new keys records them, while the engine searches from and to "" |
| Config.LegacyKeysOnly | src/utils/config.py:44-51 | a test case naming its cities only under the legacy keys fills both field pairs |
| Config.DefaultAppConfig | src/utils/config.py:57-79 | the default settings: visible browser, 30000 and 60000 ms timeouts, 1.0 s wait, 3 retries, INFO log to `easymytrip_automation.log`, results in `results` |
| Part2Outcomes.Classify | tests/test_part2_data_driven.py:88-124 | FAIL, ERROR, SUCCESS with and without flights, and any other status map one-to-one to the five filter statuses |
| Part2Outcomes.MessageCarriesDetail | tests/test_part2_data_driven.py:90-124 | the message of a FAIL, ERROR or unknown status ends with the reason, the error or the status |
| Part2Outcomes.RecordFor | tests/test_part2_data_driven.py:84-145 | a record is completed iff its call returned SUCCESS; a non-SUCCESS return before any SUCCESS becomes an execution failure; a later one reuses the last SUCCESS count; a record's flights, when present, are the returned dictionary's `ui_filtered_flights` |
| Part2Outcomes.LastSuccessCount | tests/test_part2_data_driven.py:108 | the value `flights_found` holds: unassigned exactly when no SUCCESS has happened yet |
| Part2Outcomes.FirstSuccess | tests/test_part2_data_driven.py:106-108 | the position of the first SUCCESS, or the number of calls |
| Part2Outcomes.ExpectedFailedStep | tests/test_part2_data_driven.py:92-134 | the failure count grows by one per non-SUCCESS, plus one more for a returned non-SUCCESS before any SUCCESS |
| Part2Outcomes.Run | tests/test_part2_data_driven.py:79-145 | one record per test case; `passed_tests` counts SUCCESS returns; `failed_tests` counts the rest plus the second count before the first SUCCESS |
| Part2Outcomes.CriticalFailures | tests/test_part2_data_driven.py:173-179 | the critical failures are exactly the tests that did not return SUCCESS |
| Part2Outcomes.RunFailsIffSomeNotSuccess | tests/test_part2_data_driven.py:173-191 | the run fails iff some test case did not return SUCCESS |
| Part2Outcomes.CountersAddUp | tests/test_part2_data_driven.py:106-134 | with only exceptions before the first SUCCESS, passed plus failed equals the number of tests |
| Part2Outcomes.FailureBeforeFirstSuccess | tests/test_part2_data_driven.py:130-145 | a returned non-SUCCESS before any SUCCESS is recorded as TEST_EXECUTION_FAILED and counted as failed twice |
| Part2Outcomes.StaleFlightCount | tests/test_part2_data_driven.py:108-130 | a returned non-SUCCESS after a SUCCESS keeps its own status but reports the last SUCCESS's flight count |
| Part2Outcomes.ResultColumn | tests/test_part2_data_driven.py:282 | COMPLETED iff the status is PASSED or NO_FLIGHTS_FOUND, else FAILED |
| Part2Outcomes.SummaryRowOf | tests/test_part2_data_driven.py:275-283 | id, status, count and Result of the record; the route from the legacy `from_city`/`to_city` joined by an arrow, the date and the stops label; "Test completed" when the record has no message |
| Part2Outcomes.SummarySheet | tests/test_part2_data_driven.py:272-283 | one row per record, in order |
| Part2Outcomes.SummaryResultColumn | tests/test_part2_data_driven.py:272-283 | a row says COMPLETED iff its test returned SUCCESS; an execution failure says FAILED with "Test completed" |
| Part2Outcomes.PriceRangeReadsBack | tests/test_part2_data_driven.py:279 | the price range column reads back as the two non-negative bounds |
| Part2Outcomes.PriceCell | tests/test_part2_data_driven.py:330-334 | a positive price shows as ₹ and an amount reading back as it; any other shows "N/A" |
| Part2Outcomes.SheetName | tests/test_part2_data_driven.py:311 | at most 31 characters, a prefix of `test_id + "_Details"`, the whole when it fits |
| Part2Outcomes.DetailSheetOf | tests/test_part2_data_driven.py:326-349 | the sheet is named `SheetName(test_id)`; one row per flight with its airline and price cell, each showing the first flight's codes |
| Part2Outcomes.DetailIndices | tests/test_part2_data_driven.py:222-223 | increasing positions, and a position is listed exactly when its record has a non-empty flight list |
| Part2Outcomes.DetailSheets | tests/test_part2_data_driven.py:222-224 | one sheet per record with a non-empty flight list, in record order: every such record gets its sheet, and no other record does |
| Part2Outcomes.DetailsOnlyForSuccess | tests/test_part2_data_driven.py:222-224 | on engine results only a SUCCESS run with flights gets a details sheet |
| Part2Outcomes.DetailRowsShowOwnCodes | tests/test_part2_data_driven.py:337-349 | when all flights carry the run's cached codes, each row shows its own flight's codes |

## Left out

- Browser I/O is left out, because it is effects against an uncontrolled site and the model takes its outcomes as inputs. This covers:
  - Playwright navigation, typing, clicks and fixed waits;
  - overlay removal;
  - the date field's assignment;
  - the three search-submission fallbacks;
  - the results-page wait.
- The composite visibility checks are left out: layout boxes, offset parents and computed styles arrive as booleans on each row (`laidOut`, `sheetVisible`), and the suggestion visibility filters (`offsetHeight`, `aria-hidden`) arrive applied. Only the inline styles the price script writes are modelled.
- PriceFilter.ApplyPriceFilter: the AngularJS scope writes, the slider's `values` call, the amount display and the `priceFilterChanged` events are left out. The model assumes that these neither throw nor restyle rows. It also assumes that the site's `window[...]` filter functions, called after the marking, do not restyle rows; their own exceptions are caught. Exceptions from `scope.$apply()` and `scope.$digest()` are modelled.
- CityMatch.SelectAmong: the "Click failed" answer, returned when clicking the chosen suggestion throws, is not modelled. The click is on an element just found in the list, so the model treats a confident match as selected.
- EngineRun.TestUiFilter: exceptions inside the stops and price filtering are caught by the filtering step itself and do not end the run; the model covers them through the click failures and page-script inputs.
- Extraction.ExtractFlights: the record fields `priceMatches`, `stopMatches`, `bothMatch` and `full_text` are not modelled, because nothing after the extractor reads them.
- The airline and flight-number scraping (CSS selectors, image alt text, airline-specific patterns) is left out; each row carries the scraped airline and flight number.
- CityMatch.CityVariations: Python's `lower`/`upper`/`title` and JavaScript's `toLowerCase` are modelled on ASCII letters only, because full Unicode case mapping is not modelled; other characters are left unchanged.
- CityMatch.SelectCity: the fallback path taken when the autocomplete was not detected while typing runs the same scoring and is not modelled separately.
- Consolidation.Summarize: the floating-point `avg_price` is not modelled, and neither is Part 2's `success_rate`.
- Part1Outcome.Export: cell styling, column widths, the timestamped file name and `workbook.save` are left out; only the ordered row contents and the returned counts are modelled.
- Part2Outcomes.DetailSheetOf: the spreadsheet library that creates the sheet is not part of this model, so the model always names the sheet `SheetName(test_id)`. The library does not always use that title:
  - a title equal to an existing sheet's title, ignoring case, gets a number appended; two test ids that share their first 23 characters are enough;
  - a title containing `\ * ? : / [ ]` is refused with an error.
- Part2Outcomes.DetailSheets: a record whose title the library refuses gets no sheet, because the handler only logs the error. The model still lists one sheet for every record with flights.
- Part2Outcomes.Run: `execution_time` (a clock read) is not modelled.
- Part2Outcomes.UnboundMessage: the text of the unbound-variable exception depends on the Python version; the model uses one wording for it.
- Part2Outcomes.RunFailsIffSomeNotSuccess: the failure-details loop calls `.get` on a `TestConfig` object and raises an AttributeError. The model states only that the run fails exactly when the critical count is positive, not which exception ends it.
- Config.FromDict: JSON values of the wrong type (a string price, a numeric city) are not modelled; the object is two maps, string-valued and integer-valued keys.
- The engine's own `TestConfig` dataclass is not modelled; `EngineRun.RunConfig` holds the fields the engine reads.
- `src/utils/logger.py`, `run_tests.py` and `conftest.py` are not modelled: they are logging setup, subprocess orchestration and pytest fixtures (JSON loading, process killing).
- Behaviours of the code that the model keeps, although a reader might expect otherwise:
  - **Stop labels.** The stops filter accepts "Nonstop", "1-stop", "One Stop" and "Two Stop", yet the extractor never matches them (`Extraction.UnmatchedLabelExtractsNothing`).
  - **Price bounds.** Rows are hidden for the range clamped to the slider, while the extractor checks the requested range.
  - **Malformed date.** A date without two dashes raises inside the search, and the search fails (`EngineRun.PerformSearch`).
  - **Exception text.** The engine's error text reaches the Part 2 message column (`Part2Outcomes.MessageCarriesDetail`).
  - **Escaping exceptions.** The unassigned `flights_found` raises in the batch loop (`Part2Outcomes.FailureBeforeFirstSuccess`).

=== FILE: airline_summary.dfy ===
/** Part 1's "Airline Summary" sheet: the consolidated records grouped by
    airline name in order of first appearance, each group sorted by price,
    the groups ordered by their lowest price, and laid out from row 2 with
    one blank row between consecutive groups. */
module AirlineSummary {
  import opened Common
  import opened StableSort
  import opened Consolidation

  /** The airline names in order of first appearance: the key order of the
      grouping dictionary. */
  function GroupNames(recs: seq<Record>): (names: seq<string>)
    ensures forall i, j :: 0 <= i < j < |names| ==> names[i] != names[j]
    ensures forall a :: a in names <==> exists k :: 0 <= k < |recs| && recs[k].airlineName == a
  {
    if recs == [] then []
    else
      var names := GroupNames(Init(recs));
      var a := recs[|recs| - 1].airlineName;
      assert forall k :: 0 <= k < |recs| - 1 ==> Init(recs)[k] == recs[k];
      if a in names then names else names + [a]
  }

  /** Airline `a` occurs in `recs` before the first record of airline `b`. */
  ghost predicate AppearsBefore(recs: seq<Record>, a: string, b: string) {
    exists k :: 0 <= k < |recs| && recs[k].airlineName == a
      && forall k' :: 0 <= k' <= k ==> recs[k'].airlineName != b
  }

  /** The names are in order of first appearance: an earlier name occurs
      before the first record of every later one. */
  lemma {:induction false} GroupNamesFirstAppearance(recs: seq<Record>)
    ensures forall i, j :: 0 <= i < j < |GroupNames(recs)| ==>
      AppearsBefore(recs, GroupNames(recs)[i], GroupNames(recs)[j])
  {
    if recs != [] {
      var init := Init(recs);
      var old_ := GroupNames(init);
      var a := recs[|recs| - 1].airlineName;
      GroupNamesFirstAppearance(init);
      assert forall k :: 0 <= k < |recs| - 1 ==> init[k] == recs[k];
      forall i, j | 0 <= i < j < |old_|
        ensures AppearsBefore(recs, old_[i], old_[j])
      {
        assert AppearsBefore(init, old_[i], old_[j]);
        var k :| 0 <= k < |init| && init[k].airlineName == old_[i]
          && forall k' :: 0 <= k' <= k ==> init[k'].airlineName != old_[j];
        assert recs[k].airlineName == old_[i];
      }
      if a !in old_ {
        var names := old_ + [a];
        forall i | 0 <= i < |old_|
          ensures AppearsBefore(recs, old_[i], a)
        {
          assert old_[i] in old_;
          var k :| 0 <= k < |init| && init[k].airlineName == old_[i];
          assert recs[k].airlineName == old_[i];
        }
        assert forall i, j :: 0 <= i < j < |names| ==> AppearsBefore(recs, names[i], names[j]);
      }
    }
  }

  /** The records of airline `a`, in their order in `recs`. */
  function Members(recs: seq<Record>, a: string): (group: seq<Record>)
    ensures forall r :: r in group <==> r in recs && r.airlineName == a
  {
    if recs == [] then []
    else
      var last := recs[|recs| - 1];
      assert recs == Init(recs) + [last];
      Members(Init(recs), a) + (if last.airlineName == a then [last] else [])
  }

  /** The lowest price of airline `a`'s records; `None` when it has none. */
  function GroupMin(recs: seq<Record>, a: string): (m: Option<int>)
    ensures m.None? <==> forall k :: 0 <= k < |recs| ==> recs[k].airlineName != a
    ensures m.Some? ==> exists k :: 0 <= k < |recs| && recs[k].airlineName == a && recs[k].priceNumeric == m.value
    ensures m.Some? ==> forall k :: 0 <= k < |recs| && recs[k].airlineName == a ==> m.value <= recs[k].priceNumeric
  {
    if recs == [] then None
    else
      var last := recs[|recs| - 1];
      var m := GroupMin(Init(recs), a);
      assert forall k :: 0 <= k < |recs| - 1 ==> Init(recs)[k] == recs[k];
      if last.airlineName != a then m
      else if m.None? || last.priceNumeric < m.value then Some(last.priceNumeric)
      else m
  }

  /** The sort key of a group: its lowest price. */
  function GroupKey(recs: seq<Record>): string -> int {
    a => GroupMin(recs, a).GetOr(0)
  }

  /** `sorted(airline_groups.keys(), key=<lowest price>)`. */
  function SortedAirlines(recs: seq<Record>): (names: seq<string>)
    ensures multiset(names) == multiset(GroupNames(recs))
    ensures SortedBy(names, GroupKey(recs))
  {
    SortBy(GroupNames(recs), GroupKey(recs))
  }

  /** A group after `airline_groups[airline].sort(key=price_numeric)`. */
  function SortedGroup(recs: seq<Record>, a: string): (group: seq<Record>)
    ensures multiset(group) == multiset(Members(recs, a))
    ensures SortedBy(group, PriceOf)
  {
    SortBy(Members(recs, a), PriceOf)
  }

  /** One line of the summary sheet below the header. */
  datatype Line = Blank | Filled(row: SheetRow)

  function Rows(group: seq<Record>): (lines: seq<Line>)
    ensures |lines| == |group|
    ensures forall k :: 0 <= k < |group| ==> lines[k] == Filled(SheetRowOf(group[k]))
  {
    seq(|group|, k requires 0 <= k < |group| => Filled(SheetRowOf(group[k])))
  }

  /** The groups' records one after another. */
  function Flatten(groups: seq<seq<Record>>): seq<Record> {
    if groups == [] then [] else groups[0] + Flatten(groups[1..])
  }

  /** The non-blank lines, in order. */
  function FilledRows(lines: seq<Line>): seq<SheetRow> {
    if lines == [] then []
    else (if lines[0].Filled? then [lines[0].row] else []) + FilledRows(lines[1..])
  }

  function BlankCount(lines: seq<Line>): nat {
    if lines == [] then 0 else (if lines[0].Blank? then 1 else 0) + BlankCount(lines[1..])
  }

  /** The lines from row 2 on: each group's rows, with one blank line
      before every group but the first. */
  function Layout(groups: seq<seq<Record>>): seq<Line>
    decreases |groups|
  {
    if groups == [] then []
    else if |groups| == 1 then Rows(groups[0])
    else Rows(groups[0]) + [Blank] + Layout(groups[1..])
  }

  function TotalSize(groups: seq<seq<Record>>): nat {
    if groups == [] then 0 else |groups[0]| + TotalSize(groups[1..])
  }

  /** The line where group `i` starts: the lines of the groups before it,
      each followed by its blank line (the `current_row` of the group's
      first record, counted from row 2). */
  function Start(groups: seq<seq<Record>>, i: nat): nat
    requires i <= |groups|
  {
    if i == 0 then 0 else |groups[0]| + 1 + Start(groups[1..], i - 1)
  }

  /** Record `k` of group `i` sits on line `Start(groups, i) + k`. */
  predicate RecordAt(groups: seq<seq<Record>>, lines: seq<Line>, i: nat, k: nat)
    requires i < |groups| && k < |groups[i]|
  {
    Start(groups, i) + k < |lines| && lines[Start(groups, i) + k] == Filled(SheetRowOf(groups[i][k]))
  }

  /** The line just before group `i` is blank. */
  predicate BlankAt(groups: seq<seq<Record>>, lines: seq<Line>, i: nat)
    requires 0 < i < |groups|
  {
    Start(groups, i) <= |lines| && lines[Start(groups, i) - 1] == Blank
  }

  /** `lines` holds every group's records on consecutive lines from the
      group's start, with a blank line right before every group but the
      first. */
  predicate LaidOut(groups: seq<seq<Record>>, lines: seq<Line>) {
    (forall i: nat, k: nat :: i < |groups| && k < |groups[i]| ==> RecordAt(groups, lines, i, k))
    && (forall i: nat :: 0 < i < |groups| ==> BlankAt(groups, lines, i))
  }

  lemma LayoutPositions(groups: seq<seq<Record>>)
    ensures LaidOut(groups, Layout(groups))
  {
    var lines := Layout(groups);
    forall i: nat, k: nat | i < |groups| && k < |groups[i]|
      ensures RecordAt(groups, lines, i, k)
    {
      RecordLine(groups, i, k);
    }
    forall i: nat | 0 < i < |groups|
      ensures BlankAt(groups, lines, i)
    {
      BlankBefore(groups, i);
    }
  }

  /** Record `k` of group `i` is on line `Start(groups, i) + k`. */
  lemma {:induction false} RecordLine(groups: seq<seq<Record>>, i: nat, k: nat)
    requires i < |groups| && k < |groups[i]|
    ensures RecordAt(groups, Layout(groups), i, k)
    decreases i
  {
    if |groups| == 1 {
      assert Layout(groups) == Rows(groups[0]);
    } else {
      var rest := groups[1..];
      assert Layout(groups) == Rows(groups[0]) + [Blank] + Layout(rest);
      if i > 0 {
        RecordLine(rest, i - 1, k);
        assert groups[i] == rest[i - 1];
      }
    }
  }

  /** The line just before group `i`, for every group but the first, is blank. */
  lemma {:induction false} BlankBefore(groups: seq<seq<Record>>, i: nat)
    requires 0 < i < |groups|
    ensures BlankAt(groups, Layout(groups), i)
    decreases i
  {
    var rest := groups[1..];
    assert Layout(groups) == Rows(groups[0]) + [Blank] + Layout(rest);
    if i > 1 {
      BlankBefore(rest, i - 1);
    }
  }

  lemma {:induction false} FilledRowsAppend(a: seq<Line>, b: seq<Line>)
    ensures FilledRows(a + b) == FilledRows(a) + FilledRows(b)
    ensures BlankCount(a + b) == BlankCount(a) + BlankCount(b)
  {
    if a == [] {
      assert a + b == b;
    } else {
      var ab := a + b;
      assert ab[0] == a[0];
      assert ab[1..] == a[1..] + b;
      FilledRowsAppend(a[1..], b);
      assert FilledRows(ab) == (if a[0].Filled? then [a[0].row] else []) + FilledRows(a[1..] + b);
    }
  }

  lemma {:induction false} RowsAreFilled(group: seq<Record>)
    ensures FilledRows(Rows(group)) == seq(|group|, k requires 0 <= k < |group| => SheetRowOf(group[k]))
    ensures BlankCount(Rows(group)) == 0
  {
    if group != [] {
      RowsAreFilled(group[1..]);
      assert Rows(group)[1..] == Rows(group[1..]);
    }
  }

  /** The layout holds every record of every group, in group order, with
      exactly one blank line between consecutive groups: `n` records in
      `g` groups occupy `n + g - 1` lines, so the last used row is
      `1 + n + g - 1`. */
  lemma {:induction false} LayoutShape(groups: seq<seq<Record>>)
    requires groups != []
    ensures |Layout(groups)| == TotalSize(groups) + |groups| - 1
    ensures BlankCount(Layout(groups)) == |groups| - 1
    ensures FilledRows(Layout(groups)) == SheetRowsOf(Flatten(groups))
    ensures LaidOut(groups, Layout(groups))
    decreases |groups|
  {
    LayoutPositions(groups);
    RowsAreFilled(groups[0]);
    if |groups| == 1 {
      assert groups[1..] == [];
      assert Flatten(groups) == groups[0] + Flatten([]);
    } else {
      var head, rest := Rows(groups[0]), Layout(groups[1..]);
      assert Layout(groups) == (head + [Blank]) + rest;
      LayoutShape(groups[1..]);
      LayoutStep(head, rest);
      SheetRowsAppend(groups[0], Flatten(groups[1..]));
      assert FilledRows(head) == SheetRowsOf(groups[0]);
    }
  }

  /** One group's lines, a blank line, and the lines of the rest. */
  lemma LayoutStep(head: seq<Line>, rest: seq<Line>)
    ensures FilledRows(head + [Blank] + rest) == FilledRows(head) + FilledRows(rest)
    ensures BlankCount(head + [Blank] + rest) == BlankCount(head) + 1 + BlankCount(rest)
  {
    var blank: seq<Line> := [Blank];
    FilledRowsAppend(head + blank, rest);
    FilledRowsAppend(head, blank);
    assert blank[1..] == [];
    assert FilledRows(blank) == [] + FilledRows([]);
    assert BlankCount(blank) == 1 + BlankCount([]);
  }

  function SheetRowsOf(recs: seq<Record>): (rows: seq<SheetRow>)
    ensures |rows| == |recs|
    ensures forall k :: 0 <= k < |recs| ==> rows[k] == SheetRowOf(recs[k])
  {
    seq(|recs|, k requires 0 <= k < |recs| => SheetRowOf(recs[k]))
  }

  lemma SheetRowsAppend(a: seq<Record>, b: seq<Record>)
    ensures SheetRowsOf(a + b) == SheetRowsOf(a) + SheetRowsOf(b)
  {
  }

  /** The groups in sheet order. */
  function Groups(recs: seq<Record>): (groups: seq<seq<Record>>)
    ensures |groups| == |GroupNames(recs)|
  {
    var names := SortedAirlines(recs);
    seq(|names|, i requires 0 <= i < |names| => SortedGroup(recs, names[i]))
  }

  /** The summary sheet's lines below the header. */
  function SummarySheet(recs: seq<Record>): seq<Line> {
    Layout(Groups(recs))
  }

  /** `airlines_count`: the number of groups. */
  function AirlinesCount(recs: seq<Record>): (n: nat)
    ensures n == |GroupNames(recs)|
    ensures n <= |recs|
    ensures recs != [] ==> n >= 1
  {
    NamesAtMostRecords(recs);
    assert recs != [] ==> recs[0].airlineName in GroupNames(recs);
    |GroupNames(recs)|
  }

  lemma {:induction false} NamesAtMostRecords(recs: seq<Record>)
    ensures |GroupNames(recs)| <= |recs|
  {
    if recs != [] {
      NamesAtMostRecords(Init(recs));
    }
  }

  // ---------------------------------------------------- sorted input

  /** The records of one airline taken from a price-sorted list are
      already sorted, so sorting the group changes nothing. */
  lemma SortedGroupOfSorted(recs: seq<Record>, a: string)
    requires SortedBy(recs, PriceOf)
    ensures SortedGroup(recs, a) == Members(recs, a)
  {
    MembersSorted(recs, a);
    SortBySorted(Members(recs, a), PriceOf);
  }

  lemma {:induction false} MembersSorted(recs: seq<Record>, a: string)
    requires SortedBy(recs, PriceOf)
    ensures SortedBy(Members(recs, a), PriceOf)
  {
    if recs != [] {
      var init, last := Init(recs), recs[|recs| - 1];
      assert SortedBy(init, PriceOf) by {
        forall i, j | 0 <= i < j < |init|
          ensures PriceOf(init[i]) <= PriceOf(init[j])
        {
          assert init[i] == recs[i] && init[j] == recs[j];
        }
      }
      MembersSorted(init, a);
      var g := Members(init, a);
      forall r | r in g
        ensures PriceOf(r) <= PriceOf(last)
      {
        var k :| 0 <= k < |init| && init[k] == r;
        assert recs[k] == r;
      }
      if last.airlineName == a {
        SortedAppendLargest(g, last, PriceOf);
      }
    }
  }

  /** In a price-sorted list the airlines appear in order of their lowest
      price, so ordering the groups by lowest price keeps the order of
      first appearance. */
  lemma SortedAirlinesOfSorted(recs: seq<Record>)
    requires SortedBy(recs, PriceOf)
    ensures SortedAirlines(recs) == GroupNames(recs)
  {
    NamesByLowestPrice(recs);
    SortBySorted(GroupNames(recs), GroupKey(recs));
  }

  /** Adding a record at the end of a price-sorted list leaves the lowest
      price of every airline seen before unchanged, and no higher than the
      new record's. */
  lemma MinUnchanged(recs: seq<Record>, a: string)
    requires recs != [] && SortedBy(recs, PriceOf)
    requires a in GroupNames(Init(recs))
    ensures GroupMin(Init(recs), a).Some?
    ensures GroupMin(recs, a) == GroupMin(Init(recs), a)
    ensures GroupMin(Init(recs), a).value <= recs[|recs| - 1].priceNumeric
  {
    var init := Init(recs);
    var k :| 0 <= k < |init| && init[k].airlineName == a;
    var m := GroupMin(init, a);
    var j :| 0 <= j < |init| && init[j].airlineName == a && init[j].priceNumeric == m.value;
    assert init[j] == recs[j];
    assert PriceOf(recs[j]) <= PriceOf(recs[|recs| - 1]);
  }

  lemma SortedSameKeys(names: seq<string>, key: string -> int, key0: string -> int)
    requires SortedBy(names, key0)
    requires forall a :: a in names ==> key(a) == key0(a)
    ensures SortedBy(names, key)
  {
    forall i, j | 0 <= i < j < |names| ensures key(names[i]) <= key(names[j]) {
      assert key0(names[i]) <= key0(names[j]);
    }
  }

  lemma SortedAppendLargest<T>(names: seq<T>, x: T, key: T -> int)
    requires SortedBy(names, key)
    requires forall a :: a in names ==> key(a) <= key(x)
    ensures SortedBy(names + [x], key)
  {
    var all := names + [x];
    forall i, j | 0 <= i < j < |all| ensures key(all[i]) <= key(all[j]) {
      assert all[i] == names[i];
      if j < |names| {
        assert all[j] == names[j];
      }
    }
  }

  lemma {:induction false} NamesByLowestPrice(recs: seq<Record>)
    requires SortedBy(recs, PriceOf)
    ensures SortedBy(GroupNames(recs), GroupKey(recs))
  {
    if recs != [] {
      var init, last := Init(recs), recs[|recs| - 1];
      assert SortedBy(init, PriceOf) by {
        assert forall k :: 0 <= k < |init| ==> init[k] == recs[k];
      }
      NamesByLowestPrice(init);
      var names := GroupNames(init);
      var key, key0 := GroupKey(recs), GroupKey(init);
      forall a | a in names
        ensures key(a) == key0(a) && key(a) <= last.priceNumeric
      {
        MinUnchanged(recs, a);
      }
      SortedSameKeys(names, key, key0);
      if last.airlineName !in names {
        assert key(last.airlineName) == last.priceNumeric;
        SortedAppendLargest(names, last.airlineName, key);
      }
    }
  }

  /** Every record lands in exactly one group: the group of its airline,
      which appears once among the group names. */
  lemma RecordInOneGroup(recs: seq<Record>, r: Record)
    requires r in recs
    ensures r.airlineName in GroupNames(recs)
    ensures forall a :: r in Members(recs, a) <==> a == r.airlineName
  {
    var k :| 0 <= k < |recs| && recs[k] == r;
  }

  /** With sorted input the summary sheet shows each airline's records in
      their consolidated order, the airlines in order of first appearance. */
  lemma SummaryOfSortedInput(recs: seq<Record>)
    requires SortedBy(recs, PriceOf)
    ensures Groups(recs) == seq(|GroupNames(recs)|, i requires 0 <= i < |GroupNames(recs)| => Members(recs, GroupNames(recs)[i]))
  {
    SortedAirlinesOfSorted(recs);
    forall a ensures SortedGroup(recs, a) == Members(recs, a) {
      SortedGroupOfSorted(recs, a);
    }
  }
  // ------------------------------------------------------- partition

  predicate Distinct(names: seq<string>) {
    forall i, j :: 0 <= i < j < |names| ==> names[i] != names[j]
  }

  /** The groups of the airlines `names`, in that order. */
  function MembersOf(recs: seq<Record>, names: seq<string>): (groups: seq<seq<Record>>)
    ensures |groups| == |names|
    ensures forall i :: 0 <= i < |names| ==> groups[i] == Members(recs, names[i])
  {
    seq(|names|, i requires 0 <= i < |names| => Members(recs, names[i]))
  }

  lemma {:induction false} FlattenSize(groups: seq<seq<Record>>)
    ensures |Flatten(groups)| == TotalSize(groups)
  {
    if groups != [] {
      FlattenSize(groups[1..]);
    }
  }

  lemma {:induction false} FlattenEmpty(groups: seq<seq<Record>>)
    requires forall i :: 0 <= i < |groups| ==> groups[i] == []
    ensures Flatten(groups) == []
  {
    if groups != [] {
      FlattenEmpty(groups[1..]);
    }
  }

  /** Adding a record to one group adds it once to the flattened groups. */
  lemma {:induction false} FlattenAddAt(groups: seq<seq<Record>>, i: nat, x: Record)
    requires i < |groups|
    ensures multiset(Flatten(groups[i := groups[i] + [x]])) == multiset(Flatten(groups)) + multiset{x}
  {
    var grown := groups[i := groups[i] + [x]];
    if i == 0 {
      assert grown[1..] == groups[1..];
    } else {
      assert grown[1..] == groups[1..][i - 1 := groups[i] + [x]];
      FlattenAddAt(groups[1..], i - 1, x);
    }
  }

  lemma {:induction false} FlattenSameMultisets(g1: seq<seq<Record>>, g2: seq<seq<Record>>)
    requires |g1| == |g2|
    requires forall i :: 0 <= i < |g1| ==> multiset(g1[i]) == multiset(g2[i])
    ensures multiset(Flatten(g1)) == multiset(Flatten(g2))
  {
    if g1 != [] {
      FlattenSameMultisets(g1[1..], g2[1..]);
    }
  }

  /** Grouping by a list of distinct names that covers every airline puts
      every record in exactly one group. */
  lemma {:induction false} Partition(recs: seq<Record>, names: seq<string>)
    requires Distinct(names)
    requires forall r :: r in recs ==> r.airlineName in names
    ensures multiset(Flatten(MembersOf(recs, names))) == multiset(recs)
  {
    if recs == [] {
      FlattenEmpty(MembersOf(recs, names));
    } else {
      var init, last := Init(recs), recs[|recs| - 1];
      assert recs == init + [last];
      Partition(init, names);
      var i :| 0 <= i < |names| && names[i] == last.airlineName;
      var before := MembersOf(init, names);
      MembersOfSnoc(init, last, names, i);
      FlattenAddAt(before, i, last);
    }
  }

  /** A record added at the end joins its own airline's group only. */
  lemma MembersOfSnoc(init: seq<Record>, last: Record, names: seq<string>, i: nat)
    requires Distinct(names)
    requires i < |names| && names[i] == last.airlineName
    ensures var before := MembersOf(init, names);
      MembersOf(init + [last], names) == before[i := before[i] + [last]]
  {
    var recs := init + [last];
    assert Init(recs) == init;
    var before := MembersOf(init, names);
    var after := before[i := before[i] + [last]];
    forall j | 0 <= j < |names|
      ensures MembersOf(recs, names)[j] == after[j]
    {
      assert Members(recs, names[j]) == Members(init, names[j]) + (if last.airlineName == names[j] then [last] else []);
    }
  }

  lemma {:induction false} DistinctCount(s: seq<string>, x: string)
    requires Distinct(s)
    ensures multiset(s)[x] <= 1
  {
    if s != [] {
      assert s == [s[0]] + s[1..];
      DistinctCount(s[1..], x);
      if s[0] == x {
        assert x !in s[1..];
      }
    }
  }

  /** A reordering of distinct names is distinct and has the same names. */
  lemma PermutationDistinct(s: seq<string>, t: seq<string>)
    requires Distinct(s)
    requires multiset(t) == multiset(s)
    ensures Distinct(t)
    ensures forall x :: x in t <==> x in s
  {
    forall x ensures x in t <==> x in s {
      assert x in t <==> x in multiset(t);
      assert x in s <==> x in multiset(s);
    }
    forall i, j | 0 <= i < j < |t| ensures t[i] != t[j] {
      if t[i] == t[j] {
        assert t == t[..j] + t[j..];
        assert t[i] in t[..j];
        assert t[j] in t[j..];
        assert multiset(t)[t[i]] == multiset(t[..j])[t[i]] + multiset(t[j..])[t[i]];
        DistinctCount(s, t[i]);
        assert false;
      }
    }
  }

  /** The summary sheet lists every consolidated record exactly once:
      its groups together are a reordering of the records, and with `n`
      records in `g` groups its lines run from row 2 to row `1 + n + g - 1`,
      `g - 1` of them blank. */
  lemma SummarySheetShape(recs: seq<Record>)
    ensures multiset(Flatten(Groups(recs))) == multiset(recs)
    ensures FilledRows(SummarySheet(recs)) == SheetRowsOf(Flatten(Groups(recs)))
    ensures recs != [] ==> |SummarySheet(recs)| == |recs| + AirlinesCount(recs) - 1
    ensures recs != [] ==> BlankCount(SummarySheet(recs)) == AirlinesCount(recs) - 1
  {
    if recs == [] {
      assert Groups(recs) == [];
      return;
    }
    var names := SortedAirlines(recs);
    PermutationDistinct(GroupNames(recs), names);
    forall r | r in recs ensures r.airlineName in names {
      RecordInOneGroup(recs, r);
    }
    Partition(recs, names);
    var groups := Groups(recs);
    forall i | 0 <= i < |groups| ensures multiset(groups[i]) == multiset(MembersOf(recs, names)[i]) {
    }
    FlattenSameMultisets(groups, MembersOf(recs, names));
    assert |Flatten(groups)| == |recs| by {
      assert |multiset(Flatten(groups))| == |multiset(recs)|;
    }
    FlattenSize(groups);
    assert groups != [] by {
      assert recs[0] in multiset(Flatten(groups));
    }
    LayoutShape(groups);
  }
}

=== FILE: city_match.dfy ===
/** The city selector's matching rule: the name variations tried, the
    tiered score of one suggestion against one variation, and the choice of
    the best (suggestion, variation) pair above the confidence threshold. */
module CityMatch {
  import opened Common
  import opened Text

  /** The name as typed, its lower-, upper- and title-case forms, plus three
      "new delhi" aliases for Delhi and three spellings of "goa" for Goa. */
  function CityVariations(name: string): (vs: seq<string>)
    ensures |vs| == (if Lower(name) == "delhi" || Lower(name) == "goa" then 7 else 4)
    ensures vs[0] == name
    ensures Lower(name) == "delhi" ==> vs[4] == "new delhi"
    ensures forall k :: 0 <= k < |vs| ==>
      Lower(vs[k]) == Lower(name) || (Lower(name) == "delhi" && Lower(vs[k]) == "new delhi")
  {
    LowerAbsorbs(name);
    assert Lower("New Delhi") == "new delhi" && Lower("NEW DELHI") == "new delhi" && Lower("new delhi") == "new delhi";
    assert Lower("GOA") == "goa" && Lower("Goa") == "goa" && Lower("goa") == "goa";
    [name, Lower(name), Upper(name), Title(name)]
    + (if Lower(name) == "delhi" then ["new delhi", "New Delhi", "NEW DELHI"] else [])
    + (if Lower(name) == "goa" then ["goa", "GOA", "Goa"] else [])
  }

  /** The city part of a suggestion text: what precedes the first `(`, trimmed. */
  function CityPart(itemText: string): (city: string)
    ensures '(' !in city
    ensures city == [] || (!IsSpace(city[0]) && !IsSpace(city[|city| - 1]))
  {
    var head := Split(itemText, '(')[0];
    TrimKeeps(head);
    Trim(head)
  }

  /** The score of a lower-cased suggestion city against a lower-cased
      variation: equal 1000, suggestion starts with variation 900, variation
      starts with suggestion 850, suggestion contains variation 700,
      variation contains suggestion 650; each tier but the first needs the
      shorter side to have at least two characters. */
  function TierScore(sug: string, vari: string): (score: int)
    ensures score in {0, 650, 700, 850, 900, 1000}
    ensures score == 1000 <==> sug == vari
    ensures score > 0 <==>
      sug == vari || (Contains(sug, vari) && |vari| >= 2) || (Contains(vari, sug) && |sug| >= 2)
  {
    if sug == vari then 1000
    else if vari <= sug && |vari| >= 2 then 900
    else if sug <= vari && |sug| >= 2 then 850
    else if Contains(sug, vari) && |vari| >= 2 then 700
    else if Contains(vari, sug) && |sug| >= 2 then 650
    else 0
  }

  /** The score of suggestion text `itemText` against `variation`. */
  function Score(itemText: string, variation: string): int {
    TierScore(Lower(CityPart(itemText)), Lower(variation))
  }

  /** Scoring ignores the case of the variation, so the case variants of
      the name score exactly like the name itself. */
  lemma ScoreIgnoresCase(itemText: string, name: string)
    ensures Score(itemText, Lower(name)) == Score(itemText, name)
    ensures Score(itemText, Upper(name)) == Score(itemText, name)
    ensures Score(itemText, Title(name)) == Score(itemText, name)
  {
    LowerAbsorbs(name);
  }

  /** Only the lower-case form of a variation matters to its score. */
  lemma SameLowerSameScore(itemText: string, v: string, w: string)
    requires Lower(v) == Lower(w)
    ensures Score(itemText, v) == Score(itemText, w)
  {
  }

  /** The scores of one suggestion against every variation, in order. */
  function ScoreRow(itemText: string, vars: seq<string>): (row: seq<int>)
    ensures |row| == |vars|
    ensures forall j :: 0 <= j < |vars| ==> row[j] == Score(itemText, vars[j])
  {
    seq(|vars|, j requires 0 <= j < |vars| => Score(itemText, vars[j]))
  }

  /** The scores of every suggestion against every variation. */
  function ScoreTable(items: seq<string>, vars: seq<string>): (table: seq<seq<int>>)
    ensures |table| == |items|
    ensures forall i :: 0 <= i < |items| ==> table[i] == ScoreRow(items[i], vars)
  {
    seq(|items|, i requires 0 <= i < |items| => ScoreRow(items[i], vars))
  }

  /** The largest of some scores, 0 when there are none or all are negative. */
  function MaxOf(xs: seq<int>): (m: int)
    ensures m >= 0
    ensures forall k :: 0 <= k < |xs| ==> xs[k] <= m
    ensures m == 0 || m in xs
  {
    if xs == [] then 0
    else
      var rest := MaxOf(xs[1..]);
      assert xs == [xs[0]] + xs[1..];
      if xs[0] > rest then xs[0] else rest
  }

  /** A row of variations that all lower-case to one of two words scores
      at most what those two words score. */
  lemma RowAtMost(itemText: string, vs: seq<string>, w1: string, w2: string, bound: int)
    requires forall k :: 0 <= k < |vs| ==> Lower(vs[k]) == Lower(w1) || Lower(vs[k]) == Lower(w2)
    requires Score(itemText, w1) <= bound && Score(itemText, w2) <= bound
    ensures forall k :: 0 <= k < |vs| ==> ScoreRow(itemText, vs)[k] <= bound
  {
    forall k | 0 <= k < |vs|
      ensures ScoreRow(itemText, vs)[k] <= bound
    {
      if Lower(vs[k]) == Lower(w1) {
        SameLowerSameScore(itemText, vs[k], w1);
      } else {
        SameLowerSameScore(itemText, vs[k], w2);
      }
    }
  }

  /** Adding case variants never changes what a suggestion can score: the
      best score over all variations is the score of the name itself, or of
      "new delhi" when that is higher and the name is Delhi. */
  lemma VariationsBestScore(itemText: string, name: string)
    ensures MaxOf(ScoreRow(itemText, CityVariations(name))) ==
      if Lower(name) == "delhi" && Score(itemText, "new delhi") > Score(itemText, name)
      then Score(itemText, "new delhi") else Score(itemText, name)
  {
    var vs := CityVariations(name);
    var row := ScoreRow(itemText, vs);
    var a, b := Score(itemText, name), Score(itemText, "new delhi");
    var delhi := Lower(name) == "delhi";
    var expected := if delhi && b > a then b else a;
    if delhi {
      assert Lower("new delhi") == "new delhi";
      RowAtMost(itemText, vs, name, "new delhi", expected);
      assert row[4] == b;
    } else {
      RowAtMost(itemText, vs, name, name, expected);
    }
    assert row[0] == a;
  }

  /** Pair `(i, j)` is visited before pair `(bi, bj)` by the nested loops. */
  predicate Earlier(i: nat, j: nat, bi: nat, bj: nat) {
    i < bi || (i == bi && j < bj)
  }

  /** The nested scoring loops over a table of scores: `best` is the first
      (suggestion, variation) pair with the strictly highest positive score,
      `None` when nothing scores above zero. */
  method BestMatch(table: seq<seq<int>>) returns (best: Option<(nat, nat)>, bestScore: int)
    ensures bestScore >= 0
    ensures forall i, j :: 0 <= i < |table| && 0 <= j < |table[i]| ==> table[i][j] <= bestScore
    ensures best.None? <==> bestScore == 0
    ensures best.Some? ==>
      best.value.0 < |table| && best.value.1 < |table[best.value.0]|
      && table[best.value.0][best.value.1] == bestScore
    ensures best.Some? ==>
      forall i, j :: 0 <= i < |table| && 0 <= j < |table[i]| && Earlier(i, j, best.value.0, best.value.1)
        ==> table[i][j] < bestScore
  {
    best, bestScore := None, 0;
    var i := 0;
    while i < |table|
      invariant 0 <= i <= |table|
      invariant bestScore >= 0
      invariant best.None? <==> bestScore == 0
      invariant forall i', j' :: 0 <= i' < i && 0 <= j' < |table[i']| ==> table[i'][j'] <= bestScore
      invariant best.Some? ==>
        best.value.0 < i && best.value.1 < |table[best.value.0]|
        && table[best.value.0][best.value.1] == bestScore
      invariant best.Some? ==>
        forall i', j' :: 0 <= i' < |table| && 0 <= j' < |table[i']| && Earlier(i', j', best.value.0, best.value.1)
          ==> table[i'][j'] < bestScore
    {
      var j := 0;
      while j < |table[i]|
        invariant 0 <= j <= |table[i]|
        invariant bestScore >= 0
        invariant best.None? <==> bestScore == 0
        invariant forall i', j' :: 0 <= i' < i && 0 <= j' < |table[i']| ==> table[i'][j'] <= bestScore
        invariant forall j' :: 0 <= j' < j ==> table[i][j'] <= bestScore
        invariant best.Some? ==>
          best.value.0 <= i && best.value.1 < |table[best.value.0]|
          && (best.value.0 == i ==> best.value.1 < j)
          && table[best.value.0][best.value.1] == bestScore
        invariant best.Some? ==>
          forall i', j' :: 0 <= i' < |table| && 0 <= j' < |table[i']| && Earlier(i', j', best.value.0, best.value.1)
            ==> table[i'][j'] < bestScore
      {
        var score := table[i][j];
        if score > 0 && score > bestScore {
          best, bestScore := Some((i, j)), score;
        }
        j := j + 1;
      }
      i := i + 1;
    }
  }

  /** Drops the empty strings, keeping the order of the rest. */
  function NonEmpty(ss: seq<string>): (r: seq<string>)
    ensures |r| <= |ss|
    ensures forall x :: x in r <==> x in ss && x != ""
  {
    if ss == [] then []
    else
      var rest := NonEmpty(ss[1..]);
      assert ss == [ss[0]] + ss[1..];
      if ss[0] == "" then rest else [ss[0]] + rest
  }

  /** Every text trimmed, `text.trim()` for each. */
  function TrimAll(texts: seq<string>): (trimmed: seq<string>)
    ensures |trimmed| == |texts|
    ensures forall k :: 0 <= k < |texts| ==> trimmed[k] == Trim(texts[k])
  {
    seq(|texts|, k requires 0 <= k < |texts| => Trim(texts[k]))
  }

  /** The suggestions the selector considers: trimmed texts that are not
      empty, in page order. */
  function ValidSuggestions(texts: seq<string>): (valid: seq<string>)
    ensures |valid| <= |texts|
    ensures forall x :: x in valid <==> x in TrimAll(texts) && x != ""
    ensures valid == [] <==> forall k :: 0 <= k < |texts| ==> Trim(texts[k]) == ""
  {
    var trimmed := TrimAll(texts);
    var valid := NonEmpty(trimmed);
    forall k | 0 <= k < |texts| && valid == []
      ensures Trim(texts[k]) == ""
    {
      assert trimmed[k] in trimmed;
    }
    assert valid != [] ==> valid[0] in trimmed;
    valid
  }

  /** The minimum score a selection must reach. */
  const Threshold := 300

  datatype SelectError = NoValidSuggestions | NoConfidentMatch

  datatype Selection = Selection(text: string, score: int)

  /** What the best pair of a score table says about the scores of the
      suggestions and variations it was built from. */
  lemma BestOfTable(items: seq<string>, vars: seq<string>, best: Option<(nat, nat)>, bestScore: int)
    requires var table := ScoreTable(items, vars);
      && (forall i, j :: 0 <= i < |table| && 0 <= j < |table[i]| ==> table[i][j] <= bestScore)
      && (best.None? <==> bestScore == 0)
      && (best.Some? ==> best.value.0 < |table| && best.value.1 < |table[best.value.0]|
                         && table[best.value.0][best.value.1] == bestScore)
    ensures forall x, v :: x in items && v in vars ==> Score(x, v) <= bestScore
    ensures best.Some? ==> best.value.0 < |items| && best.value.1 < |vars|
                           && Score(items[best.value.0], vars[best.value.1]) == bestScore
                           && bestScore >= 650
  {
    var table := ScoreTable(items, vars);
    forall x, v | x in items && v in vars
      ensures Score(x, v) <= bestScore
    {
      var i :| 0 <= i < |items| && items[i] == x;
      var j :| 0 <= j < |vars| && vars[j] == v;
      assert table[i][j] == Score(x, v);
    }
    if best.Some? {
      var (i, j) := best.value;
      assert table[i][j] == Score(items[i], vars[j]);
    }
  }

  /** Suggestion `i` is the one the selector keeps with score `score`: some
      variation gives it that score, no pair scores more, and every earlier
      suggestion scores strictly less with every variation (the loop only
      replaces its best pair on a strictly higher score). */
  ghost predicate TopAt(valid: seq<string>, vars: seq<string>, i: nat, score: int) {
    i < |valid|
    && (exists v :: v in vars && Score(valid[i], v) == score)
    && (forall x, v :: x in valid && v in vars ==> Score(x, v) <= score)
    && (forall i', v :: 0 <= i' < i && v in vars ==> Score(valid[i'], v) < score)
  }

  /** `sel` is the suggestion the selector keeps, with its score. */
  ghost predicate KeptSelection(valid: seq<string>, vars: seq<string>, sel: Selection) {
    exists i: nat :: TopAt(valid, vars, i, sel.score) && valid[i] == sel.text
  }

  /** The kept suggestion and its score are determined by the suggestions
      and the variations. */
  lemma TopAtUnique(valid: seq<string>, vars: seq<string>, i1: nat, s1: int, i2: nat, s2: int)
    requires TopAt(valid, vars, i1, s1) && TopAt(valid, vars, i2, s2)
    ensures i1 == i2 && s1 == s2
  {
    var v1 :| v1 in vars && Score(valid[i1], v1) == s1;
    var v2 :| v2 in vars && Score(valid[i2], v2) == s2;
    assert valid[i1] in valid && valid[i2] in valid;
  }

  /** At most one selection is the kept one, so the selection is fixed by
      the suggestions and the variations. */
  lemma KeptSelectionUnique(valid: seq<string>, vars: seq<string>, a: Selection, b: Selection)
    requires KeptSelection(valid, vars, a) && KeptSelection(valid, vars, b)
    ensures a == b
  {
    var i: nat :| TopAt(valid, vars, i, a.score) && valid[i] == a.text;
    var j: nat :| TopAt(valid, vars, j, b.score) && valid[j] == b.text;
    TopAtUnique(valid, vars, i, a.score, j, b.score);
    assert a == Selection(valid[i], a.score) && b == Selection(valid[j], b.score);
  }

  /** The first strictly best pair of the score table is the kept suggestion. */
  lemma BestIsTop(valid: seq<string>, vars: seq<string>, i: nat, j: nat, bestScore: int)
    requires var table := ScoreTable(valid, vars);
      && i < |valid| && j < |vars| && Score(valid[i], vars[j]) == bestScore
      && (forall x, v :: x in valid && v in vars ==> Score(x, v) <= bestScore)
      && (forall i', j' :: 0 <= i' < |table| && 0 <= j' < |table[i']| && Earlier(i', j', i, j)
            ==> table[i'][j'] < bestScore)
    ensures TopAt(valid, vars, i, bestScore)
  {
    var table := ScoreTable(valid, vars);
    assert vars[j] in vars;
    forall i', v | 0 <= i' < i && v in vars
      ensures Score(valid[i'], v) < bestScore
    {
      var j' :| 0 <= j' < |vars| && vars[j'] == v;
      assert Earlier(i', j', i, j);
      assert table[i'][j'] == Score(valid[i'], v);
    }
  }

  /** The selection among the suggestions for a given list of variations:
      it fails when no suggestion has text, and otherwise picks the
      best-scoring pair when its score reaches the threshold. */
  method SelectAmong(vars: seq<string>, suggestions: seq<string>) returns (r: Result<Selection, SelectError>)
    ensures r == Err(NoValidSuggestions) <==> forall k :: 0 <= k < |suggestions| ==> Trim(suggestions[k]) == ""
    ensures r.Ok? <==> exists x, v :: x in ValidSuggestions(suggestions) && v in vars && Score(x, v) > 0
    ensures r.Ok? ==>
      r.value.text in ValidSuggestions(suggestions) && r.value.score >= Threshold
      && (exists v :: v in vars && Score(r.value.text, v) == r.value.score)
      && forall x, v :: x in ValidSuggestions(suggestions) && v in vars ==> Score(x, v) <= r.value.score
    ensures r.Ok? ==> KeptSelection(ValidSuggestions(suggestions), vars, r.value)
  {
    var valid := ValidSuggestions(suggestions);
    if valid == [] {
      return Err(NoValidSuggestions);
    }
    var table := ScoreTable(valid, vars);
    var best, bestScore := BestMatch(table);
    BestOfTable(valid, vars, best, bestScore);
    if best.Some? && bestScore >= Threshold {
      var (i, j) := best.value;
      assert vars[j] in vars && valid[i] in valid;
      BestIsTop(valid, vars, i, j, bestScore);
      assert KeptSelection(valid, vars, Selection(valid[i], bestScore));
      r := Ok(Selection(valid[i], bestScore));
    } else {
      r := Err(NoConfidentMatch);
    }
  }

  /** The selection step of the city selector for a typed city name: the
      variations of the name against the suggestions. Because every
      non-zero tier is at least 650, the selection succeeds exactly when
      some pair scores above zero. */
  method SelectCity(name: string, suggestions: seq<string>) returns (r: Result<Selection, SelectError>)
    ensures r == Err(NoValidSuggestions) <==> forall k :: 0 <= k < |suggestions| ==> Trim(suggestions[k]) == ""
    ensures r.Ok? <==> exists x, v :: x in ValidSuggestions(suggestions) && v in CityVariations(name) && Score(x, v) > 0
    ensures r.Ok? ==>
      r.value.text in ValidSuggestions(suggestions) && r.value.score >= Threshold
      && (exists v :: v in CityVariations(name) && Score(r.value.text, v) == r.value.score)
      && forall x, v :: x in ValidSuggestions(suggestions) && v in CityVariations(name) ==> Score(x, v) <= r.value.score
    ensures r.Ok? ==> KeptSelection(ValidSuggestions(suggestions), CityVariations(name), r.value)
  {
    r := SelectAmong(CityVariations(name), suggestions);
  }
}

=== FILE: common.dfy ===
/** Failure-compatible wrappers and sequence helpers shared by every module
    of the model.

    The automation code signals absence with Python's `None`/JavaScript's
    `null` and failure with exceptions or `{success: false}` dictionaries;
    here both become ordinary values. */
module Common {

  /** A value that may be absent (`None`, `null`, a missing attribute). */
  datatype Option<+T> = None | Some(value: T) {

    /** The carried value, or `default` when absent (Python's `dict.get(k, default)`). */
    function GetOr(default: T): T {
      match this
      case Some(v) => v
      case None => default
    }
  }

  /** The outcome of an operation that either yields a value or fails with a reason. */
  datatype Result<+T, +E> = Ok(value: T) | Err(error: E)

  /** The sequence without its last element. */
  function Init<T>(s: seq<T>): seq<T>
    requires s != []
  {
    s[..|s| - 1]
  }

  function Last<T>(s: seq<T>): T
    requires s != []
  {
    s[|s| - 1]
  }

  /** Python's `str.startswith`. */
  predicate StartsWith<T(==)>(s: seq<T>, prefix: seq<T>) {
    |prefix| <= |s| && s[..|prefix|] == prefix
  }

  /** Python's `str.endswith`. */
  predicate EndsWith<T(==)>(s: seq<T>, suffix: seq<T>) {
    |suffix| <= |s| && s[|s| - |suffix|..] == suffix
  }
}

=== FILE: config.dfy ===
/** The test configuration record and the application defaults. A test
    case read from a JSON object becomes a `TestConfig` by key lookups
    with fallbacks; the engine reads the legacy `from_city`/`to_city`
    fields of that record. */
module Config {
  import opened Common
  import opened EngineRun

  datatype TestConfig = TestConfig(
    testId: string,
    departureCity: string, arrivalCity: string,
    departureDate: string, stopsFilter: string, airlineFilter: string,
    description: string,
    fromCity: string, toCity: string,
    priceMin: int, priceMax: int)

  /** A JSON object of a test case: its string-valued and its
      integer-valued keys. */
  datatype ConfigDict = ConfigDict(text: map<string, string>, numbers: map<string, int>)

  /** `data.get(key, default)` on the string-valued keys. */
  function Text(d: ConfigDict, key: string, default: string): string {
    if key in d.text then d.text[key] else default
  }

  /** `data.get(key, default)` on the integer-valued keys. */
  function Number(d: ConfigDict, key: string, default: int): int {
    if key in d.numbers then d.numbers[key] else default
  }

  /** `TestConfig.from_dict`: every field from its own key, missing keys
      giving "" or 0; the departure and arrival cities fall back to the
      legacy `from_city` and `to_city` keys, while the legacy fields never
      fall back to the new ones. */
  function FromDict(d: ConfigDict): (c: TestConfig)
    ensures "departure_city" in d.text ==> c.departureCity == d.text["departure_city"]
    ensures "departure_city" !in d.text ==> c.departureCity == c.fromCity
    ensures "arrival_city" in d.text ==> c.arrivalCity == d.text["arrival_city"]
    ensures "arrival_city" !in d.text ==> c.arrivalCity == c.toCity
    ensures c.fromCity == (if "from_city" in d.text then d.text["from_city"] else "")
    ensures c.toCity == (if "to_city" in d.text then d.text["to_city"] else "")
    ensures c.testId == (if "test_id" in d.text then d.text["test_id"] else "")
    ensures c.departureDate == (if "departure_date" in d.text then d.text["departure_date"] else "")
    ensures c.stopsFilter == (if "stops_filter" in d.text then d.text["stops_filter"] else "")
    ensures c.airlineFilter == (if "airline_filter" in d.text then d.text["airline_filter"] else "")
    ensures c.description == (if "description" in d.text then d.text["description"] else "")
    ensures c.priceMin == (if "price_min" in d.numbers then d.numbers["price_min"] else 0)
    ensures c.priceMax == (if "price_max" in d.numbers then d.numbers["price_max"] else 0)
  {
    TestConfig(
      Text(d, "test_id", ""),
      Text(d, "departure_city", Text(d, "from_city", "")),
      Text(d, "arrival_city", Text(d, "to_city", "")),
      Text(d, "departure_date", ""),
      Text(d, "stops_filter", ""),
      Text(d, "airline_filter", ""),
      Text(d, "description", ""),
      Text(d, "from_city", ""),
      Text(d, "to_city", ""),
      Number(d, "price_min", 0),
      Number(d, "price_max", 0))
  }

  /** The JSON object holding every field of a configuration under its own key. */
  function DictOf(c: TestConfig): ConfigDict {
    ConfigDict(
      map["test_id" := c.testId, "departure_city" := c.departureCity, "arrival_city" := c.arrivalCity,
          "departure_date" := c.departureDate, "stops_filter" := c.stopsFilter,
          "airline_filter" := c.airlineFilter, "description" := c.description,
          "from_city" := c.fromCity, "to_city" := c.toCity],
      map["price_min" := c.priceMin, "price_max" := c.priceMax])
  }

  /** Writing every field out and reading it back gives the same configuration. */
  lemma ConfigRoundTrip(c: TestConfig)
    ensures FromDict(DictOf(c)) == c
  {
  }

  /** An object with no keys gives the all-default configuration. */
  lemma EmptyDict()
    ensures FromDict(ConfigDict(map[], map[])) == TestConfig("", "", "", "", "", "", "", "", "", 0, 0)
  {
  }

  /** The fields the engine reads: it routes by the legacy `from_city` and
      `to_city` fields. */
  function RunConfigOf(c: TestConfig): (r: RunConfig)
    ensures r.fromCity == c.fromCity && r.toCity == c.toCity
    ensures r.testId == c.testId && r.departureDate == c.departureDate && r.stopsFilter == c.stopsFilter
    ensures r.priceMin == c.priceMin && r.priceMax == c.priceMax
  {
    RunConfig(c.testId, c.description, c.fromCity, c.toCity, c.departureDate, c.stopsFilter, c.priceMin, c.priceMax)
  }

  /** A test case that names its cities only under the new keys is recorded
      with those cities, yet the engine is asked to search from and to the
      empty city name. */
  lemma NewKeysOnly(d: ConfigDict, from: string, to: string)
    requires d.text == map["departure_city" := from, "arrival_city" := to]
    ensures FromDict(d).departureCity == from && FromDict(d).arrivalCity == to
    ensures RunConfigOf(FromDict(d)).fromCity == "" && RunConfigOf(FromDict(d)).toCity == ""
  {
  }

  /** A test case that names its cities only under the legacy keys fills
      both the new and the legacy fields with them. */
  lemma LegacyKeysOnly(d: ConfigDict, from: string, to: string)
    requires d.text == map["from_city" := from, "to_city" := to]
    ensures FromDict(d).departureCity == from && FromDict(d).fromCity == from
    ensures FromDict(d).arrivalCity == to && FromDict(d).toCity == to
    ensures RunConfigOf(FromDict(d)).fromCity == from && RunConfigOf(FromDict(d)).toCity == to
  {
  }

  /** Application-wide settings. */
  datatype AppConfig = AppConfig(
    browserHeadless: bool, browserTimeout: int, pageLoadTimeout: int,
    waitBetweenActions: real, maxRetries: int,
    logLevel: string, logFile: string, resultsDir: string)

  /** `AppConfig.get_default()`: a visible browser, a 30-second action
      timeout, a 60-second page-load timeout, one second between actions,
      three retries, INFO logging to `easymytrip_automation.log`, results
      under `results`. */
  function DefaultAppConfig(): (c: AppConfig)
    ensures !c.browserHeadless
    ensures c.browserTimeout == 30000 && c.pageLoadTimeout == 60000
    ensures c.waitBetweenActions == 1.0 && c.maxRetries == 3
    ensures c.logLevel == "INFO" && c.logFile == "easymytrip_automation.log" && c.resultsDir == "results"
  {
    AppConfig(false, 30000, 60000, 1.0, 3, "INFO", "easymytrip_automation.log", "results")
  }
}

=== FILE: consolidation.dfy ===
/** Part 1's consolidation of the extracted flights: one report record per
    flight, the records sorted by price, a summary of airlines and prices,
    and the rows of the "Flight Details" sheet. */
module Consolidation {
  import opened Common
  import opened NumberFormat
  import opened StableSort
  import opened Extraction

  /** A flight dictionary as the report code reads it: each key may be
      missing, and the code falls back to a default for it. */
  datatype RawFlight = RawFlight(
    airline: Option<string>, flightNumber: Option<string>, price: Option<int>,
    stops: Option<string>, fromCode: Option<string>, toCode: Option<string>)

  /** The dictionary the extractor builds for a record: every key present. */
  function RawOf(f: UiFlight): RawFlight {
    RawFlight(Some(f.airline), Some(f.flightNumber), Some(f.price), Some(f.stops), Some(f.fromCode), Some(f.toCode))
  }

  /** One consolidated report record. */
  datatype Record = Record(
    airlineName: string, price: string, priceNumeric: int,
    fromAirportCode: string, toAirportCode: string, flightNumber: string, stops: string)

  /** The sort key of the report: `price_numeric`. */
  function PriceOf(r: Record): int { r.priceNumeric }

  /** `f'FL{i:03d}'`: "FL" and the position, zero-padded to three digits. */
  function DefaultFlightNumber(i: nat): (s: string)
    ensures |s| >= 5 && s[..2] == "FL"
    ensures AllDigits(s[2..]) && DecimalValue(s[2..]) == i
  {
    PaddedValue(i, 3);
    var s := "FL" + ZeroPadded(i, 3);
    assert s[2..] == ZeroPadded(i, 3);
    s
  }

  /** The record for the `i`-th flight (counting from 1): the airline
      defaults to "Unknown", the price to 0, the codes to "N/A", the flight
      number to `DefaultFlightNumber(i)` and the stops to the test's stops
      filter. The displayed price is the rupee sign and the comma-grouped
      amount, and it reads back as the numeric price. */
  function ToRecord(f: RawFlight, i: nat, stopsFilter: string): (r: Record)
    ensures r.priceNumeric == f.price.GetOr(0)
    ensures |r.price| >= 2 && r.price[0] == Rupee
    ensures r.priceNumeric >= 0 ==> DigitsOrCommas(r.price[1..]) && ParseGrouped(r.price[1..]) == Some(r.priceNumeric)
    ensures r.airlineName == f.airline.GetOr("Unknown")
    ensures r.fromAirportCode == f.fromCode.GetOr("N/A") && r.toAirportCode == f.toCode.GetOr("N/A")
    ensures f.flightNumber.None? ==> r.flightNumber == DefaultFlightNumber(i)
    ensures f.flightNumber.Some? ==> r.flightNumber == f.flightNumber.value
    ensures r.stops == f.stops.GetOr(stopsFilter)
  {
    var p := f.price.GetOr(0);
    RupeesReadBack(p);
    Record(f.airline.GetOr("Unknown"), Rupees(p), p, f.fromCode.GetOr("N/A"), f.toCode.GetOr("N/A"),
           f.flightNumber.GetOr(DefaultFlightNumber(i)), f.stops.GetOr(stopsFilter))
  }

  /** A displayed price is the rupee sign and at least one more
      character; for a non-negative amount the rest reads back as it. */
  lemma RupeesReadBack(p: int)
    ensures |Rupees(p)| >= 2 && Rupees(p)[0] == Rupee
    ensures p >= 0 ==> DigitsOrCommas(Rupees(p)[1..]) && ParseGrouped(Rupees(p)[1..]) == Some(p)
  {
    if p >= 0 {
      ThousandsRoundTrip(p);
      ThousandsStartsWithDigit(p);
      assert Rupees(p)[1..] == Thousands(p);
    } else {
      ThousandsStartsWithDigit(-p);
    }
  }

  /** The records of `flights`, numbered from 1, in input order. */
  function Records(flights: seq<RawFlight>, stopsFilter: string): (recs: seq<Record>)
    ensures |recs| == |flights|
    ensures forall k :: 0 <= k < |flights| ==> recs[k] == ToRecord(flights[k], k + 1, stopsFilter)
  {
    seq(|flights|, k requires 0 <= k < |flights| => ToRecord(flights[k], k + 1, stopsFilter))
  }

  /** A record built from an extractor record never falls back to a
      default: every column carries the extractor's value. */
  lemma EngineRecordKeepsValues(f: UiFlight, i: nat, stopsFilter: string)
    ensures var r := ToRecord(RawOf(f), i, stopsFilter);
      r.airlineName == f.airline && r.priceNumeric == f.price && r.flightNumber == f.flightNumber
      && r.stops == f.stops && r.fromAirportCode == f.fromCode && r.toAirportCode == f.toCode
  {
  }

  // ---------------------------------------------------------------- summary

  /** The distinct airline names other than "Unknown". */
  function KnownAirlines(recs: seq<Record>): (names: set<string>)
    ensures forall a :: a in names <==> a != "Unknown" && exists k :: 0 <= k < |recs| && recs[k].airlineName == a
  {
    set k | 0 <= k < |recs| && recs[k].airlineName != "Unknown" :: recs[k].airlineName
  }

  /** The strictly positive prices, in record order. */
  function PositivePrices(recs: seq<Record>): (ps: seq<int>)
    ensures |ps| <= |recs|
    ensures forall p :: p in ps <==> p > 0 && exists k :: 0 <= k < |recs| && recs[k].priceNumeric == p
  {
    if recs == [] then []
    else
      var rest := PositivePrices(recs[1..]);
      assert forall k :: 1 <= k < |recs| ==> recs[k] == recs[1..][k - 1];
      (if recs[0].priceNumeric > 0 then [recs[0].priceNumeric] else []) + rest
  }

  /** `min(xs) if xs else 0` */
  function MinOr0(xs: seq<int>): (m: int)
    ensures xs == [] ==> m == 0
    ensures xs != [] ==> m in xs && forall x :: x in xs ==> m <= x
  {
    if xs == [] then 0
    else if |xs| == 1 then xs[0]
    else
      var rest := MinOr0(xs[1..]);
      assert forall x :: x in xs ==> x == xs[0] || x in xs[1..];
      if xs[0] <= rest then xs[0] else rest
  }

  /** `max(xs) if xs else 0` */
  function MaxOr0(xs: seq<int>): (m: int)
    ensures xs == [] ==> m == 0
    ensures xs != [] ==> m in xs && forall x :: x in xs ==> x <= m
  {
    if xs == [] then 0
    else if |xs| == 1 then xs[0]
    else
      var rest := MaxOr0(xs[1..]);
      assert forall x :: x in xs ==> x == xs[0] || x in xs[1..];
      if xs[0] >= rest then xs[0] else rest
  }

  /** The consolidation summary (the floating-point average is not modelled). */
  datatype Summary = Summary(uniqueAirlines: nat, airlinesList: set<string>, minPrice: int, maxPrice: int, totalFlights: nat)

  /** The summary of a list of records: the known airlines and their
      number, the least and the greatest strictly positive price (0 when
      there is none), and the number of records. */
  function Summarize(recs: seq<Record>): (s: Summary)
    ensures s.airlinesList == KnownAirlines(recs) && s.uniqueAirlines == |s.airlinesList|
    ensures s.totalFlights == |recs|
    ensures forall k :: 0 <= k < |recs| && recs[k].priceNumeric > 0 ==>
      0 < s.minPrice <= recs[k].priceNumeric <= s.maxPrice
    ensures (forall k :: 0 <= k < |recs| ==> recs[k].priceNumeric <= 0) ==> s.minPrice == 0 && s.maxPrice == 0
    ensures s.minPrice != 0 ==> exists k :: 0 <= k < |recs| && recs[k].priceNumeric == s.minPrice
    ensures s.maxPrice != 0 ==> exists k :: 0 <= k < |recs| && recs[k].priceNumeric == s.maxPrice
  {
    var ps := PositivePrices(recs);
    var names := KnownAirlines(recs);
    assert forall k :: 0 <= k < |recs| && recs[k].priceNumeric > 0 ==> recs[k].priceNumeric in ps;
    if ps == [] then Summary(|names|, names, 0, 0, |recs|)
    else Summary(|names|, names, MinOr0(ps), MaxOr0(ps), |recs|)
  }

  // ---------------------------------------------------------- consolidation

  /** What the consolidation step returns; `summary` is `None` for the
      empty dictionary `{}` of the no-flights case. */
  datatype Consolidated = Consolidated(
    validFlights: seq<RawFlight>, consolidatedData: seq<Record>, filteredCount: nat, summary: Option<Summary>)

  /** `_extract_and_consolidate_data` on the result's `ui_filtered_flights`
      (`None` when the key is missing). With no flights everything is
      empty; otherwise every flight is kept, its records are sorted by
      price and summarised. */
  function Consolidate(uiFlights: Option<seq<RawFlight>>, stopsFilter: string): (c: Consolidated)
    ensures uiFlights.GetOr([]) == [] ==> c == Consolidated([], [], 0, None)
    ensures c.validFlights == uiFlights.GetOr([]) && c.filteredCount == |c.validFlights|
    ensures |c.consolidatedData| == c.filteredCount
    ensures multiset(c.consolidatedData) == multiset(Records(c.validFlights, stopsFilter))
    ensures SortedBy(c.consolidatedData, PriceOf)
    ensures c.summary.Some? <==> c.filteredCount > 0
    ensures c.summary.Some? ==> c.summary.value == Summarize(Records(c.validFlights, stopsFilter))
  {
    var flights := uiFlights.GetOr([]);
    if flights == [] then Consolidated([], [], 0, None)
    else
      var recs := Records(flights, stopsFilter);
      Consolidated(flights, SortBy(recs, PriceOf), |flights|, Some(Summarize(recs)))
  }

  /** The sort is stable: records with equal prices keep their input order. */
  lemma ConsolidatedStable(uiFlights: Option<seq<RawFlight>>, stopsFilter: string, price: int)
    ensures var c := Consolidate(uiFlights, stopsFilter);
      WithKey(c.consolidatedData, PriceOf, price) == WithKey(Records(c.validFlights, stopsFilter), PriceOf, price)
  {
    var flights := uiFlights.GetOr([]);
    if flights != [] {
      SortByStable(Records(flights, stopsFilter), PriceOf, price);
    }
  }

  /** The summary does not depend on the order of the records: sorting
      them first gives the same summary. */
  lemma SummaryOfSorted(uiFlights: Option<seq<RawFlight>>, stopsFilter: string)
    requires uiFlights.GetOr([]) != []
    ensures var c := Consolidate(uiFlights, stopsFilter);
      Summarize(c.consolidatedData) == c.summary.value
  {
    var c := Consolidate(uiFlights, stopsFilter);
    SummaryPermutation(Records(c.validFlights, stopsFilter), c.consolidatedData);
  }

  lemma SummaryPermutation(a: seq<Record>, b: seq<Record>)
    requires multiset(a) == multiset(b)
    ensures Summarize(a) == Summarize(b)
  {
    SameElements(a, b);
    assert |a| == |multiset(a)| == |multiset(b)| == |b|;
    SamePositivePrices(a, b);
    SameBounds(PositivePrices(a), PositivePrices(b));
    SameAirlines(a, b);
  }

  lemma SamePositivePrices(a: seq<Record>, b: seq<Record>)
    requires forall x :: x in a <==> x in b
    ensures forall v :: v in PositivePrices(a) <==> v in PositivePrices(b)
  {
    var pa, pb := PositivePrices(a), PositivePrices(b);
    forall v ensures v in pa <==> v in pb {
      if v in pa {
        var k :| 0 <= k < |a| && a[k].priceNumeric == v;
        assert a[k] in b;
      }
      if v in pb {
        var j :| 0 <= j < |b| && b[j].priceNumeric == v;
        assert b[j] in a;
      }
    }
  }

  lemma SameAirlines(a: seq<Record>, b: seq<Record>)
    requires forall x :: x in a <==> x in b
    ensures KnownAirlines(a) == KnownAirlines(b)
  {
    var na, nb := KnownAirlines(a), KnownAirlines(b);
    forall v ensures v in na <==> v in nb {
      if v in na {
        var k :| 0 <= k < |a| && a[k].airlineName == v;
        assert a[k] in b;
      }
      if v in nb {
        var j :| 0 <= j < |b| && b[j].airlineName == v;
        assert b[j] in a;
      }
    }
  }

  /** The least and the greatest element depend only on which values occur. */
  lemma SameBounds(xs: seq<int>, ys: seq<int>)
    requires forall v :: v in xs <==> v in ys
    ensures MinOr0(xs) == MinOr0(ys) && MaxOr0(xs) == MaxOr0(ys)
  {
    if xs != [] {
      assert xs[0] in xs;
    }
    if ys != [] {
      assert ys[0] in ys;
    }
  }

  lemma SameElements(a: seq<Record>, b: seq<Record>)
    requires multiset(a) == multiset(b)
    ensures forall x :: x in a <==> x in b
  {
    forall x ensures x in a <==> x in b {
      assert x in a <==> x in multiset(a);
    }
  }

  // ---------------------------------------------------------- sheet rows

  /** One row of a four-column flight sheet. */
  datatype SheetRow = SheetRow(airlineName: string, price: string, fromCode: string, toCode: string)

  function SheetRowOf(r: Record): SheetRow {
    SheetRow(r.airlineName, r.price, r.fromAirportCode, r.toAirportCode)
  }

  /** The "Flight Details" rows: the records sorted by price once more,
      one row each. */
  function FlightDetails(data: seq<Record>): (rows: seq<SheetRow>)
    ensures |rows| == |data|
  {
    var sorted := SortBy(data, PriceOf);
    seq(|sorted|, k requires 0 <= k < |sorted| => SheetRowOf(sorted[k]))
  }

  /** Because the consolidated records are already sorted, the second sort
      changes nothing: the detail rows follow the consolidated order, one
      per flight, with the records' own columns. */
  lemma FlightDetailsFollowConsolidated(uiFlights: Option<seq<RawFlight>>, stopsFilter: string)
    ensures var c := Consolidate(uiFlights, stopsFilter);
      var rows := FlightDetails(c.consolidatedData);
      |rows| == c.filteredCount
      && forall k :: 0 <= k < |rows| ==> rows[k] == SheetRowOf(c.consolidatedData[k])
  {
    var c := Consolidate(uiFlights, stopsFilter);
    SortBySorted(c.consolidatedData, PriceOf);
  }
}

=== FILE: dom.dfy ===
/** The parts of a rendered results page the filters and the extractor
    read: one record per `.fltResult` row. Everything the browser computes
    (layout, stylesheets, airline scraping through selectors and image
    alt text) arrives here already evaluated. */
module Dom {
  import opened Common

  /** What `parseInt(row.getAttribute('price'))` yields. */
  datatype PriceAttr =
    | NoAttribute          // the row has no `price` attribute at all
    | NotANumber           // the attribute is present but parses to NaN
    | Number(value: int)

  /** One flight row of the results list.
      - `stop`: the `stop` attribute (`None` when absent);
      - `text`: the row's `textContent`;
      - `laidOut`: the parts of the browser's visibility check that no
        script here writes (a layout box, an offset parent, stylesheet
        `display`, the `hidden` flag);
      - `sheetVisible`: the stylesheet's `visibility` is not `hidden`;
      - `displayNone`: the row's inline style says `display: none`;
      - `inlineVisible`: the row's inline `visibility`, `None` when unset;
      - `airline`, `flightNumber`: what the selector- and pattern-based
        scraping chain found for the row. */
  datatype FlightRow = FlightRow(
    price: PriceAttr,
    stop: Option<string>,
    text: string,
    laidOut: bool,
    sheetVisible: bool,
    displayNone: bool,
    inlineVisible: Option<bool>,
    airline: string,
    flightNumber: string)
  {
    /** The composite visibility check of the extractor and the counter:
        an inline `visibility` overrides the stylesheet's. */
    predicate Visible() {
      laidOut && !displayNone && inlineVisible.GetOr(sheetVisible)
    }

    /** Selected by `.fltResult[price]`. */
    predicate HasPrice() { !price.NoAttribute? }

    /** Selected by `.fltResult[price][stop]`. */
    predicate HasPriceAndStop() { HasPrice() && stop.Some? }
  }

  /** The visible-flight counter: rows carrying both a `price` and a `stop`
      attribute that pass the visibility check. */
  function CountVisible(rows: seq<FlightRow>): (n: nat)
    ensures n <= |rows|
    ensures n == 0 <==> forall k :: 0 <= k < |rows| ==> !(rows[k].HasPriceAndStop() && rows[k].Visible())
  {
    if rows == [] then 0
    else
      assert forall k :: 1 <= k < |rows| ==> rows[k] == rows[1..][k - 1];
      (if rows[0].HasPriceAndStop() && rows[0].Visible() then 1 else 0) + CountVisible(rows[1..])
  }

  /** Counting over two stretches of rows adds up. */
  lemma {:induction false} CountVisibleAppend(a: seq<FlightRow>, b: seq<FlightRow>)
    ensures CountVisible(a + b) == CountVisible(a) + CountVisible(b)
  {
    if a != [] {
      assert (a + b)[1..] == a[1..] + b;
      CountVisibleAppend(a[1..], b);
    } else {
      assert a + b == b;
    }
  }
}

=== FILE: engine_helpers.dfy ===
/** Small pure helpers of the filter engine: the departure-date rewrite for
    the date field, airport-code extraction from a selected suggestion, and
    the per-run cache of the codes found for each side of the route. */
module EngineHelpers {
  import opened Common
  import opened Text

  /** `year, month, day = date_str.split('-')` raised because the split did
      not give exactly three pieces. */
  datatype DateError = WrongPartCount(parts: nat)

  /** `YYYY-MM-DD` becomes `DD/MM/YYYY`: the three dash-separated pieces in
      reverse order, joined by slashes; any other number of pieces fails. */
  function FormatDateForInput(date: string): (r: Result<string, DateError>)
    ensures r.Ok? <==> Count(date, '-') == 2
    ensures r.Err? ==> r.error == WrongPartCount(Count(date, '-') + 1)
    ensures r.Ok? ==> Count(r.value, '-') == 0 && |r.value| == |date|
  {
    var parts := Split(date, '-');
    if |parts| != 3 then Err(WrongPartCount(|parts|))
    else
      var out := parts[2] + "/" + parts[1] + "/" + parts[0];
      JoinSplit(date, '-');
      JoinThree(parts[0], parts[1], parts[2], '-');
      assert parts == [parts[0], parts[1], parts[2]];
      CountZero(out, '-');
      Ok(out)
  }

  /** The inverse rewrite, `DD/MM/YYYY` back to `YYYY-MM-DD`. */
  function InputDateToIso(shown: string): Result<string, DateError> {
    var parts := Split(shown, '/');
    if |parts| != 3 then Err(WrongPartCount(|parts|))
    else Ok(parts[2] + "-" + parts[1] + "-" + parts[0])
  }

  lemma JoinThree(a: string, b: string, c: string, sep: char)
    ensures Join([a, b, c], sep) == a + [sep] + b + [sep] + c
  {
    assert [a, b, c][1..] == [b, c];
    assert [b, c][1..] == [c];
    assert Join([c], sep) == c;
    assert Join([b, c], sep) == b + [sep] + c;
  }

  /** A date built from three dash-free pieces is rewritten piece for piece,
      e.g. "2025-12-01" becomes "01/12/2025". */
  lemma FormatDateOfParts(year: string, month: string, day: string)
    requires '-' !in year && '-' !in month && '-' !in day
    ensures FormatDateForInput(year + "-" + month + "-" + day) == Ok(day + "/" + month + "/" + year)
  {
    JoinThree(year, month, day, '-');
    SplitJoin([year, month, day], '-');
  }

  /** Reading the rewritten field back gives the original date, for every
      date the rewrite accepts that has no slash in it. */
  lemma FormatDateRoundTrip(date: string)
    requires '/' !in date
    requires FormatDateForInput(date).Ok?
    ensures InputDateToIso(FormatDateForInput(date).value) == Ok(date)
  {
    var parts := Split(date, '-');
    JoinSplit(date, '-');
    JoinThree(parts[0], parts[1], parts[2], '-');
    assert parts == [parts[0], parts[1], parts[2]];
    var out := parts[2] + "/" + parts[1] + "/" + parts[0];
    JoinThree(parts[2], parts[1], parts[0], '/');
    assert '/' !in parts[0] && '/' !in parts[1] && '/' !in parts[2] by {
      assert date == parts[0] + "-" + parts[1] + "-" + parts[2];
    }
    SplitJoin([parts[2], parts[1], parts[0]], '/');
  }

  /** The regular expression `\(([A-Z]{3})\)` matches at position `i`. */
  predicate CodeAt(t: string, i: nat) {
    i + 5 <= |t| && t[i] == '(' && IsUpper(t[i + 1]) && IsUpper(t[i + 2]) && IsUpper(t[i + 3]) && t[i + 4] == ')'
  }

  /** The leftmost match at or after position `i`, as `re.search` finds it. */
  function FirstCodeFrom(t: string, i: nat): (r: Option<nat>)
    requires i <= |t|
    ensures r.Some? ==> i <= r.value && CodeAt(t, r.value)
    ensures r.Some? ==> forall j :: i <= j < r.value ==> !CodeAt(t, j)
    ensures r.None? ==> forall j :: i <= j < |t| ==> !CodeAt(t, j)
    decreases |t| - i
  {
    if i + 5 > |t| then None
    else if CodeAt(t, i) then Some(i)
    else FirstCodeFrom(t, i + 1)
  }

  /** The airport code inside a suggestion such as
      "Bengaluru(BLR)Kempegowda International Airport": empty for empty text
      or when no parenthesised three-capital code occurs, otherwise the
      leftmost such code. */
  function ExtractAirportCode(text: string): (code: string)
    ensures code == "" || (|code| == 3 && forall k :: 0 <= k < 3 ==> IsUpper(code[k]))
    ensures code == "" <==> forall j :: 0 <= j < |text| ==> !CodeAt(text, j)
    ensures code != "" ==> exists j :: 0 <= j < |text| && CodeAt(text, j) && code == text[j + 1..j + 4]
                                    && forall i :: 0 <= i < j ==> !CodeAt(text, i)
  {
    if text == "" then ""
    else
      match FirstCodeFrom(text, 0)
      case Some(j) => text[j + 1..j + 4]
      case None => ""
  }

  /** A suggestion laid out as city, parenthesised code, airport name yields
      its code when the city part has no parenthesis. */
  lemma CodeOfSuggestion(city: string, code: string, airport: string)
    requires '(' !in city
    requires |code| == 3 && forall k :: 0 <= k < 3 ==> IsUpper(code[k])
    ensures ExtractAirportCode(city + "(" + code + ")" + airport) == code
  {
    var t := city + "(" + code + ")" + airport;
    assert CodeAt(t, |city|);
    forall j | 0 <= j < |city|
      ensures !CodeAt(t, j)
    {
      assert t[j] == city[j];
    }
    assert t[|city| + 1..|city| + 4] == code;
  }

  /** Which side of the route a city field belongs to. */
  datatype Role = From | To

  /** The codes remembered for the current search, `""` while unknown. */
  datatype AirportCodes = AirportCodes(from: string, to: string)

  const NoCodes := AirportCodes("", "")

  /** Every remembered code is empty or three capitals. */
  predicate WellFormedCode(c: string) {
    c == "" || (|c| == 3 && forall k :: 0 <= k < 3 ==> IsUpper(c[k]))
  }

  predicate WellFormedCodes(codes: AirportCodes) {
    WellFormedCode(codes.from) && WellFormedCode(codes.to)
  }

  /** After a successful selection the code found in the selected text, if
      any, replaces the remembered code of that side; the other side and a
      selection without a code leave the cache as it was. */
  function RememberCode(codes: AirportCodes, role: Role, selectedText: string): (r: AirportCodes)
    ensures WellFormedCodes(codes) ==> WellFormedCodes(r)
    ensures role.From? ==> r.to == codes.to
    ensures role.To? ==> r.from == codes.from
    ensures ExtractAirportCode(selectedText) == "" ==> r == codes
  {
    var code := ExtractAirportCode(selectedText);
    if code == "" then codes
    else if role.From? then codes.(from := code)
    else codes.(to := code)
  }
}

=== FILE: engine_run.dfy ===
/** One run of the UI filter test: search, count the visible flights, apply
    the stops and the price filter, count again, and extract what is left.
    The browser is a value here: for each city field the suggestions the
    selector scores, whether the results page loaded, the checkbox state,
    the rows the site shows for each set of ticked stop checkboxes, and the
    page's scripts. */
module EngineRun {
  import opened Common
  import opened Dom
  import opened EngineHelpers
  import opened CityMatch
  import opened StopsFilter
  import opened PriceFilter
  import opened Extraction

  /** The engine's own test configuration. */
  datatype RunConfig = RunConfig(
    testId: string, description: string, fromCity: string, toCity: string,
    departureDate: string, stopsFilter: string, priceMin: int, priceMax: int)

  /** One city field: the suggestion texts the selector scores, and whether
      the field holds a non-blank value after the chosen suggestion is
      clicked. */
  datatype CityField = CityField(suggestions: seq<string>, filled: bool)

  /** The browser side of a run.
      - `resultsLoaded`: the search was submitted and the results list came up;
      - `rowsFor`: the rows the site shows for a set of ticked checkboxes;
      - `beforeCountFailure`, `afterCountFailure`: the error raised by the
        visible-flight counter before or after filtering, if it raises;
      - `extractFailure`: the extractor's page script raises, which the
        extractor catches and answers with no records. */
  datatype Site = Site(
    fromField: CityField, toField: CityField, resultsLoaded: bool,
    boxes: Boxes, rowsFor: set<Checkbox> -> seq<FlightRow>,
    scripts: PageScripts,
    beforeCountFailure: Option<string>, afterCountFailure: Option<string>,
    extractFailure: bool)

  /** What the run returns. */
  datatype EngineResult =
    | Failed(reason: string)
    | Succeeded(beforeCount: nat, afterCount: nat, flights: seq<UiFlight>, config: RunConfig)
    | Errored(error: string)

  const SearchFailed := "Search failed"

  /** Some valid suggestion scores above zero against some variation of the name. */
  predicate CityMatches(name: string, suggestions: seq<string>) {
    exists x, v :: x in ValidSuggestions(suggestions) && v in CityVariations(name) && Score(x, v) > 0
  }

  /** The city selector reports success. */
  predicate CitySelected(name: string, field: CityField) {
    CityMatches(name, field.suggestions) && field.filled
  }

  /** The search reports success: both cities are selected, the date can be
      rewritten and the results page loads. */
  predicate SearchSucceeds(cfg: RunConfig, site: Site) {
    CitySelected(cfg.fromCity, site.fromField) && CitySelected(cfg.toCity, site.toField)
    && FormatDateForInput(cfg.departureDate).Ok? && site.resultsLoaded
  }

  /** The filters the extractor applies for a configuration. */
  function ExtractConfigOf(cfg: RunConfig): (e: ExtractConfig)
    ensures e.priceMin == cfg.priceMin && e.priceMax == cfg.priceMax && e.stopsFilter == cfg.stopsFilter
  {
    ExtractConfig(cfg.priceMin, cfg.priceMax, cfg.stopsFilter)
  }

  /** Selecting one city field. A confident selection stores the code found
      in the selected text before the field is checked, so a field left
      blank still updates the cache. */
  method SelectCityField(codes: AirportCodes, role: Role, name: string, field: CityField)
    returns (ok: bool, codes': AirportCodes)
    ensures ok <==> CitySelected(name, field)
    ensures !CityMatches(name, field.suggestions) ==> codes' == codes
    ensures CityMatches(name, field.suggestions) ==>
      exists x :: x in ValidSuggestions(field.suggestions) && codes' == RememberCode(codes, role, x)
    ensures CityMatches(name, field.suggestions) ==>
      exists sel :: KeptSelection(ValidSuggestions(field.suggestions), CityVariations(name), sel)
                    && codes' == RememberCode(codes, role, sel.text)
    ensures WellFormedCodes(codes) ==> WellFormedCodes(codes')
    ensures role.From? ==> codes'.to == codes.to
    ensures role.To? ==> codes'.from == codes.from
  {
    var sel := SelectCity(name, field.suggestions);
    match sel {
      case Err(_) =>
        ok, codes' := false, codes;
      case Ok(s) =>
        codes' := RememberCode(codes, role, s.text);
        ok := field.filled;
    }
  }

  /** The search: both fields are selected (the second even when the first
      fails), then the date is rewritten, and the results page must load. */
  method PerformSearch(cfg: RunConfig, site: Site, codes: AirportCodes) returns (ok: bool, codes': AirportCodes)
    ensures ok <==> SearchSucceeds(cfg, site)
    ensures WellFormedCodes(codes) ==> WellFormedCodes(codes')
    ensures !CityMatches(cfg.fromCity, site.fromField.suggestions) ==> codes'.from == codes.from
    ensures !CityMatches(cfg.toCity, site.toField.suggestions) ==> codes'.to == codes.to
  {
    var fromOk, toOk;
    fromOk, codes' := SelectCityField(codes, From, cfg.fromCity, site.fromField);
    toOk, codes' := SelectCityField(codes', To, cfg.toCity, site.toField);
    if !fromOk || !toOk {
      return false, codes';
    }
    match FormatDateForInput(cfg.departureDate) {
      case Err(_) => ok := false;
      case Ok(_) => ok := site.resultsLoaded;
    }
  }

  /** The rows the site shows once the stops filter has run. */
  function RowsAfterStops(cfg: RunConfig, site: Site): seq<FlightRow> {
    site.rowsFor(ApplyStopsFilter(cfg.stopsFilter, site.boxes).boxes.checked)
  }

  /** What the page looks like after the price script ran on the rows left
      by the stops filter: untouched when the script stops before marking,
      every row marked for the narrowed range otherwise. */
  predicate PriceFiltered(cfg: RunConfig, site: Site, shown: seq<FlightRow>) {
    (!Marks(site.scripts) ==> shown == RowsAfterStops(cfg, site))
    && (Marks(site.scripts) ==>
          var t := Targets(cfg.priceMin, cfg.priceMax, site.scripts.slider.value);
          shown == MarkAll(RowsAfterStops(cfg, site), t.0, t.1))
  }

  /** What the extractor returns on the page `shown`: the records of the
      matching rows, or none when its page script raises. */
  function Extracted(cfg: RunConfig, site: Site, shown: seq<FlightRow>, codes: AirportCodes): (fs: seq<UiFlight>)
    ensures site.extractFailure ==> fs == []
    ensures !site.extractFailure ==> fs == ExtractFlights(shown, ExtractConfigOf(cfg), codes)
  {
    if site.extractFailure then [] else ExtractFlights(shown, ExtractConfigOf(cfg), codes)
  }

  /** The steps after a successful search: count, filter, count, extract.
      The counts are the counter's value when it does not raise. */
  method FilterAndExtract(cfg: RunConfig, site: Site, codes: AirportCodes)
    returns (before: nat, after: nat, flights: seq<UiFlight>, shown: seq<FlightRow>)
    ensures before == CountVisible(site.rowsFor(site.boxes.checked))
    ensures PriceFiltered(cfg, site, shown)
    ensures after == CountVisible(shown)
    ensures flights == Extracted(cfg, site, shown, codes)
  {
    before := CountVisible(site.rowsFor(site.boxes.checked));
    var stops := ApplyStopsFilter(cfg.stopsFilter, site.boxes);
    var priced;
    shown, priced := ApplyPriceFilter(cfg.priceMin, cfg.priceMax, site.scripts, site.rowsFor(stops.boxes.checked));
    after := CountVisible(shown);
    flights := if site.extractFailure then [] else ExtractFlights(shown, ExtractConfigOf(cfg), codes);
  }

  /** The run for `cfg` against `site`, starting from the cached codes
      `codes`. It returns the cache afterwards and `shown`, the rows on the
      page when the records are extracted. */
  method TestUiFilter(cfg: RunConfig, site: Site, codes: AirportCodes)
    returns (r: EngineResult, codes': AirportCodes, shown: seq<FlightRow>)
    ensures r.Failed? <==> !SearchSucceeds(cfg, site)
    ensures r.Failed? ==> r.reason == SearchFailed
    ensures r.Errored? <==> SearchSucceeds(cfg, site) && (site.beforeCountFailure.Some? || site.afterCountFailure.Some?)
    ensures r.Errored? && site.beforeCountFailure.Some? ==> r.error == site.beforeCountFailure.value
    ensures r.Errored? && site.beforeCountFailure.None? ==> r.error == site.afterCountFailure.value
    ensures WellFormedCodes(codes) ==> WellFormedCodes(codes')
    ensures !CityMatches(cfg.fromCity, site.fromField.suggestions) ==> codes'.from == codes.from
    ensures !CityMatches(cfg.toCity, site.toField.suggestions) ==> codes'.to == codes.to
    ensures r.Succeeded? ==>
      r.config == cfg
      && r.beforeCount == CountVisible(site.rowsFor(site.boxes.checked))
      && PriceFiltered(cfg, site, shown)
      && r.afterCount == CountVisible(shown)
      && r.flights == Extracted(cfg, site, shown, codes')
  {
    var searched;
    searched, codes' := PerformSearch(cfg, site, codes);
    if !searched {
      return Failed(SearchFailed), codes', site.rowsFor(site.boxes.checked);
    }
    if site.beforeCountFailure.Some? {
      return Errored(site.beforeCountFailure.value), codes', site.rowsFor(site.boxes.checked);
    }
    var before, after, flights;
    before, after, flights, shown := FilterAndExtract(cfg, site, codes');
    if site.afterCountFailure.Some? {
      return Errored(site.afterCountFailure.value), codes', shown;
    }
    r := Succeeded(before, after, flights, cfg);
  }

  /** The extractor keeps only rows the counter would count when every row
      carries both attributes, so the records never outnumber the count. */
  lemma {:induction false} KeptAtMostCounted(rows: seq<FlightRow>, cfg: ExtractConfig, codes: AirportCodes)
    requires forall k :: 0 <= k < |rows| ==> rows[k].HasPriceAndStop()
    ensures |ExtractFlights(rows, cfg, codes)| <= CountVisible(rows)
  {
    PositionsAtMostCounted(rows, row => Keeps(row, cfg), 0);
  }

  lemma {:induction false} PositionsAtMostCounted(rows: seq<FlightRow>, p: FlightRow -> bool, start: nat)
    requires forall k :: 0 <= k < |rows| ==> rows[k].HasPriceAndStop()
    requires forall row :: p(row) ==> row.Visible()
    ensures |Positions(rows, p, start)| <= CountVisible(rows)
  {
    if rows != [] {
      PositionsAtMostCounted(rows[1..], p, start + 1);
    }
  }

  /** After a run in which the price script marked the rows, the after count is the
      number of rows shown for the final checkbox state that carry both
      attributes, are laid out, and are priced within the narrowed range. */
  lemma AfterCountOfRun(cfg: RunConfig, site: Site, shown: seq<FlightRow>)
    requires Marks(site.scripts)
    requires PriceFiltered(cfg, site, shown)
    ensures var t := Targets(cfg.priceMin, cfg.priceMax, site.scripts.slider.value);
      CountVisible(shown) == ShownCount(RowsAfterStops(cfg, site), t.0, t.1)
  {
    var t := Targets(cfg.priceMin, cfg.priceMax, site.scripts.slider.value);
    CountAfterMarking(RowsAfterStops(cfg, site), t.0, t.1);
  }

  /** Every record of a successful run matches the test's filters and
      carries the cached codes (or "N/A"). */
  lemma RunRecordsMatch(cfg: RunConfig, shown: seq<FlightRow>, codes: AirportCodes, f: UiFlight)
    requires WellFormedCodes(codes)
    requires f in ExtractFlights(shown, ExtractConfigOf(cfg), codes)
    ensures cfg.priceMin <= f.price <= cfg.priceMax
    ensures cfg.stopsFilter in MatchedLabels && f.stops == CanonicalStops(cfg.stopsFilter)
    ensures f.fromCode == CodeOrNA(codes.from) && f.toCode == CodeOrNA(codes.to)
    ensures f.fromCode == "N/A" || WellFormedCode(f.fromCode)
    ensures f.toCode == "N/A" || WellFormedCode(f.toCode)
  {
    ExtractedFlightsMatch(shown, ExtractConfigOf(cfg), codes, f);
  }

  // ------------------------------------------------------------ result dict

  /** The dictionary the run returns, one optional entry per key the tests
      read with `.get`. */
  datatype ResultDict = ResultDict(
    status: Option<string>, reason: Option<string>, error: Option<string>,
    beforeCount: Option<nat>, afterCount: Option<nat>,
    uiFilteredFlights: Option<seq<UiFlight>>, flights: Option<seq<UiFlight>>,
    testConfig: Option<RunConfig>)

  const NoEntries := ResultDict(None, None, None, None, None, None, None, None)

  /** The dictionary for a result: "SUCCESS" with the two counts, the
      records and the configuration; "FAIL" with a reason; "ERROR" with the
      error text; the last two with an empty `flights` list. */
  function ToDict(r: EngineResult): (d: ResultDict)
    ensures d.status.Some?
    ensures d.status == Some("SUCCESS") <==> r.Succeeded?
    ensures d.status == Some("FAIL") <==> r.Failed?
    ensures d.status == Some("ERROR") <==> r.Errored?
    ensures d.uiFilteredFlights.Some? <==> r.Succeeded?
    ensures r.Succeeded? ==> d.uiFilteredFlights == Some(r.flights)
    ensures !r.Succeeded? ==> d.flights == Some([])
  {
    match r
    case Failed(reason) => NoEntries.(status := Some("FAIL"), reason := Some(reason), flights := Some([]))
    case Errored(e) => NoEntries.(status := Some("ERROR"), error := Some(e), flights := Some([]))
    case Succeeded(b, a, fs, cfg) =>
      NoEntries.(status := Some("SUCCESS"), beforeCount := Some(b), afterCount := Some(a),
                 uiFilteredFlights := Some(fs), testConfig := Some(cfg))
  }

  /** Reading a run's result back from its dictionary. */
  function OfDict(d: ResultDict): Option<EngineResult> {
    match d.status
    case Some(s) =>
      if s == "FAIL" && d.reason.Some? then Some(Failed(d.reason.value))
      else if s == "ERROR" && d.error.Some? then Some(Errored(d.error.value))
      else if s == "SUCCESS" && d.beforeCount.Some? && d.afterCount.Some? && d.uiFilteredFlights.Some? && d.testConfig.Some? then
        Some(Succeeded(d.beforeCount.value, d.afterCount.value, d.uiFilteredFlights.value, d.testConfig.value))
      else None
    case None => None
  }

  /** The dictionary loses nothing: the result can be read back from it. */
  lemma DictRoundTrip(r: EngineResult)
    ensures OfDict(ToDict(r)) == Some(r)
  {
  }

  // ------------------------------------------------------------------ suite

  /** Every record of `r` lies in the configured price range and shows the
      codes of `codes` (or "N/A"). */
  predicate RecordsCarry(cfg: RunConfig, r: EngineResult, codes: AirportCodes) {
    r.Succeeded? ==> forall m :: 0 <= m < |r.flights| ==> RecordCarries(cfg, r.flights[m], codes)
  }

  predicate RecordCarries(cfg: RunConfig, f: UiFlight, codes: AirportCodes) {
    cfg.priceMin <= f.price <= cfg.priceMax && f.fromCode == CodeOrNA(codes.from) && f.toCode == CodeOrNA(codes.to)
  }

  /** What one run of a suite promises about its result and the cache it
      leaves, given the cache it started from. */
  predicate RunStep(cfg: RunConfig, site: Site, codes: AirportCodes, r: EngineResult, codes': AirportCodes) {
    WellFormedCodes(codes')
    && (r.Failed? <==> !SearchSucceeds(cfg, site))
    && RecordsCarry(cfg, r, codes')
    && (!CityMatches(cfg.fromCity, site.fromField.suggestions) ==> codes'.from == codes.from)
    && (!CityMatches(cfg.toCity, site.toField.suggestions) ==> codes'.to == codes.to)
  }

  /** Several runs on one engine: the code cache starts empty and is never
      reset between runs, so a run whose city selection fails keeps the
      previous run's code for that side. */
  method RunSuite(cfgs: seq<RunConfig>, sites: seq<Site>) returns (results: seq<EngineResult>, caches: seq<AirportCodes>)
    requires |sites| == |cfgs|
    ensures |results| == |cfgs| && |caches| == |cfgs| + 1
    ensures caches[0] == NoCodes
    ensures forall k {:trigger results[k]} :: 0 <= k < |cfgs| ==> RunStep(cfgs[k], sites[k], caches[k], results[k], caches[k + 1])
  {
    results, caches := [], [NoCodes];
    var k := 0;
    while k < |cfgs|
      invariant 0 <= k <= |cfgs|
      invariant |results| == k && |caches| == k + 1 && caches[0] == NoCodes
      invariant WellFormedCodes(caches[k])
      invariant forall i {:trigger results[i]} :: 0 <= i < k ==> RunStep(cfgs[i], sites[i], caches[i], results[i], caches[i + 1])
    {
      var r, next := RunOnce(cfgs[k], sites[k], caches[k]);
      results, caches := results + [r], caches + [next];
      k := k + 1;
    }
  }

  /** One run of a suite, seen from the suite: what it returns and the
      cache it leaves. */
  method RunOnce(cfg: RunConfig, site: Site, codes: AirportCodes) returns (r: EngineResult, codes': AirportCodes)
    requires WellFormedCodes(codes)
    ensures RunStep(cfg, site, codes, r, codes')
  {
    var shown;
    r, codes', shown := TestUiFilter(cfg, site, codes);
    RunCarries(cfg, r, codes', shown);
  }

  lemma RunCarries(cfg: RunConfig, r: EngineResult, codes: AirportCodes, shown: seq<FlightRow>)
    requires WellFormedCodes(codes)
    requires r.Succeeded? ==> r.flights == [] || r.flights == ExtractFlights(shown, ExtractConfigOf(cfg), codes)
    ensures RecordsCarry(cfg, r, codes)
  {
    if r.Succeeded? && r.flights != [] {
      forall m | 0 <= m < |r.flights|
        ensures RecordCarries(cfg, r.flights[m], codes)
      {
        RunRecordsMatch(cfg, shown, codes, r.flights[m]);
      }
    }
  }
}

=== FILE: extraction.dfy ===
/** The result extractor: for every `.fltResult` row that passes the
    visibility check it works out the price and the stop count (falling
    back to the row text), keeps the row when both match the test's
    filters, and turns it into a flight record. */
module Extraction {
  import opened Common
  import opened Text
  import opened NumberFormat
  import opened Dom
  import opened EngineHelpers

  /** The rupee sign. */
  const Rupee: char := '\U{20B9}'

  /** The filters the extractor checks, from the test configuration. */
  datatype ExtractConfig = ExtractConfig(priceMin: int, priceMax: int, stopsFilter: string)

  // ---------------------------------------------------------------- stops

  /** The stop count read from the row text: "Non-stop" or "non-stop" is
      "0", then "1 stop" or "1 Stop" is "1", then "2 stop", "2+ stop" or
      "2 Stop" is "2"; `None` when none of them occurs. */
  function StopFromText(text: string): (r: Option<string>)
    ensures r.None? || r.value in {"0", "1", "2"}
    ensures r == Some("0") <==> Contains(text, "Non-stop") || Contains(text, "non-stop")
  {
    if Contains(text, "Non-stop") || Contains(text, "non-stop") then Some("0")
    else if Contains(text, "1 stop") || Contains(text, "1 Stop") then Some("1")
    else if Contains(text, "2 stop") || Contains(text, "2+ stop") || Contains(text, "2 Stop") then Some("2")
    else None
  }

  /** The `stop` attribute, or the text fallback when it is missing or empty. */
  function EffectiveStop(row: FlightRow): (r: Option<string>)
    ensures row.stop.Some? && row.stop.value != "" ==> r == row.stop
    ensures row.stop.None? || row.stop.value == "" ==> r == StopFromText(row.text)
  {
    if row.stop.None? || row.stop.value == "" then StopFromText(row.text) else row.stop
  }

  /** The readable stop label of a flight record. */
  function StopType(stop: Option<string>): (stopLabel: string)
    ensures stopLabel in {"Non-stop", "1 Stop", "2+ Stop", "Unknown"}
    ensures stopLabel == "Unknown" <==> stop !in {Some("0"), Some("1"), Some("2")}
  {
    if stop == Some("0") then "Non-stop"
    else if stop == Some("1") then "1 Stop"
    else if stop == Some("2") then "2+ Stop"
    else "Unknown"
  }

  /** The labels the extractor knows how to match. */
  const MatchedLabels: set<string> := {"Non-stop", "1 Stop", "2+ Stop", "2 Stop", "2 Stops"}

  /** The stop count a matched label asks for. */
  function LabelCount(target: string): string
    requires target in MatchedLabels
  {
    if target == "Non-stop" then "0" else if target == "1 Stop" then "1" else "2"
  }

  /** The extractor's stop test, one disjunct per known label. */
  predicate StopMatches(target: string, stop: Option<string>) {
    (target == "Non-stop" && stop == Some("0"))
    || (target == "1 Stop" && stop == Some("1"))
    || (target == "2+ Stop" && stop == Some("2"))
    || (target == "2 Stop" && stop == Some("2"))
    || (target == "2 Stops" && stop == Some("2"))
  }

  /** A stop matches exactly when the label is a known one and the stop is
      the count that label asks for. */
  lemma StopMatchesExactly(target: string, stop: Option<string>)
    ensures StopMatches(target, stop) <==> target in MatchedLabels && stop == Some(LabelCount(target))
  {
  }

  // ---------------------------------------------------------------- price

  predicate DigitOrComma(c: char) { IsDigit(c) || c == ',' }

  /** The regular expression `₹([0-9,]+)` can start matching at `i`. */
  predicate RupeeAt(t: string, i: nat) {
    i + 1 < |t| && t[i] == Rupee && DigitOrComma(t[i + 1])
  }

  /** The leftmost match start at or after `i`. */
  function FirstRupeeFrom(t: string, i: nat): (r: Option<nat>)
    requires i <= |t|
    ensures r.Some? ==> i <= r.value && RupeeAt(t, r.value)
    ensures r.Some? ==> forall j :: i <= j < r.value ==> !RupeeAt(t, j)
    ensures r.None? ==> forall j :: i <= j < |t| ==> !RupeeAt(t, j)
    decreases |t| - i
  {
    if i + 1 >= |t| then None
    else if RupeeAt(t, i) then Some(i)
    else FirstRupeeFrom(t, i + 1)
  }

  /** The length of the greedy run of digits and commas starting at `j`. */
  function RunLength(t: string, j: nat): (n: nat)
    requires j <= |t|
    ensures j + n <= |t|
    ensures forall k :: j <= k < j + n ==> DigitOrComma(t[k])
    ensures j + n == |t| || !DigitOrComma(t[j + n])
    decreases |t| - j
  {
    if j < |t| && DigitOrComma(t[j]) then 1 + RunLength(t, j + 1) else 0
  }

  /** `text.match(/₹([0-9,]+)/)` followed by `parseInt` of the captured
      group with its commas removed: `None` when nothing matches,
      `Some(None)` when the group is only commas (NaN). */
  function PriceFromText(t: string): (r: Option<Option<nat>>)
    ensures r.None? <==> forall j :: 0 <= j < |t| ==> !RupeeAt(t, j)
  {
    match FirstRupeeFrom(t, 0)
    case None => None
    case Some(i) =>
      var n := RunLength(t, i + 1);
      var group := t[i + 1..i + 1 + n];
      assert DigitsOrCommas(group);
      Some(ParseGrouped(group))
  }

  /** A price written the way the results page writes it, `₹` and the
      amount with thousands commas, is read back by the text fallback when
      no earlier `₹` starts a match and the amount is not run on into
      further digits or commas. */
  lemma PriceFromRupeeText(prefix: string, p: nat, suffix: string)
    requires Rupee !in prefix
    requires suffix == [] || !DigitOrComma(suffix[0])
    ensures PriceFromText(prefix + Rupees(p) + suffix) == Some(Some(p))
  {
    var amount := Thousands(p);
    ThousandsStartsWithDigit(p);
    ThousandsRoundTrip(p);
    assert prefix + Rupees(p) + suffix == prefix + [Rupee] + amount + suffix;
    GroupAfterRupee(prefix, amount, suffix);
  }

  /** The text fallback captures the whole run of digits and commas after
      the first `₹`. */
  lemma GroupAfterRupee(prefix: string, amount: string, suffix: string)
    requires Rupee !in prefix
    requires amount != [] && DigitsOrCommas(amount)
    requires suffix == [] || !DigitOrComma(suffix[0])
    ensures PriceFromText(prefix + [Rupee] + amount + suffix) == Some(ParseGrouped(amount))
  {
    var t := prefix + [Rupee] + amount + suffix;
    var i := |prefix|;
    assert t[i] == Rupee && t[i + 1] == amount[0];
    forall j | 0 <= j < i
      ensures t[j] != Rupee
    {
      assert t[j] == prefix[j];
    }
    FirstRupeeIsAt(t, i);
    forall k | i + 1 <= k < i + 1 + |amount|
      ensures DigitOrComma(t[k])
    {
      assert t[k] == amount[k - i - 1];
    }
    if suffix != [] {
      assert t[i + 1 + |amount|] == suffix[0];
    }
    RunIs(t, i + 1, |amount|);
    assert t[i + 1..i + 1 + |amount|] == amount;
  }

  /** A match at `i` with no `₹` before it is the leftmost match. */
  lemma FirstRupeeIsAt(t: string, i: nat)
    requires RupeeAt(t, i)
    requires forall j :: 0 <= j < i ==> t[j] != Rupee
    ensures FirstRupeeFrom(t, 0) == Some(i)
  {
  }

  /** A stretch of digits and commas that is not run on is the greedy run. */
  lemma RunIs(t: string, j: nat, n: nat)
    requires j + n <= |t|
    requires forall k :: j <= k < j + n ==> DigitOrComma(t[k])
    requires j + n == |t| || !DigitOrComma(t[j + n])
    ensures RunLength(t, j) == n
  {
  }

  /** `parseInt(row.getAttribute('price')) || 0`: a missing attribute, NaN
      and zero all become 0. */
  function AttributePrice(p: PriceAttr): int {
    if p.Number? then p.value else 0
  }

  /** The price the extractor compares: the attribute's, or, when that is
      0, the text fallback's; a failed match keeps 0 and a NaN group gives
      NaN, written `None`. */
  function EffectivePrice(row: FlightRow): (r: Option<int>)
    ensures AttributePrice(row.price) != 0 ==> r == Some(AttributePrice(row.price))
    ensures AttributePrice(row.price) == 0 && PriceFromText(row.text).None? ==> r == Some(0)
  {
    var attr := AttributePrice(row.price);
    if attr != 0 then Some(attr)
    else match PriceFromText(row.text)
      case None => Some(0)
      case Some(None) => None
      case Some(Some(v)) => Some(v)
  }

  /** `price >= priceMin && price <= priceMax`; NaN never matches. */
  predicate PriceMatches(price: Option<int>, cfg: ExtractConfig) {
    price.Some? && cfg.priceMin <= price.value <= cfg.priceMax
  }

  // ---------------------------------------------------------------- records

  /** A flight record as the extractor returns it. */
  datatype UiFlight = UiFlight(
    index: nat, airline: string, flightNumber: string, price: int,
    stops: string, fromCode: string, toCode: string, route: string)

  /** `'{code}' || 'N/A'` */
  function CodeOrNA(code: string): (r: string)
    ensures code != "" ==> r == code
    ensures r != ""
  {
    if code == "" then "N/A" else code
  }

  /** The route column: the two codes joined by an arrow. */
  function Route(fromCode: string, toCode: string): string {
    fromCode + " \U{2192} " + toCode
  }

  /** The extractor keeps a row when it is visible and both its price and
      its stop count match. */
  predicate Keeps(row: FlightRow, cfg: ExtractConfig) {
    row.Visible() && PriceMatches(EffectivePrice(row), cfg) && StopMatches(cfg.stopsFilter, EffectiveStop(row))
  }

  /** The record built for a kept row at position `index`. */
  function FlightOf(row: FlightRow, index: nat, codes: AirportCodes): UiFlight
    requires EffectivePrice(row).Some?
  {
    var from, to := CodeOrNA(codes.from), CodeOrNA(codes.to);
    UiFlight(index, row.airline, row.flightNumber, EffectivePrice(row).value,
             StopType(EffectiveStop(row)), from, to, Route(from, to))
  }

  /** The positions `start + k` of the elements `s[k]` that satisfy `p`,
      in increasing order. */
  function Positions<T>(s: seq<T>, p: T -> bool, start: nat): (r: seq<nat>)
    ensures |r| <= |s|
    ensures forall m :: 0 <= m < |r| ==> start <= r[m] < start + |s| && p(s[r[m] - start])
    ensures forall m, n :: 0 <= m < n < |r| ==> r[m] < r[n]
  {
    if s == [] then []
    else
      var rest := Positions(s[1..], p, start + 1);
      assert forall m :: 0 <= m < |rest| ==> s[rest[m] - start] == s[1..][rest[m] - start - 1];
      if p(s[0]) then [start] + rest else rest
  }

  /** Every element satisfying `p` has its position listed. */
  lemma {:induction false} PositionsComplete<T>(s: seq<T>, p: T -> bool, start: nat, k: nat)
    requires k < |s| && p(s[k])
    ensures start + k in Positions(s, p, start)
  {
    if k > 0 {
      assert s[k] == s[1..][k - 1];
      PositionsComplete(s[1..], p, start + 1, k - 1);
    }
  }

  /** `_extract_ui_filtered_flights_only`: a record for every kept row, in
      page order, each carrying the row's position among all rows. */
  function ExtractFlights(rows: seq<FlightRow>, cfg: ExtractConfig, codes: AirportCodes): (r: seq<UiFlight>)
    ensures |r| <= |rows|
    ensures forall m :: 0 <= m < |r| ==>
      r[m].index < |rows| && Keeps(rows[r[m].index], cfg) && r[m] == FlightOf(rows[r[m].index], r[m].index, codes)
    ensures forall m, n :: 0 <= m < n < |r| ==> r[m].index < r[n].index
  {
    var kept := Positions(rows, row => Keeps(row, cfg), 0);
    seq(|kept|, m requires 0 <= m < |kept| => FlightOf(rows[kept[m]], kept[m], codes))
  }

  /** The positions of the records of a run. */
  function Indices(flights: seq<UiFlight>): (r: set<nat>)
    ensures forall m :: 0 <= m < |flights| ==> flights[m].index in r
    ensures forall k :: k in r ==> exists m :: 0 <= m < |flights| && flights[m].index == k
  {
    set m | 0 <= m < |flights| :: flights[m].index
  }

  /** A row has a record exactly when the extractor keeps it. */
  lemma ExtractMembership(rows: seq<FlightRow>, cfg: ExtractConfig, codes: AirportCodes, k: nat)
    requires k < |rows|
    ensures Keeps(rows[k], cfg) <==> k in Indices(ExtractFlights(rows, cfg, codes))
  {
    if Keeps(rows[k], cfg) {
      KeptRowListed(rows, cfg, codes, k);
    }
  }

  lemma KeptRowListed(rows: seq<FlightRow>, cfg: ExtractConfig, codes: AirportCodes, k: nat)
    requires k < |rows| && Keeps(rows[k], cfg)
    ensures k in Indices(ExtractFlights(rows, cfg, codes))
  {
    var keep := row => Keeps(row, cfg);
    PositionsComplete(rows, keep, 0, k);
    var kept := Positions(rows, keep, 0);
    var m :| 0 <= m < |kept| && kept[m] == k;
    assert ExtractFlights(rows, cfg, codes)[m].index == k;
  }

  /** The label every record of a run shows for the target label. */
  function CanonicalStops(target: string): string
    requires target in MatchedLabels
  {
    StopType(Some(LabelCount(target)))
  }

  /** Every record matches the filters: the price lies in the requested
      range, the stop label is the canonical one for the target label, and
      the codes are the remembered ones (or "N/A"), joined in the route. */
  lemma ExtractedFlightsMatch(rows: seq<FlightRow>, cfg: ExtractConfig, codes: AirportCodes, f: UiFlight)
    requires f in ExtractFlights(rows, cfg, codes)
    ensures cfg.priceMin <= f.price <= cfg.priceMax
    ensures cfg.stopsFilter in MatchedLabels && f.stops == CanonicalStops(cfg.stopsFilter)
    ensures f.fromCode == CodeOrNA(codes.from) && f.toCode == CodeOrNA(codes.to)
    ensures f.route == Route(f.fromCode, f.toCode)
    ensures WellFormedCodes(codes) ==> f.fromCode == "N/A" || (|f.fromCode| == 3 && forall k :: 0 <= k < 3 ==> IsUpper(f.fromCode[k]))
  {
    var r := ExtractFlights(rows, cfg, codes);
    var m :| 0 <= m < |r| && r[m] == f;
    var row := rows[f.index];
    StopMatchesExactly(cfg.stopsFilter, EffectiveStop(row));
  }

  /** The checkbox labels "Nonstop", "1-stop", "One Stop" and "Two Stop"
      are accepted by the stops filter, but the extractor's stop test knows
      none of them: with such a label nothing is ever extracted. */
  lemma UnmatchedLabelExtractsNothing(rows: seq<FlightRow>, cfg: ExtractConfig, codes: AirportCodes)
    requires cfg.stopsFilter !in MatchedLabels
    ensures ExtractFlights(rows, cfg, codes) == []
  {
    var r := ExtractFlights(rows, cfg, codes);
    if r != [] {
      StopMatchesExactly(cfg.stopsFilter, EffectiveStop(rows[r[0].index]));
    }
  }

  /** A record of a row whose `price` attribute is a non-zero number carries that number. */
  lemma ExtractedPriceFromAttribute(rows: seq<FlightRow>, cfg: ExtractConfig, codes: AirportCodes, f: UiFlight)
    requires f in ExtractFlights(rows, cfg, codes)
    requires rows[f.index].price.Number? && rows[f.index].price.value != 0
    ensures f.price == rows[f.index].price.value
  {
    var r := ExtractFlights(rows, cfg, codes);
    var m :| 0 <= m < |r| && r[m] == f;
  }
}

=== FILE: number_format.dfy ===
/** Integer rendering and parsing used by the reports and the extractor:
    Python's `str(n)`, the `,` format spec (`f"{n:,}"`), zero padding
    (`f"{i:03d}"`), and JavaScript's `parseInt(s.replace(/,/g, ''))`. */
module NumberFormat {
  import opened Common

  predicate IsDigit(c: char) { '0' <= c <= '9' }

  predicate AllDigits(s: string) { forall k :: 0 <= k < |s| ==> IsDigit(s[k]) }

  /** The characters a grouped number is made of. */
  predicate DigitsOrCommas(s: string) { forall k :: 0 <= k < |s| ==> IsDigit(s[k]) || s[k] == ',' }

  function DigitChar(d: nat): (c: char)
    requires d < 10
    ensures IsDigit(c) && c as int - '0' as int == d
  {
    ('0' as int + d) as char
  }

  /** Python's `str(n)` for a natural number: no sign, no leading zero. */
  function Digits(n: nat): (r: string)
    ensures |r| >= 1 && AllDigits(r)
    ensures r[0] != '0' || n == 0
    decreases n
  {
    if n < 10 then [DigitChar(n)] else Digits(n / 10) + [DigitChar(n % 10)]
  }

  /** The value `parseInt` reads from a run of decimal digits. */
  function DecimalValue(s: string): nat
    requires AllDigits(s)
  {
    if s == [] then 0 else DecimalValue(s[..|s| - 1]) * 10 + (s[|s| - 1] as int - '0' as int)
  }

  /** Reading back a rendered number gives the number. */
  lemma {:induction false} DigitsRoundTrip(n: nat)
    ensures DecimalValue(Digits(n)) == n
    decreases n
  {
    if n >= 10 {
      DigitsRoundTrip(n / 10);
      var d := Digits(n);
      assert d[..|d| - 1] == Digits(n / 10);
    }
  }

  /** A comma before every group of three digits, counted from the right. */
  function Group(d: string): string
    decreases |d|
  {
    if |d| <= 3 then d else Group(d[..|d| - 3]) + "," + d[|d| - 3..]
  }

  /** The comma-free characters of `s`, in order (`s.replace(/,/g, '')`). */
  function RemoveCommas(s: string): string {
    if s == [] then [] else RemoveCommas(s[..|s| - 1]) + (if s[|s| - 1] == ',' then [] else [s[|s| - 1]])
  }

  lemma {:induction false} RemoveCommasAppend(a: string, b: string)
    ensures RemoveCommas(a + b) == RemoveCommas(a) + RemoveCommas(b)
    decreases |b|
  {
    if b == [] {
      assert a + b == a;
    } else {
      assert (a + b)[..|a + b| - 1] == a + b[..|b| - 1];
      assert (a + b)[|a + b| - 1] == b[|b| - 1];
      RemoveCommasAppend(a, b[..|b| - 1]);
    }
  }

  lemma {:induction false} RemoveCommasNone(s: string)
    requires AllDigits(s)
    ensures RemoveCommas(s) == s
  {
    if s != [] {
      RemoveCommasNone(s[..|s| - 1]);
    }
  }

  /** The shape of a grouped digit string: only digits and commas, one comma
      more per three digits, and a comma exactly at every fourth position
      counted from the right end. Removing the commas restores the digits. */
  lemma GroupShape(d: string)
    requires |d| >= 1 && AllDigits(d)
    ensures |Group(d)| == |d| + (|d| - 1) / 3
    ensures DigitsOrCommas(Group(d))
    ensures forall k :: 0 <= k < |Group(d)| ==> (Group(d)[k] == ',' <==> (|Group(d)| - k) % 4 == 0)
    ensures RemoveCommas(Group(d)) == d
  {
    GroupCommas(d);
    GroupStrip(d);
  }

  lemma {:induction false} GroupCommas(d: string)
    requires |d| >= 1 && AllDigits(d)
    ensures |Group(d)| == |d| + (|d| - 1) / 3
    ensures DigitsOrCommas(Group(d))
    ensures forall k :: 0 <= k < |Group(d)| ==> (Group(d)[k] == ',' <==> (|Group(d)| - k) % 4 == 0)
    decreases |d|
  {
    if |d| > 3 {
      var front, back := d[..|d| - 3], d[|d| - 3..];
      GroupCommas(front);
      var g := Group(front);
      var r := g + "," + back;
      assert Group(d) == r;
      assert |r| == |d| + (|d| - 1) / 3 by {
        assert (|d| - 1) / 3 == (|front| - 1) / 3 + 1;
      }
      forall k | 0 <= k < |r|
        ensures IsDigit(r[k]) || r[k] == ','
        ensures r[k] == ',' <==> (|r| - k) % 4 == 0
      {
        if k < |g| {
          assert r[k] == g[k];
          ModFour(|g| - k);
        } else if k == |g| {
          assert |r| - k == 4;
        } else {
          assert r[k] == back[k - |g| - 1];
        }
      }
    }
  }

  lemma ModFour(x: int)
    ensures (x + 4) % 4 == x % 4
  {
  }

  lemma {:induction false} GroupStrip(d: string)
    requires AllDigits(d)
    ensures RemoveCommas(Group(d)) == d
    decreases |d|
  {
    if |d| <= 3 {
      RemoveCommasNone(d);
    } else {
      var front, back := d[..|d| - 3], d[|d| - 3..];
      GroupStrip(front);
      var g := Group(front);
      RemoveCommasAppend(g + ",", back);
      RemoveCommasAppend(g, ",");
      RemoveCommasNone(back);
      assert RemoveCommas(",") == [];
      assert front + back == d;
    }
  }

  /** Python's `f"{n:,}"` for an integer. */
  function Thousands(n: int): string {
    if n < 0 then "-" + Group(Digits(-n)) else Group(Digits(n))
  }

  /** The rupee sign followed by the grouped amount, `f"₹{n:,}"`. */
  function Rupees(n: int): string {
    "\U{20B9}" + Thousands(n)
  }

  /** A grouped number starts with a digit, never with a comma. */
  lemma ThousandsStartsWithDigit(n: nat)
    ensures |Thousands(n)| >= 1 && IsDigit(Thousands(n)[0])
  {
    var d := Digits(n);
    GroupCommas(d);
    var g := Group(d);
    var q, r := (|d| - 1) / 3, (|d| - 1) % 3;
    assert |g| == 4 * q + r + 1;
    ModFourMultiple(q, r + 1);
    assert g[0] != ',';
  }

  lemma ModFourMultiple(q: nat, r: nat)
    requires 1 <= r <= 3
    ensures (4 * q + r) % 4 == r
  {
    if q > 0 {
      ModFourMultiple(q - 1, r);
      ModFour(4 * (q - 1) + r);
    }
  }

  /** `parseInt(s.replace(/,/g, ''))` for a run of digits and commas;
      `None` stands for NaN (nothing left once the commas are gone). */
  function ParseGrouped(s: string): (r: Option<nat>)
    requires DigitsOrCommas(s)
    ensures r.None? <==> forall k :: 0 <= k < |s| ==> s[k] == ','
  {
    var digits := RemoveCommas(s);
    RemoveCommasKeepsDigits(s);
    if digits == [] then None else Some(DecimalValue(digits))
  }

  lemma {:induction false} RemoveCommasKeepsDigits(s: string)
    requires DigitsOrCommas(s)
    ensures AllDigits(RemoveCommas(s))
    ensures RemoveCommas(s) == [] <==> forall k :: 0 <= k < |s| ==> s[k] == ','
  {
    if s != [] {
      RemoveCommasKeepsDigits(s[..|s| - 1]);
      assert forall k :: 0 <= k < |s| - 1 ==> s[..|s| - 1][k] == s[k];
    }
  }

  /** A non-negative amount rendered with thousands commas reads back as itself. */
  lemma ThousandsRoundTrip(n: nat)
    ensures DigitsOrCommas(Thousands(n))
    ensures ParseGrouped(Thousands(n)) == Some(n)
  {
    GroupShape(Digits(n));
    DigitsRoundTrip(n);
  }

  /** Python's `f"{n:0{width}d}"` for a natural number: zeros in front up to `width` characters. */
  function ZeroPadded(n: nat, width: nat): (r: string)
    ensures |r| == if |Digits(n)| < width then width else |Digits(n)|
    ensures AllDigits(r)
  {
    var d := Digits(n);
    if |d| < width then seq(width - |d|, _ => '0') + d else d
  }

  /** Padding never changes the value. */
  lemma PaddedValue(n: nat, width: nat)
    ensures DecimalValue(ZeroPadded(n, width)) == n
  {
    DigitsRoundTrip(n);
    var d := Digits(n);
    if |d| < width {
      LeadingZeros(width - |d|, d);
    }
  }

  lemma {:induction false} LeadingZeros(z: nat, d: string)
    requires AllDigits(d)
    ensures AllDigits(seq(z, _ => '0') + d)
    ensures DecimalValue(seq(z, _ => '0') + d) == DecimalValue(d)
    decreases |d|
  {
    var zs: string := seq(z, _ => '0');
    if d == [] {
      assert zs + d == zs;
      ZerosValue(z);
    } else {
      LeadingZeros(z, d[..|d| - 1]);
      assert (zs + d)[..|zs + d| - 1] == zs + d[..|d| - 1];
    }
  }

  lemma {:induction false} ZerosValue(z: nat)
    ensures AllDigits(seq(z, _ => '0'))
    ensures DecimalValue(seq(z, _ => '0')) == 0
  {
    if z > 0 {
      var zs: string := seq(z, _ => '0');
      assert zs[..z - 1] == seq(z - 1, _ => '0');
      ZerosValue(z - 1);
    }
  }
}

=== FILE: part1_outcome.dfy ===
/** Part 1: one search with fixed values. The engine's result dictionary
    decides whether the test fails (and with which message) or reports a
    filter status, consolidates the extracted flights and writes the
    two-sheet workbook. */
module Part1Outcome {
  import opened Common
  import opened NumberFormat
  import opened StableSort
  import opened Extraction
  import opened EngineRun
  import opened Consolidation
  import opened AirlineSummary

  // -------------------------------------------------------- failures

  /** Why the test fails before any flight is looked at. */
  datatype Failure =
    | MissingStatusField
    | CoreFailed(reason: string)
    | ExceptionOccurred(error: string)
    | InvalidStatus(status: string)

  const MissingStatusText := "Result missing status field"
  const CoreFailedPrefix := " PART 1 TEST FAILED: Core operation failed - "
  const ExceptionPrefix := " PART 1 TEST ERROR: Exception occurred - "
  const InvalidStatusPrefix := " PART 1 TEST FAILED: Invalid status '"
  const InvalidStatusSuffix := "' - Expected SUCCESS, FAIL, or ERROR"

  /** The text the test fails with. */
  function FailureMessage(f: Failure): string {
    match f
    case MissingStatusField => MissingStatusText
    case CoreFailed(reason) => CoreFailedPrefix + reason
    case ExceptionOccurred(error) => ExceptionPrefix + error
    case InvalidStatus(s) => InvalidStatusPrefix + s + InvalidStatusSuffix
  }

  /** Which failure a message reports, read from its fixed parts; `None`
      for a text no failure produces. */
  function ReadFailure(m: string): (f: Option<Failure>)
    ensures f.Some? && f.value.CoreFailed? ==> StartsWith(m, CoreFailedPrefix)
    ensures f.Some? && f.value.ExceptionOccurred? ==> StartsWith(m, ExceptionPrefix)
  {
    if m == MissingStatusText then Some(MissingStatusField)
    else if StartsWith(m, CoreFailedPrefix) then Some(CoreFailed(m[|CoreFailedPrefix|..]))
    else if StartsWith(m, ExceptionPrefix) then Some(ExceptionOccurred(m[|ExceptionPrefix|..]))
    else if |InvalidStatusPrefix| + |InvalidStatusSuffix| <= |m| && StartsWith(m, InvalidStatusPrefix) && EndsWith(m, InvalidStatusSuffix) then
      Some(InvalidStatus(m[|InvalidStatusPrefix|..|m| - |InvalidStatusSuffix|]))
    else None
  }

  /** Every failure message names its failure and carries its detail
      unchanged: the message determines the failure. */
  lemma FailureRoundTrip(f: Failure)
    ensures ReadFailure(FailureMessage(f)) == Some(f)
  {
    match f
    case MissingStatusField =>
    case CoreFailed(reason) => ReadCoreFailed(reason);
    case ExceptionOccurred(error) => ReadException(error);
    case InvalidStatus(s) => ReadInvalidStatus(s);
  }

  lemma ReadCoreFailed(reason: string)
    ensures ReadFailure(CoreFailedPrefix + reason) == Some(CoreFailed(reason))
  {
    var m := CoreFailedPrefix + reason;
    assert m[..|CoreFailedPrefix|] == CoreFailedPrefix;
    assert m[|CoreFailedPrefix|..] == reason;
  }

  lemma ReadException(error: string)
    ensures ReadFailure(ExceptionPrefix + error) == Some(ExceptionOccurred(error))
  {
    var m := ExceptionPrefix + error;
    assert !StartsWith(m, CoreFailedPrefix) by {
      if |CoreFailedPrefix| <= |m| {
        assert m[..|CoreFailedPrefix|][13] != CoreFailedPrefix[13];
      }
    }
    assert m[..|ExceptionPrefix|] == ExceptionPrefix;
    assert m[|ExceptionPrefix|..] == error;
  }

  lemma ReadInvalidStatus(s: string)
    ensures ReadFailure(InvalidStatusPrefix + s + InvalidStatusSuffix) == Some(InvalidStatus(s))
  {
    var m := InvalidStatusPrefix + s + InvalidStatusSuffix;
    assert m != MissingStatusText by {
      assert m[0] != MissingStatusText[0];
    }
    assert m[..|CoreFailedPrefix|] != CoreFailedPrefix by {
      assert m[21] != CoreFailedPrefix[21];
    }
    assert m[..|ExceptionPrefix|] != ExceptionPrefix by {
      assert m[15] != ExceptionPrefix[15];
    }
    assert m[..|InvalidStatusPrefix|] == InvalidStatusPrefix;
    assert m[|m| - |InvalidStatusSuffix|..] == InvalidStatusSuffix;
    assert m[|InvalidStatusPrefix|..|m| - |InvalidStatusSuffix|] == s;
  }

  // ------------------------------------------------------ user message

  const NoFlightsText := "  No flights found matching" + " your criteria. Try adjusting filters or different dates."
  const FoundPrefix := " Success: Found "
  const FoundSuffix := " flights for your search"

  /** The message for a search that found `n` flights. */
  function FoundMessage(n: nat): string {
    FoundPrefix + Digits(n) + FoundSuffix
  }

  /** The flight count a success message announces; `None` for any other
      text. */
  function ReadFound(m: string): Option<nat> {
    if |FoundPrefix| + |FoundSuffix| < |m| && StartsWith(m, FoundPrefix) && EndsWith(m, FoundSuffix)
       && AllDigits(m[|FoundPrefix|..|m| - |FoundSuffix|])
    then Some(DecimalValue(m[|FoundPrefix|..|m| - |FoundSuffix|]))
    else None
  }

  /** The success message announces exactly the count it was made from,
      and the no-flights message announces none. */
  lemma FoundRoundTrip(n: nat)
    ensures ReadFound(FoundMessage(n)) == Some(n)
    ensures ReadFound(NoFlightsText) == None
  {
    var m := FoundMessage(n);
    assert m[..|FoundPrefix|] == FoundPrefix;
    assert m[|m| - |FoundSuffix|..] == FoundSuffix;
    assert m[|FoundPrefix|..|m| - |FoundSuffix|] == Digits(n);
    DigitsRoundTrip(n);
    assert !StartsWith(NoFlightsText, FoundPrefix) by {
      assert NoFlightsText[..|FoundPrefix|][1] != FoundPrefix[1];
    }
  }

  // --------------------------------------------------------- workbook

  /** The two sheets written for a completed run, and the counts the
      export returns. */
  datatype Workbook = Workbook(
    flightDetails: seq<SheetRow>, airlineSummary: seq<Line>, totalFlights: nat, airlinesCount: nat)

  /** `_save_part1_excel` on consolidated data: Flight Details lists every
      record; on the Airline Summary sheet, from row 2, each airline's group
      occupies consecutive lines from its start line, with one blank line
      before every group but the first. */
  function Export(data: seq<Record>): (w: Workbook)
    ensures |w.flightDetails| == |data| == w.totalFlights
    ensures multiset(w.flightDetails) == multiset(SheetRowsOf(data))
    ensures w.airlinesCount == |GroupNames(data)|
    ensures data != [] ==> |w.airlineSummary| == w.totalFlights + w.airlinesCount - 1
    ensures LaidOut(Groups(data), w.airlineSummary)
  {
    var rows := FlightDetails(data);
    DetailsArePermutation(data);
    SummarySheetShape(data);
    LayoutPositions(Groups(data));
    Workbook(rows, SummarySheet(data), |rows|, AirlinesCount(data))
  }

  lemma Cancel(x: Record, p: multiset<Record>, q: multiset<Record>)
    requires multiset{x} + p == multiset{x} + q
    ensures p == q
  {
    forall y ensures p[y] == q[y] {
      assert (multiset{x} + p)[y] == (multiset{x} + q)[y];
    }
  }

  /** Taking out the record at `i`. */
  lemma RemoveAt(b: seq<Record>, i: nat)
    requires i < |b|
    ensures multiset(b) == multiset{b[i]} + multiset(b[..i] + b[i + 1..])
  {
    assert b == b[..i] + [b[i]] + b[i + 1..];
  }

  lemma RemoveRowAt(b: seq<Record>, i: nat)
    requires i < |b|
    ensures multiset(SheetRowsOf(b)) == multiset{SheetRowOf(b[i])} + multiset(SheetRowsOf(b[..i] + b[i + 1..]))
  {
    var rows := SheetRowsOf(b);
    var left, right := SheetRowsOf(b[..i]), SheetRowsOf(b[i + 1..]);
    assert rows == left + [SheetRowOf(b[i])] + right;
    SheetRowsAppend(b[..i], b[i + 1..]);
  }

  lemma {:induction false} SheetRowsMultiset(a: seq<Record>, b: seq<Record>)
    requires multiset(a) == multiset(b)
    ensures multiset(SheetRowsOf(a)) == multiset(SheetRowsOf(b))
    decreases |a|
  {
    if a == [] {
      assert |b| == |multiset(b)| == |multiset(a)| == 0;
    } else {
      var x := a[0];
      assert x in multiset(b);
      var i :| 0 <= i < |b| && b[i] == x;
      var rest := b[..i] + b[i + 1..];
      RemoveAt(b, i);
      RemoveRowAt(b, i);
      assert a == [x] + a[1..];
      var ma, mr := multiset(a[1..]), multiset(rest);
      assert multiset(a) == multiset([x]) + ma;
      assert multiset(b) == multiset{x} + mr;
      Cancel(x, ma, mr);
      SheetRowsAppend([x], a[1..]);
      var row, ra, rr := SheetRowOf(x), SheetRowsOf(a[1..]), SheetRowsOf(rest);
      assert SheetRowsOf([x]) == [row];
      assert SheetRowsOf(a) == [row] + ra;
      assert multiset(SheetRowsOf(a)) == multiset([row]) + multiset(ra);
      assert multiset(SheetRowsOf(b)) == multiset{row} + multiset(rr);
      SheetRowsMultiset(a[1..], rest);
    }
  }

  /** The Flight Details sheet lists every record exactly once. */
  lemma DetailsArePermutation(data: seq<Record>)
    ensures multiset(FlightDetails(data)) == multiset(SheetRowsOf(data))
  {
    var sorted := SortBy(data, PriceOf);
    assert FlightDetails(data) == SheetRowsOf(sorted);
    SheetRowsMultiset(sorted, data);
  }

  // --------------------------------------------------------- the test

  /** What a completed Part 1 run reports. */
  datatype Report = Report(
    filterStatus: string, userMessage: string, flightsFound: nat, data: Consolidated, workbook: Workbook)

  datatype Outcome = TestFailed(failure: Failure) | Completed(report: Report)

  /** Extractor records as the consolidation reads them. */
  function RawFlights(fs: seq<UiFlight>): (raw: seq<RawFlight>)
    ensures |raw| == |fs|
    ensures forall k :: 0 <= k < |fs| ==> raw[k] == RawOf(fs[k])
  {
    seq(|fs|, k requires 0 <= k < |fs| => RawOf(fs[k]))
  }

  /** The flights of the result dictionary as the consolidation reads them. */
  function UiFlightsOf(d: ResultDict): Option<seq<RawFlight>> {
    match d.uiFilteredFlights
    case None => None
    case Some(fs) => Some(RawFlights(fs))
  }

  /** `test_part1_core_automation` from the engine's result dictionary on:
      the status is checked first, then the flight count `before_count`
      picks the filter status, and the flights are consolidated and
      exported. */
  function RunPart1(d: ResultDict, stopsFilter: string): (o: Outcome)
    ensures o.Completed? <==> d.status == Some("SUCCESS")
    ensures d.status.None? ==> o == TestFailed(MissingStatusField)
    ensures d.status == Some("FAIL") ==> o == TestFailed(CoreFailed(d.reason.GetOr("Unknown failure")))
    ensures d.status == Some("ERROR") ==> o == TestFailed(ExceptionOccurred(d.error.GetOr("Unknown error")))
    ensures d.status.Some? && d.status.value !in {"SUCCESS", "FAIL", "ERROR"} ==> o == TestFailed(InvalidStatus(d.status.value))
    ensures o.Completed? ==>
      var rep := o.report;
      rep.flightsFound == d.beforeCount.GetOr(0)
      && (rep.filterStatus == "PASSED" <==> rep.flightsFound > 0)
      && (rep.filterStatus == "NO_FLIGHTS_FOUND" <==> rep.flightsFound == 0)
      && (rep.flightsFound > 0 ==> ReadFound(rep.userMessage) == Some(rep.flightsFound))
      && (rep.flightsFound == 0 ==> ReadFound(rep.userMessage) == None)
      && rep.data.filteredCount == |d.uiFilteredFlights.GetOr([])|
      && SortedBy(rep.data.consolidatedData, PriceOf)
      && rep.workbook.totalFlights == rep.data.filteredCount
    ensures o.Completed? ==>
      o.report.data == Consolidate(UiFlightsOf(d), stopsFilter)
      && o.report.workbook == Export(o.report.data.consolidatedData)
  {
    match d.status
    case None => TestFailed(MissingStatusField)
    case Some(s) =>
      if s == "FAIL" then TestFailed(CoreFailed(d.reason.GetOr("Unknown failure")))
      else if s == "ERROR" then TestFailed(ExceptionOccurred(d.error.GetOr("Unknown error")))
      else if s != "SUCCESS" then TestFailed(InvalidStatus(s))
      else
        var n := d.beforeCount.GetOr(0);
        FoundRoundTrip(n);
        var data := Consolidate(UiFlightsOf(d), stopsFilter);
        Completed(Report(
          if n == 0 then "NO_FLIGHTS_FOUND" else "PASSED",
          if n == 0 then NoFlightsText else FoundMessage(n),
          n, data, Export(data.consolidatedData)))
  }

  /** The message the test fails with, when it fails. */
  function FailureText(o: Outcome): Option<string> {
    if o.TestFailed? then Some(FailureMessage(o.failure)) else None
  }

  /** Part 1 on an engine result: it completes exactly when the engine
      succeeded; a failed search or an engine error fails the test with
      the engine's own reason or error text readable from the message;
      a completed run reports the engine's `before_count` and consolidates
      every extracted flight. */
  lemma Part1OfEngine(r: EngineResult, stopsFilter: string)
    ensures RunPart1(ToDict(r), stopsFilter).Completed? <==> r.Succeeded?
    ensures r.Failed? ==> ReadFailure(FailureText(RunPart1(ToDict(r), stopsFilter)).value) == Some(CoreFailed(r.reason))
    ensures r.Errored? ==> ReadFailure(FailureText(RunPart1(ToDict(r), stopsFilter)).value) == Some(ExceptionOccurred(r.error))
    ensures r.Succeeded? ==>
      var rep := RunPart1(ToDict(r), stopsFilter).report;
      rep.flightsFound == r.beforeCount
      && rep.data.filteredCount == |r.flights|
      && rep.workbook.totalFlights == |r.flights|
    ensures r.Succeeded? ==>
      var rep := RunPart1(ToDict(r), stopsFilter).report;
      rep.data.validFlights == RawFlights(r.flights)
      && multiset(rep.data.consolidatedData) == multiset(Records(RawFlights(r.flights), stopsFilter))
      && multiset(rep.workbook.flightDetails) == multiset(SheetRowsOf(Records(RawFlights(r.flights), stopsFilter)))
  {
    var o := RunPart1(ToDict(r), stopsFilter);
    if r.Succeeded? {
      ConsolidatesEngineFlights(r, stopsFilter);
    }
    if o.TestFailed? {
      FailureRoundTrip(o.failure);
    }
  }

  /** A completed run consolidates and exports exactly the engine's records. */
  lemma ConsolidatesEngineFlights(r: EngineResult, stopsFilter: string)
    requires r.Succeeded?
    ensures var rep := RunPart1(ToDict(r), stopsFilter).report;
      rep.data.validFlights == RawFlights(r.flights)
      && multiset(rep.data.consolidatedData) == multiset(Records(RawFlights(r.flights), stopsFilter))
      && multiset(rep.workbook.flightDetails) == multiset(SheetRowsOf(Records(RawFlights(r.flights), stopsFilter)))
  {
    var rep := RunPart1(ToDict(r), stopsFilter).report;
    assert UiFlightsOf(ToDict(r)) == Some(RawFlights(r.flights));
    SheetRowsMultiset(rep.data.consolidatedData, Records(RawFlights(r.flights), stopsFilter));
  }

  /** The filter status follows the count of flights on the page before
      filtering, not the flights extracted after it: a run whose filters
      left nothing still passes. */
  lemma PassedWithNothingExtracted(cfg: RunConfig, stopsFilter: string)
    ensures var o := RunPart1(ToDict(Succeeded(3, 0, [], cfg)), stopsFilter);
      o.Completed? && o.report.filterStatus == "PASSED"
      && o.report.data.filteredCount == 0 && o.report.workbook.flightDetails == []
  {
    var o := RunPart1(ToDict(Succeeded(3, 0, [], cfg)), stopsFilter);
    assert o.report.flightsFound == 3;
  }
}

=== FILE: part2_outcomes.dfy ===
/** Part 2: the same engine run once per test case. Each engine result is
    classified into a filter status and a user message, the pass and fail
    counters move, and a record per test case goes to the report; the run
    as a whole fails when any record is a critical failure.

    `flights_found` is a local variable that only the SUCCESS branch
    assigns, but every branch stores it in the record. Before the first
    SUCCESS, storing it raises; the handler counts the test as failed a
    second time and records an execution failure instead. After a SUCCESS,
    later results carry the count of the last SUCCESS. */
module Part2Outcomes {
  import opened Common
  import opened NumberFormat
  import opened EngineHelpers
  import opened Extraction
  import opened EngineRun
  import opened Consolidation
  import opened Config

  // ------------------------------------------------------ filter status

  const CoreOperationFailed := "CORE_OPERATION_FAILED"
  const TechnicalError := "TECHNICAL_ERROR"
  const Passed := "PASSED"
  const NoFlightsFound := "NO_FLIGHTS_FOUND"
  const UnknownStatus := "UNKNOWN_STATUS"
  const TestExecutionFailed := "TEST_EXECUTION_FAILED"

  /** A status counted by `critical_failures`. */
  predicate IsCritical(filterStatus: string) {
    filterStatus in {CoreOperationFailed, TechnicalError, TestExecutionFailed, UnknownStatus}
  }

  /** A status the Result column shows as COMPLETED. */
  predicate IsCompleted(filterStatus: string) {
    filterStatus in {Passed, NoFlightsFound}
  }

  /** `result.get('status', 'UNKNOWN')` */
  function StatusOf(d: ResultDict): string {
    d.status.GetOr("UNKNOWN")
  }

  /** `len(result.get('ui_filtered_flights', []))` */
  function FlightCount(d: ResultDict): nat {
    |d.uiFilteredFlights.GetOr([])|
  }

  datatype Classified = Classified(filterStatus: string, userMessage: string)

  const NoFlightsMessage := "\U{2139}\U{FE0F} No flights found matching your criteria. Try adjusting filters or different dates."

  /** The status branch: the engine status picks the filter status and the
      user message; a SUCCESS is PASSED only when some flight was extracted. */
  function Classify(d: ResultDict): (c: Classified)
    ensures IsCompleted(c.filterStatus) <==> StatusOf(d) == "SUCCESS"
    ensures IsCritical(c.filterStatus) <==> StatusOf(d) != "SUCCESS"
    ensures c.filterStatus == Passed <==> StatusOf(d) == "SUCCESS" && FlightCount(d) > 0
    ensures c.filterStatus == CoreOperationFailed <==> StatusOf(d) == "FAIL"
    ensures c.filterStatus == TechnicalError <==> StatusOf(d) == "ERROR"
    ensures c.filterStatus == UnknownStatus <==> StatusOf(d) !in {"SUCCESS", "FAIL", "ERROR"}
    ensures c.filterStatus != TestExecutionFailed
  {
    var s := StatusOf(d);
    if s == "FAIL" then Classified(CoreOperationFailed, " Test Failed: " + d.reason.GetOr("Unknown failure"))
    else if s == "ERROR" then Classified(TechnicalError, " Technical Error: " + d.error.GetOr("Unknown error"))
    else if s == "SUCCESS" then
      var n := FlightCount(d);
      if n > 0 then Classified(Passed, " Success: Found " + Digits(n) + " flights matching your criteria")
      else Classified(NoFlightsFound, NoFlightsMessage)
    else Classified(UnknownStatus, " Unknown test status: " + s)
  }

  /** The message of a failed or errored run ends with the engine's reason
      or error text, and that of an unknown status with the status. */
  lemma MessageCarriesDetail(d: ResultDict)
    ensures StatusOf(d) == "FAIL" ==> EndsWith(Classify(d).userMessage, d.reason.GetOr("Unknown failure"))
    ensures StatusOf(d) == "ERROR" ==> EndsWith(Classify(d).userMessage, d.error.GetOr("Unknown error"))
    ensures StatusOf(d) !in {"SUCCESS", "FAIL", "ERROR"} ==> EndsWith(Classify(d).userMessage, StatusOf(d))
  {
    var m := Classify(d).userMessage;
    if StatusOf(d) == "FAIL" {
      assert m[|m| - |d.reason.GetOr("Unknown failure")|..] == d.reason.GetOr("Unknown failure");
    } else if StatusOf(d) == "ERROR" {
      assert m[|m| - |d.error.GetOr("Unknown error")|..] == d.error.GetOr("Unknown error");
    } else if StatusOf(d) != "SUCCESS" {
      assert m[|m| - |StatusOf(d)|..] == StatusOf(d);
    }
  }

  // ------------------------------------------------------------ records

  /** What one test case hands to the loop: the engine's dictionary, or an
      exception raised while getting it. */
  datatype Call = Returned(d: ResultDict) | Raised(message: string)

  predicate SuccessReturn(c: Call) {
    c.Returned? && StatusOf(c.d) == "SUCCESS"
  }

  /** One entry of `all_results`. */
  datatype TestRecord = TestRecord(
    config: TestConfig, testNumber: nat, filterStatus: string, userMessage: Option<string>,
    flightsFound: nat, errorMessage: Option<string>, uiFilteredFlights: Option<seq<UiFlight>>)

  /** Python's text for reading `flights_found` before it is assigned. */
  const UnboundMessage := "cannot access local variable 'flights_found' where it is not associated with a value"

  /** The record the handler stores for an exception. */
  function ExecutionFailed(config: TestConfig, number: nat, message: string): TestRecord {
    TestRecord(config, number, TestExecutionFailed, None, 0, Some(message), None)
  }

  /** The record of test `number`, given the count the last SUCCESS left in
      `flights_found` (`None` while it is unassigned). */
  function RecordFor(config: TestConfig, number: nat, call: Call, prior: Option<nat>): (r: TestRecord)
    ensures r.config == config && r.testNumber == number
    ensures IsCompleted(r.filterStatus) <==> SuccessReturn(call)
    ensures IsCritical(r.filterStatus) <==> !SuccessReturn(call)
    ensures SuccessReturn(call) ==> r.flightsFound == FlightCount(call.d)
    ensures call.Returned? && !SuccessReturn(call) && prior.Some? ==>
      r.flightsFound == prior.value && r.filterStatus == Classify(call.d).filterStatus
    ensures call.Returned? && prior.None? && !SuccessReturn(call) ==> r == ExecutionFailed(config, number, UnboundMessage)
    ensures call.Raised? ==> r == ExecutionFailed(config, number, call.message)
    ensures r.uiFilteredFlights.Some? ==> call.Returned? && r.uiFilteredFlights == call.d.uiFilteredFlights
  {
    match call
    case Raised(m) => ExecutionFailed(config, number, m)
    case Returned(d) =>
      var c := Classify(d);
      var found := if StatusOf(d) == "SUCCESS" then Some(FlightCount(d)) else prior;
      if found.None? then ExecutionFailed(config, number, UnboundMessage)
      else TestRecord(config, number, c.filterStatus, Some(c.userMessage), found.value, None, d.uiFilteredFlights)
  }

  /** The loop state: the two counters, `flights_found`, and the records. */
  datatype Tally = Tally(passed: nat, failed: nat, flightsFound: Option<nat>, records: seq<TestRecord>)

  /** How many times one call moves `failed_tests`: once for an exception
      or a non-SUCCESS status, twice for a non-SUCCESS status while
      `flights_found` is unassigned. */
  function FailIncrement(call: Call, prior: Option<nat>): nat {
    if call.Raised? then 1
    else if SuccessReturn(call) then 0
    else if prior.None? then 2
    else 1
  }

  /** One iteration of the loop for test `number`. */
  function Step(t: Tally, number: nat, config: TestConfig, call: Call): Tally {
    Tally(
      if SuccessReturn(call) then t.passed + 1 else t.passed,
      t.failed + FailIncrement(call, t.flightsFound),
      if SuccessReturn(call) then Some(FlightCount(call.d)) else t.flightsFound,
      t.records + [RecordFor(config, number, call, t.flightsFound)])
  }

  // ------------------------------------------------ reference counts

  /** The number of calls that returned SUCCESS. */
  function SuccessCount(calls: seq<Call>): (n: nat)
    ensures n <= |calls|
  {
    if calls == [] then 0 else SuccessCount(Init(calls)) + (if SuccessReturn(Last(calls)) then 1 else 0)
  }

  /** The number of calls that returned a dictionary. */
  function ReturnedCount(calls: seq<Call>): (n: nat)
    ensures n <= |calls|
  {
    if calls == [] then 0 else ReturnedCount(Init(calls)) + (if Last(calls).Returned? then 1 else 0)
  }

  /** The flight count of the last SUCCESS among `calls`. */
  function LastSuccessCount(calls: seq<Call>): (found: Option<nat>)
    ensures found.None? <==> forall j :: 0 <= j < |calls| ==> !SuccessReturn(calls[j])
  {
    if calls == [] then None
    else if SuccessReturn(Last(calls)) then Some(FlightCount(Last(calls).d))
    else
      assert forall j :: 0 <= j < |calls| - 1 ==> Init(calls)[j] == calls[j];
      LastSuccessCount(Init(calls))
  }

  /** The position of the first SUCCESS, or `|calls|` when there is none. */
  function FirstSuccess(calls: seq<Call>): (f: nat)
    ensures f <= |calls|
    ensures forall j :: 0 <= j < f ==> !SuccessReturn(calls[j])
    ensures f < |calls| ==> SuccessReturn(calls[f])
  {
    if calls == [] then 0
    else if SuccessReturn(calls[0]) then 0
    else
      assert forall j :: 0 <= j < |calls| - 1 ==> calls[1..][j] == calls[j + 1];
      1 + FirstSuccess(calls[1..])
  }

  lemma FirstSuccessUnique(calls: seq<Call>, f: nat)
    requires f <= |calls|
    requires forall j :: 0 <= j < f ==> !SuccessReturn(calls[j])
    requires f < |calls| ==> SuccessReturn(calls[f])
    ensures FirstSuccess(calls) == f
  {
  }

  /** `failed_tests` after `calls`: every call that did not return SUCCESS
      once, and every returned non-SUCCESS before the first SUCCESS once
      more. */
  function ExpectedFailed(calls: seq<Call>): nat {
    |calls| - SuccessCount(calls) + ReturnedCount(calls[..FirstSuccess(calls)])
  }

  lemma ExpectedFailedStep(calls: seq<Call>)
    requires calls != []
    ensures ExpectedFailed(calls) == ExpectedFailed(Init(calls)) + FailIncrement(Last(calls), LastSuccessCount(Init(calls)))
  {
    var init, c := Init(calls), Last(calls);
    assert calls == init + [c];
    var f := FirstSuccess(init);
    assert forall j :: 0 <= j < |init| ==> init[j] == calls[j];
    if f < |init| {
      FirstSuccessUnique(calls, f);
      assert calls[..f] == init[..f];
    } else if SuccessReturn(c) {
      FirstSuccessUnique(calls, |init|);
      assert calls[..|init|] == init == init[..f];
    } else {
      FirstSuccessUnique(calls, |calls|);
      NoSuccessYetStep(calls);
      assert init[..f] == init;
    }
  }

  /** A call that is not a SUCCESS, after calls without one: the prefix
      before the first SUCCESS grows by that call. */
  lemma NoSuccessYetStep(calls: seq<Call>)
    requires calls != [] && FirstSuccess(calls) == |calls|
    ensures LastSuccessCount(Init(calls)).None?
    ensures ReturnedCount(calls[..FirstSuccess(calls)]) == ReturnedCount(Init(calls)) + (if Last(calls).Returned? then 1 else 0)
    ensures FirstSuccess(Init(calls)) == |Init(calls)|
  {
    var init := Init(calls);
    assert forall j :: 0 <= j < |init| ==> init[j] == calls[j];
    assert calls[..|calls|] == calls;
    FirstSuccessUnique(init, |init|);
  }

  // ---------------------------------------------------------- the loop

  /** The loop over all test cases. */
  function Run(configs: seq<TestConfig>, calls: seq<Call>): (t: Tally)
    requires |calls| == |configs|
    ensures |t.records| == |calls|
    ensures t.passed == SuccessCount(calls)
    ensures t.failed == ExpectedFailed(calls)
    ensures t.flightsFound == LastSuccessCount(calls)
    ensures forall k :: 0 <= k < |calls| ==> t.records[k] == RecordFor(configs[k], k + 1, calls[k], LastSuccessCount(calls[..k]))
  {
    if calls == [] then Tally(0, 0, None, [])
    else
      var before := Run(Init(configs), Init(calls));
      ExpectedFailedStep(calls);
      StepRecords(configs, calls, before.records);
      Step(before, |calls|, Last(configs), Last(calls))
  }

  /** The record appended by the last step, after the records of the
      earlier ones. */
  lemma StepRecords(configs: seq<TestConfig>, calls: seq<Call>, records: seq<TestRecord>)
    requires |calls| == |configs| && calls != []
    requires |records| == |calls| - 1
    requires forall k :: 0 <= k < |calls| - 1 ==>
      records[k] == RecordFor(Init(configs)[k], k + 1, Init(calls)[k], LastSuccessCount(Init(calls)[..k]))
    ensures var all := records + [RecordFor(Last(configs), |calls|, Last(calls), LastSuccessCount(Init(calls)))];
      forall k :: 0 <= k < |calls| ==> all[k] == RecordFor(configs[k], k + 1, calls[k], LastSuccessCount(calls[..k]))
  {
    var all := records + [RecordFor(Last(configs), |calls|, Last(calls), LastSuccessCount(Init(calls)))];
    forall k | 0 <= k < |calls|
      ensures all[k] == RecordFor(configs[k], k + 1, calls[k], LastSuccessCount(calls[..k]))
    {
      if k < |calls| - 1 {
        assert calls[..k] == Init(calls)[..k];
        assert Init(calls)[k] == calls[k] && Init(configs)[k] == configs[k];
      } else {
        assert calls[..k] == Init(calls);
      }
    }
  }

  /** The records counted by `critical_failures`. */
  function CriticalCount(records: seq<TestRecord>): (n: nat)
    ensures n <= |records|
  {
    if records == [] then 0 else CriticalCount(Init(records)) + (if IsCritical(Last(records).filterStatus) then 1 else 0)
  }

  lemma {:induction false} CriticalCountMatches(records: seq<TestRecord>, calls: seq<Call>)
    requires |records| == |calls|
    requires forall k :: 0 <= k < |calls| ==> (IsCritical(records[k].filterStatus) <==> !SuccessReturn(calls[k]))
    ensures CriticalCount(records) == |calls| - SuccessCount(calls)
  {
    if calls != [] {
      assert forall k :: 0 <= k < |calls| - 1 ==> Init(records)[k] == records[k] && Init(calls)[k] == calls[k];
      CriticalCountMatches(Init(records), Init(calls));
    }
  }

  /** Every test case that did not return SUCCESS is a critical failure,
      and no other is: the number of critical failures is the number of
      tests minus `passed_tests`. */
  lemma CriticalFailures(configs: seq<TestConfig>, calls: seq<Call>)
    requires |calls| == |configs|
    ensures CriticalCount(Run(configs, calls).records) == |calls| - Run(configs, calls).passed
  {
    var t := Run(configs, calls);
    CriticalCountMatches(t.records, calls);
  }

  lemma {:induction false} SuccessCountAll(calls: seq<Call>)
    ensures SuccessCount(calls) == |calls| <==> forall k :: 0 <= k < |calls| ==> SuccessReturn(calls[k])
  {
    if calls != [] {
      assert forall k :: 0 <= k < |calls| - 1 ==> Init(calls)[k] == calls[k];
      SuccessCountAll(Init(calls));
    }
  }

  /** The run fails exactly when some test case did not return SUCCESS. */
  lemma RunFailsIffSomeNotSuccess(configs: seq<TestConfig>, calls: seq<Call>)
    requires |calls| == |configs|
    ensures CriticalCount(Run(configs, calls).records) > 0 <==> exists k :: 0 <= k < |calls| && !SuccessReturn(calls[k])
  {
    CriticalFailures(configs, calls);
    SuccessCountAll(calls);
  }

  /** Every SUCCESS counts as passed once, found flights or not; a run
      without an exception or a non-SUCCESS status before its first
      SUCCESS counts every other test as failed exactly once. */
  lemma CountersAddUp(configs: seq<TestConfig>, calls: seq<Call>)
    requires |calls| == |configs|
    requires forall k :: 0 <= k < FirstSuccess(calls) ==> calls[k].Raised?
    ensures Run(configs, calls).passed + Run(configs, calls).failed == |calls|
  {
    ReturnedNone(calls[..FirstSuccess(calls)]);
  }

  lemma {:induction false} ReturnedNone(calls: seq<Call>)
    requires forall k :: 0 <= k < |calls| ==> calls[k].Raised?
    ensures ReturnedCount(calls) == 0
  {
    if calls != [] {
      assert forall k :: 0 <= k < |calls| - 1 ==> Init(calls)[k] == calls[k];
      ReturnedNone(Init(calls));
    }
  }

  /** A FAIL, ERROR or unknown status before any SUCCESS is recorded as an
      execution failure with no flights and no message, and is counted as
      failed twice. */
  lemma FailureBeforeFirstSuccess(configs: seq<TestConfig>, calls: seq<Call>, k: nat)
    requires |calls| == |configs|
    requires k < FirstSuccess(calls) && calls[k].Returned?
    ensures Run(configs, calls).records[k] == ExecutionFailed(configs[k], k + 1, UnboundMessage)
    ensures FailIncrement(calls[k], LastSuccessCount(calls[..k])) == 2
  {
    assert forall j :: 0 <= j < k ==> calls[..k][j] == calls[j];
  }

  /** A FAIL, ERROR or unknown status after a SUCCESS keeps its own filter
      status but reports the flight count of the latest SUCCESS before it. */
  lemma StaleFlightCount(configs: seq<TestConfig>, calls: seq<Call>, j: nat, k: nat)
    requires |calls| == |configs|
    requires j < k < |calls|
    requires SuccessReturn(calls[j]) && forall i :: j < i < k ==> !SuccessReturn(calls[i])
    requires calls[k].Returned? && !SuccessReturn(calls[k])
    ensures Run(configs, calls).records[k].flightsFound == FlightCount(calls[j].d)
    ensures Run(configs, calls).records[k].filterStatus == Classify(calls[k].d).filterStatus
  {
    LastSuccessAt(calls[..k], j);
  }

  lemma {:induction false} LastSuccessAt(calls: seq<Call>, j: nat)
    requires j < |calls| && SuccessReturn(calls[j])
    requires forall i :: j < i < |calls| ==> !SuccessReturn(calls[i])
    ensures LastSuccessCount(calls) == Some(FlightCount(calls[j].d))
  {
    if j < |calls| - 1 {
      assert forall i :: 0 <= i < |calls| - 1 ==> Init(calls)[i] == calls[i];
      LastSuccessAt(Init(calls), j);
    }
  }

  // ----------------------------------------------------- summary sheet

  /** One row of the Test_Execution_Summary sheet. */
  datatype SummaryRow = SummaryRow(
    testId: string, route: string, date: string, stopsFilter: string, priceRange: string,
    status: string, flightsFound: nat, result: string, message: string)

  /** The Result column. */
  function ResultColumn(filterStatus: string): (r: string)
    ensures r == "COMPLETED" <==> IsCompleted(filterStatus)
    ensures r == "COMPLETED" || r == "FAILED"
  {
    if IsCompleted(filterStatus) then "COMPLETED" else "FAILED"
  }

  /** The row of a record: the route is the legacy city fields joined by
      an arrow, the price range both bounds in rupees, and a record with no
      user message shows "Test completed". */
  function SummaryRowOf(r: TestRecord): (row: SummaryRow)
    ensures row.testId == r.config.testId && row.status == r.filterStatus && row.flightsFound == r.flightsFound
    ensures row.result == ResultColumn(r.filterStatus)
    ensures r.userMessage.None? ==> row.message == "Test completed"
    ensures r.userMessage.Some? ==> row.message == r.userMessage.value
    ensures row.route == r.config.fromCity + " \U{2192} " + r.config.toCity
    ensures row.date == r.config.departureDate && row.stopsFilter == r.config.stopsFilter
  {
    SummaryRow(
      r.config.testId,
      r.config.fromCity + " \U{2192} " + r.config.toCity,
      r.config.departureDate,
      r.config.stopsFilter,
      Rupees(r.config.priceMin) + "-" + Rupees(r.config.priceMax),
      r.filterStatus, r.flightsFound, ResultColumn(r.filterStatus),
      r.userMessage.GetOr("Test completed"))
  }

  function SummarySheet(records: seq<TestRecord>): (rows: seq<SummaryRow>)
    ensures |rows| == |records|
    ensures forall k :: 0 <= k < |records| ==> rows[k] == SummaryRowOf(records[k])
  {
    seq(|records|, k requires 0 <= k < |records| => SummaryRowOf(records[k]))
  }

  /** Row `k + 2` of the summary sheet says COMPLETED exactly when test
      `k + 1` returned SUCCESS; an execution failure says FAILED with the
      message "Test completed". */
  lemma SummaryResultColumn(configs: seq<TestConfig>, calls: seq<Call>, k: nat)
    requires |calls| == |configs| && k < |calls|
    ensures SummarySheet(Run(configs, calls).records)[k].result == "COMPLETED" <==> SuccessReturn(calls[k])
    ensures Run(configs, calls).records[k].filterStatus == TestExecutionFailed ==>
      SummarySheet(Run(configs, calls).records)[k].result == "FAILED"
      && SummarySheet(Run(configs, calls).records)[k].message == "Test completed"
  {
  }

  /** The price range column reads back as the two bounds, for
      non-negative bounds. */
  lemma PriceRangeReadsBack(r: TestRecord)
    requires r.config.priceMin >= 0 && r.config.priceMax >= 0
    ensures var range := SummaryRowOf(r).priceRange;
      var lo := Rupees(r.config.priceMin);
      range == lo + "-" + Rupees(r.config.priceMax)
      && DigitsOrCommas(lo[1..]) && ParseGrouped(lo[1..]) == Some(r.config.priceMin)
      && DigitsOrCommas(range[|lo| + 1..][1..]) && ParseGrouped(range[|lo| + 1..][1..]) == Some(r.config.priceMax)
  {
    var lo, hi := Rupees(r.config.priceMin), Rupees(r.config.priceMax);
    RupeesReadBack(r.config.priceMin);
    RupeesReadBack(r.config.priceMax);
    assert (lo + "-" + hi)[|lo| + 1..] == hi;
  }

  // ----------------------------------------------------- details sheets

  /** One row of a details sheet. */
  datatype DetailRow = DetailRow(airline: string, price: string, fromCode: string, toCode: string)

  /** The price cell: the amount in rupees when positive, else "N/A". */
  function PriceCell(p: int): (cell: string)
    ensures p > 0 ==> |cell| >= 2 && cell[0] == Rupee && DigitsOrCommas(cell[1..]) && ParseGrouped(cell[1..]) == Some(p)
    ensures p <= 0 ==> cell == "N/A"
  {
    RupeesReadBack(p);
    if p > 0 then Rupees(p) else "N/A"
  }

  const SheetNameLimit := 31

  /** `f"{test_id}_Details"[:31]` */
  function SheetName(testId: string): (name: string)
    ensures |name| <= SheetNameLimit
    ensures name <= testId + "_Details"
    ensures |testId| + 8 <= SheetNameLimit ==> name == testId + "_Details"
  {
    var full := testId + "_Details";
    if |full| <= SheetNameLimit then full else full[..SheetNameLimit]
  }

  datatype DetailSheet = DetailSheet(name: string, rows: seq<DetailRow>)

  predicate HasDetails(r: TestRecord) {
    r.uiFilteredFlights.Some? && r.uiFilteredFlights.value != []
  }

  /** The details sheet of a record with flights: one row per flight in
      extraction order, every row showing the first flight's codes. */
  function DetailSheetOf(r: TestRecord): (s: DetailSheet)
    requires HasDetails(r)
    ensures s.name == SheetName(r.config.testId)
    ensures |s.rows| == |r.uiFilteredFlights.value|
    ensures forall m :: 0 <= m < |s.rows| ==>
      s.rows[m].airline == r.uiFilteredFlights.value[m].airline
      && s.rows[m].price == PriceCell(r.uiFilteredFlights.value[m].price)
      && s.rows[m].fromCode == r.uiFilteredFlights.value[0].fromCode
      && s.rows[m].toCode == r.uiFilteredFlights.value[0].toCode
  {
    var fs := r.uiFilteredFlights.value;
    DetailSheet(SheetName(r.config.testId),
      seq(|fs|, m requires 0 <= m < |fs| => DetailRow(fs[m].airline, PriceCell(fs[m].price), fs[0].fromCode, fs[0].toCode)))
  }

  /** The positions of the records with flights, in increasing order: a
      position is listed exactly when its record has flights. */
  function DetailIndices(records: seq<TestRecord>): (idx: seq<nat>)
    ensures forall m :: 0 <= m < |idx| ==> idx[m] < |records| && HasDetails(records[idx[m]])
    ensures forall m, n :: 0 <= m < n < |idx| ==> idx[m] < idx[n]
    ensures forall k :: 0 <= k < |records| && HasDetails(records[k]) ==> k in idx
  {
    if records == [] then []
    else
      var rest := DetailIndices(Init(records));
      assert forall k :: 0 <= k < |records| - 1 ==> Init(records)[k] == records[k];
      if HasDetails(Last(records)) then rest + [|records| - 1] else rest
  }

  /** The details sheets: one per record with flights, in record order, and
      none for any other record. */
  function DetailSheets(records: seq<TestRecord>): (sheets: seq<DetailSheet>)
    ensures |sheets| == |DetailIndices(records)| <= |records|
    ensures forall m :: 0 <= m < |sheets| ==> sheets[m] == DetailSheetOf(records[DetailIndices(records)[m]])
    ensures forall s :: s in sheets ==> exists k :: 0 <= k < |records| && HasDetails(records[k]) && s == DetailSheetOf(records[k])
    ensures forall k :: 0 <= k < |records| && HasDetails(records[k]) ==> DetailSheetOf(records[k]) in sheets
  {
    var idx := DetailIndices(records);
    DetailIndicesAtMost(records);
    var sheets := seq(|idx|, m requires 0 <= m < |idx| => DetailSheetOf(records[idx[m]]));
    assert forall k :: 0 <= k < |records| && HasDetails(records[k]) ==> DetailSheetOf(records[k]) in sheets by {
      forall k | 0 <= k < |records| && HasDetails(records[k])
        ensures DetailSheetOf(records[k]) in sheets
      {
        var m :| 0 <= m < |idx| && idx[m] == k;
        assert sheets[m] == DetailSheetOf(records[k]);
      }
    }
    sheets
  }

  /** There are never more detail positions than records. */
  lemma DetailIndicesAtMost(records: seq<TestRecord>)
    ensures |DetailIndices(records)| <= |records|
  {
    var idx := DetailIndices(records);
    if idx != [] {
      IncreasingBelow(idx, |records|);
    }
  }

  /** A strictly increasing sequence of naturals below `bound` has at most
      `bound` elements. */
  lemma {:induction false} IncreasingBelow(idx: seq<nat>, bound: nat)
    requires forall m :: 0 <= m < |idx| ==> idx[m] < bound
    requires forall m, n :: 0 <= m < n < |idx| ==> idx[m] < idx[n]
    ensures |idx| <= bound
  {
    if idx != [] {
      var last := idx[|idx| - 1];
      IncreasingBelow(idx[..|idx| - 1], last);
    }
  }

  /** The calls of a batch in which every engine run returns its dictionary. */
  function EngineCalls(results: seq<EngineResult>): (calls: seq<Call>)
    ensures |calls| == |results|
    ensures forall i :: 0 <= i < |results| ==> calls[i] == Returned(ToDict(results[i]))
  {
    seq(|results|, i requires 0 <= i < |results| => Returned(ToDict(results[i])))
  }

  /** On engine results, only a SUCCESS run can have a details sheet. */
  lemma DetailsOnlyForSuccess(configs: seq<TestConfig>, results: seq<EngineResult>, k: nat)
    requires |results| == |configs| && k < |results|
    ensures HasDetails(Run(configs, EngineCalls(results)).records[k]) ==> results[k].Succeeded? && results[k].flights != []
  {
    var calls := EngineCalls(results);
    assert calls[k] == Returned(ToDict(results[k]));
  }

  /** On a run whose records all show the run's remembered codes, each row
      of its details sheet shows its own flight's codes. */
  lemma DetailRowsShowOwnCodes(cfg: RunConfig, r: TestRecord, codes: AirportCodes)
    requires HasDetails(r)
    requires forall m :: 0 <= m < |r.uiFilteredFlights.value| ==> RecordCarries(cfg, r.uiFilteredFlights.value[m], codes)
    ensures forall m :: 0 <= m < |r.uiFilteredFlights.value| ==>
      DetailSheetOf(r).rows[m].fromCode == r.uiFilteredFlights.value[m].fromCode
      && DetailSheetOf(r).rows[m].toCode == r.uiFilteredFlights.value[m].toCode
  {
    assert RecordCarries(cfg, r.uiFilteredFlights.value[0], codes);
  }
}

=== FILE: price_filter.dfy ===
/** The price filter: it reads the page's price slider, narrows the
    requested range to the slider's bounds, and then hides every priced row
    outside the narrowed range and shows every other priced row. */
module PriceFilter {
  import opened Common
  import opened Dom

  /** `slider('option', 'min')` and `slider('option', 'max')`; `None` when
      the option is unset. */
  datatype Slider = Slider(min: Option<int>, max: Option<int>)

  /** What the script finds on the page: the libraries, the scope and the
      slider it checks before touching anything, and the message of the
      exception thrown by `scope.$apply()` (before any row is marked) or by
      `scope.$digest()` (after every row is marked), if either throws. */
  datatype PageScripts = PageScripts(
    jQuery: bool, angular: bool, scope: bool, slider: Option<Slider>,
    applyThrows: Option<string>, digestThrows: Option<string>)

  /** The early returns of the script, in the order it checks them, and an
      exception caught by the script's own `catch`. */
  datatype PriceError = NoJQuery | NoAngular | NoScope | NoSlider | Threw(message: string)
  {
    function Message(): string {
      match this
      case NoJQuery => "jQuery not available"
      case NoAngular => "AngularJS not available"
      case NoScope => "AngularJS scope not found"
      case NoSlider => "Price slider #slider-range not found"
      case Threw(m) => m
    }
  }

  /** The script gets past its checks. */
  predicate ScriptsReady(p: PageScripts) {
    p.jQuery && p.angular && p.scope && p.slider.Some?
  }

  /** The script reaches the row marking: its checks pass and
      `scope.$apply()` does not throw. */
  predicate Marks(p: PageScripts) {
    ScriptsReady(p) && p.applyThrows.None?
  }

  /** What the script reports back after filtering. */
  datatype PriceReport = PriceReport(
    sliderMin: int, sliderMax: int, targetMin: int, targetMax: int,
    total: nat, visible: nat, hidden: nat)

  /** The slider maximum used when the slider has none (or a zero one). */
  const DefaultSliderMax := 50000

  /** `slider('option', 'min') || 0`. */
  function SliderMin(s: Slider): int {
    s.min.GetOr(0)
  }

  /** `slider('option', 'max') || 50000`: an unset or zero maximum is replaced. */
  function SliderMax(s: Slider): (m: int)
    ensures m != 0
    ensures s.max.None? ==> m == DefaultSliderMax
    ensures s.max.Some? && s.max.value != 0 ==> m == s.max.value
  {
    if s.max.None? || s.max.value == 0 then DefaultSliderMax else s.max.value
  }

  /** `lo <= v <= hi` */
  predicate InRange(v: int, lo: int, hi: int) {
    lo <= v <= hi
  }

  /** The range applied: the requested range narrowed to the slider's. A
      price lies in it exactly when it lies in both. */
  function Targets(minPrice: int, maxPrice: int, s: Slider): (t: (int, int))
    ensures forall v :: InRange(v, t.0, t.1) <==> InRange(v, minPrice, maxPrice) && InRange(v, SliderMin(s), SliderMax(s))
  {
    (if minPrice > SliderMin(s) then minPrice else SliderMin(s),
     if maxPrice < SliderMax(s) then maxPrice else SliderMax(s))
  }

  /** `priceAttr < targetMin || priceAttr > targetMax`: NaN compares false,
      so only a number can be out of range. */
  predicate OutOfRange(p: PriceAttr, tmin: int, tmax: int) {
    p.Number? && (p.value < tmin || p.value > tmax)
  }

  /** The same row apart from its inline `display` and `visibility`. */
  predicate SameRowButStyle(a: FlightRow, b: FlightRow) {
    a.price == b.price && a.stop == b.stop && a.text == b.text && a.laidOut == b.laidOut
    && a.sheetVisible == b.sheetVisible && a.airline == b.airline && a.flightNumber == b.flightNumber
  }

  /** What the script does to one `.fltResult` element: a row without a
      `price` attribute is not selected; an out-of-range row gets
      `display: none` and `visibility: hidden`; every other priced row gets
      its inline display cleared and `visibility: visible`. */
  function MarkRow(row: FlightRow, tmin: int, tmax: int): (r: FlightRow)
    ensures SameRowButStyle(r, row)
    ensures !row.HasPrice() ==> r == row
    ensures row.HasPrice() ==> (r.Visible() <==> row.laidOut && !OutOfRange(row.price, tmin, tmax))
  {
    if !row.HasPrice() then row
    else if OutOfRange(row.price, tmin, tmax) then row.(displayNone := true, inlineVisible := Some(false))
    else row.(displayNone := false, inlineVisible := Some(true))
  }

  /** The page after the script marked every row. */
  function MarkAll(rows: seq<FlightRow>, tmin: int, tmax: int): (out: seq<FlightRow>)
    ensures |out| == |rows|
    ensures forall k :: 0 <= k < |rows| ==> out[k] == MarkRow(rows[k], tmin, tmax)
  {
    seq(|rows|, k requires 0 <= k < |rows| => MarkRow(rows[k], tmin, tmax))
  }

  /** Marking twice is marking once. */
  lemma MarkRowIdempotent(row: FlightRow, tmin: int, tmax: int)
    ensures MarkRow(MarkRow(row, tmin, tmax), tmin, tmax) == MarkRow(row, tmin, tmax)
  {
  }

  /** The number of rows carrying a `price` attribute. */
  function PricedCount(rows: seq<FlightRow>): (n: nat)
    ensures n <= |rows|
  {
    if rows == [] then 0 else (if rows[0].HasPrice() then 1 else 0) + PricedCount(rows[1..])
  }

  /** The number of priced rows outside `[tmin, tmax]`. */
  function HiddenCount(rows: seq<FlightRow>, tmin: int, tmax: int): (n: nat)
    ensures n <= PricedCount(rows)
  {
    if rows == [] then 0
    else (if rows[0].HasPrice() && OutOfRange(rows[0].price, tmin, tmax) then 1 else 0) + HiddenCount(rows[1..], tmin, tmax)
  }

  lemma {:induction false} CountsAppend(a: seq<FlightRow>, b: seq<FlightRow>, tmin: int, tmax: int)
    ensures PricedCount(a + b) == PricedCount(a) + PricedCount(b)
    ensures HiddenCount(a + b, tmin, tmax) == HiddenCount(a, tmin, tmax) + HiddenCount(b, tmin, tmax)
  {
    if a == [] {
      assert a + b == b;
    } else {
      assert (a + b)[1..] == a[1..] + b;
      CountsAppend(a[1..], b, tmin, tmax);
    }
  }

  /** The price filter script on `rows`, for the requested range
      `[minPrice, maxPrice]`. It stops with an error, touching nothing, when
      jQuery, AngularJS, the AngularJS scope or the slider is missing, or
      when `scope.$apply()` throws; otherwise it marks every priced row and
      counts the hidden and the shown ones, and then reports the exception
      if `scope.$digest()` throws. */
  method ApplyPriceFilter(minPrice: int, maxPrice: int, page: PageScripts, rows: seq<FlightRow>)
    returns (out: seq<FlightRow>, r: Result<PriceReport, PriceError>)
    ensures !page.jQuery ==> r == Err(NoJQuery)
    ensures page.jQuery && !page.angular ==> r == Err(NoAngular)
    ensures page.jQuery && page.angular && !page.scope ==> r == Err(NoScope)
    ensures page.jQuery && page.angular && page.scope && page.slider.None? ==> r == Err(NoSlider)
    ensures ScriptsReady(page) && page.applyThrows.Some? ==> r == Err(Threw(page.applyThrows.value))
    ensures Marks(page) && page.digestThrows.Some? ==> r == Err(Threw(page.digestThrows.value))
    ensures r.Ok? <==> Marks(page) && page.digestThrows.None?
    ensures !Marks(page) ==> out == rows
    ensures Marks(page) ==>
      var t := Targets(minPrice, maxPrice, page.slider.value);
      out == MarkAll(rows, t.0, t.1)
    ensures r.Ok? ==> out == MarkAll(rows, r.value.targetMin, r.value.targetMax)
    ensures r.Ok? ==>
      page.slider.Some?
      && r.value.sliderMin == SliderMin(page.slider.value) && r.value.sliderMax == SliderMax(page.slider.value)
      && (r.value.targetMin, r.value.targetMax) == Targets(minPrice, maxPrice, page.slider.value)
    ensures r.Ok? ==>
      |out| == |rows|
      && (forall k :: 0 <= k < |rows| ==> SameRowButStyle(out[k], rows[k]))
      && (forall k :: 0 <= k < |rows| && !rows[k].HasPrice() ==> out[k] == rows[k])
      && (forall k :: 0 <= k < |rows| && rows[k].HasPrice() ==>
            (out[k].Visible() <==> rows[k].laidOut && !OutOfRange(rows[k].price, r.value.targetMin, r.value.targetMax)))
    ensures r.Ok? ==>
      r.value.total == PricedCount(rows)
      && r.value.hidden == HiddenCount(rows, r.value.targetMin, r.value.targetMax)
      && r.value.visible + r.value.hidden == r.value.total
  {
    if !page.jQuery { return rows, Err(NoJQuery); }
    if !page.angular { return rows, Err(NoAngular); }
    if !page.scope { return rows, Err(NoScope); }
    if page.slider.None? { return rows, Err(NoSlider); }
    if page.applyThrows.Some? { return rows, Err(Threw(page.applyThrows.value)); }
    var slider := page.slider.value;
    var (tmin, tmax) := Targets(minPrice, maxPrice, slider);
    out := [];
    var hidden, visible := 0, 0;
    var k := 0;
    while k < |rows|
      invariant 0 <= k <= |rows|
      invariant |out| == k
      invariant forall i :: 0 <= i < k ==> out[i] == MarkRow(rows[i], tmin, tmax)
      invariant hidden == HiddenCount(rows[..k], tmin, tmax)
      invariant visible + hidden == PricedCount(rows[..k])
    {
      CountsAppend(rows[..k], [rows[k]], tmin, tmax);
      assert rows[..k + 1] == rows[..k] + [rows[k]];
      if rows[k].HasPrice() {
        if OutOfRange(rows[k].price, tmin, tmax) {
          hidden := hidden + 1;
        } else {
          visible := visible + 1;
        }
      }
      out := out + [MarkRow(rows[k], tmin, tmax)];
      k := k + 1;
    }
    assert rows[..k] == rows;
    assert out == MarkAll(rows, tmin, tmax);
    if page.digestThrows.Some? {
      return out, Err(Threw(page.digestThrows.value));
    }
    r := Ok(PriceReport(SliderMin(slider), SliderMax(slider), tmin, tmax, visible + hidden, visible, hidden));
  }

  /** After a successful run every visible row with a numeric price lies
      within both the requested range and the slider's range. */
  lemma VisibleRowsInRange(minPrice: int, maxPrice: int, s: Slider, row: FlightRow)
    requires row.price.Number?
    requires MarkRow(row, Targets(minPrice, maxPrice, s).0, Targets(minPrice, maxPrice, s).1).Visible()
    ensures InRange(row.price.value, minPrice, maxPrice)
    ensures InRange(row.price.value, SliderMin(s), SliderMax(s))
  {
    var t := Targets(minPrice, maxPrice, s);
    assert InRange(row.price.value, t.0, t.1);
  }

  /** The rows the visible-flight counter counts once the script has run:
      rows with both attributes that are laid out and whose price is not
      out of range. */
  function ShownCount(rows: seq<FlightRow>, tmin: int, tmax: int): (n: nat)
    ensures n <= |rows|
  {
    if rows == [] then 0
    else (if rows[0].HasPriceAndStop() && rows[0].laidOut && !OutOfRange(rows[0].price, tmin, tmax) then 1 else 0)
         + ShownCount(rows[1..], tmin, tmax)
  }

  /** After marking, the counter sees exactly the in-range laid-out rows,
      whatever inline styles the rows carried before. */
  lemma {:induction false} CountAfterMarking(rows: seq<FlightRow>, tmin: int, tmax: int)
    ensures CountVisible(MarkAll(rows, tmin, tmax)) == ShownCount(rows, tmin, tmax)
  {
    if rows != [] {
      var out := MarkAll(rows, tmin, tmax);
      assert out[1..] == MarkAll(rows[1..], tmin, tmax);
      CountAfterMarking(rows[1..], tmin, tmax);
    }
  }
}

=== FILE: stable_sort.dfy ===
/** Python's `list.sort(key=...)` and `sorted(..., key=...)` on integer keys:
    a stable sort, modelled as insertion sort on sequences. */
module StableSort {

  ghost predicate SortedBy<T>(s: seq<T>, key: T -> int) {
    forall i, j :: 0 <= i < j < |s| ==> key(s[i]) <= key(s[j])
  }

  /** The elements of `s` whose key is `k`, in their order in `s`. Two
      orderings of the same elements agree on every `WithKey` exactly when
      equal keys kept their relative order. */
  function WithKey<T>(s: seq<T>, key: T -> int, k: int): seq<T> {
    if s == [] then [] else (if key(s[0]) == k then [s[0]] else []) + WithKey(s[1..], key, k)
  }

  /** Places `x` in front of the first element whose key is not smaller. */
  function Insert<T>(x: T, s: seq<T>, key: T -> int): (r: seq<T>)
    ensures |r| == |s| + 1
    ensures multiset(r) == multiset(s) + multiset{x}
  {
    if s == [] || key(x) <= key(s[0]) then
      [x] + s
    else
      assert s == [s[0]] + s[1..];
      [s[0]] + Insert(x, s[1..], key)
  }

  /** Inserting into a sorted sequence keeps it sorted, and no key drops
      below the smaller of the new key and the old first key. */
  lemma {:induction false} InsertSorted<T>(x: T, s: seq<T>, key: T -> int)
    requires SortedBy(s, key)
    ensures SortedBy(Insert(x, s, key), key)
    ensures forall j :: 0 <= j < |s| + 1 ==>
      key(Insert(x, s, key)[j]) >= (if s == [] || key(x) <= key(s[0]) then key(x) else key(s[0]))
  {
    if s != [] && key(x) > key(s[0]) {
      InsertSorted(x, s[1..], key);
    }
  }

  /** The sort: sorted by key and a permutation of its input. */
  function SortBy<T>(s: seq<T>, key: T -> int): (r: seq<T>)
    ensures |r| == |s|
    ensures multiset(r) == multiset(s)
    ensures SortedBy(r, key)
  {
    if s == [] then [] else
      assert s == [s[0]] + s[1..];
      var t := SortBy(s[1..], key);
      InsertSorted(s[0], t, key);
      Insert(s[0], t, key)
  }

  lemma {:induction false} InsertWithKey<T>(x: T, s: seq<T>, key: T -> int, k: int)
    ensures WithKey(Insert(x, s, key), key, k)
         == (if key(x) == k then [x] else []) + WithKey(s, key, k)
  {
    if s == [] || key(x) <= key(s[0]) {
      assert Insert(x, s, key) == [x] + s;
      WithKeyCons(x, s, key, k);
    } else {
      var t := Insert(x, s[1..], key);
      assert Insert(x, s, key) == [s[0]] + t;
      InsertWithKey(x, s[1..], key, k);
      WithKeyCons(s[0], t, key, k);
      WithKeyCons(s[0], s[1..], key, k);
      assert [s[0]] + s[1..] == s;
      SwapHeads<T>(if key(s[0]) == k then [s[0]] else [], if key(x) == k then [x] else [], WithKey(s[1..], key, k));
    }
  }

  /** Two heads of which at most one is non-empty commute. */
  lemma SwapHeads<T>(a: seq<T>, b: seq<T>, rest: seq<T>)
    requires a == [] || b == []
    ensures a + (b + rest) == b + (a + rest)
  {
  }

  lemma WithKeyCons<T>(y: T, t: seq<T>, key: T -> int, k: int)
    ensures WithKey([y] + t, key, k) == (if key(y) == k then [y] else []) + WithKey(t, key, k)
  {
    assert ([y] + t)[1..] == t;
  }

  /** Stability: elements with equal keys keep their relative order. */
  lemma {:induction false} SortByStable<T>(s: seq<T>, key: T -> int, k: int)
    ensures WithKey(SortBy(s, key), key, k) == WithKey(s, key, k)
  {
    if s != [] {
      SortByStable(s[1..], key, k);
      InsertWithKey(s[0], SortBy(s[1..], key), key, k);
    }
  }

  /** Sorting an already sorted sequence changes nothing. */
  lemma {:induction false} SortBySorted<T>(s: seq<T>, key: T -> int)
    requires SortedBy(s, key)
    ensures SortBy(s, key) == s
  {
    if s != [] {
      SortBySorted(s[1..], key);
      assert [s[0]] + s[1..] == s;
    }
  }

  /** Sorting twice is sorting once. */
  lemma SortByIdempotent<T>(s: seq<T>, key: T -> int)
    ensures SortBy(SortBy(s, key), key) == SortBy(s, key)
  {
    SortBySorted(SortBy(s, key), key);
  }
}

=== FILE: stops_filter.dfy ===
/** The stops filter: the label-to-checkbox table, the clicks that leave
    only the target checkbox ticked, and the success check on the final
    state. A click toggles a checkbox unless clicking it fails (the engine
    logs the failure and carries on). */
module StopsFilter {
  import opened Common

  /** The three stop checkboxes of the results page. */
  datatype Checkbox = NonStop | OneStop | TwoStop
  {
    /** The element id the engine looks up. */
    function Id(): string {
      match this
      case NonStop => "chkNonStop"
      case OneStop => "chkOneStop"
      case TwoStop => "chkTwoStop"
    }
  }

  /** The order in which the engine visits the checkboxes. */
  const AllCheckboxes: seq<Checkbox> := [NonStop, OneStop, TwoStop]

  /** The labels the stops filter accepts and the checkbox each selects. */
  const FilterMapping: map<string, Checkbox> := map[
    "Non-stop" := NonStop, "Nonstop" := NonStop,
    "1 Stop" := OneStop, "1-stop" := OneStop, "One Stop" := OneStop,
    "2+ Stop" := TwoStop, "2 Stop" := TwoStop, "2 Stops" := TwoStop, "Two Stop" := TwoStop]

  /** `filter_mapping.get(stops_filter)`. */
  function CheckboxFor(filterLabel: string): (r: Option<Checkbox>)
    ensures r.Some? <==> filterLabel in FilterMapping
    ensures r.Some? ==> FilterMapping[filterLabel] == r.value
  {
    if filterLabel in FilterMapping then Some(FilterMapping[filterLabel]) else None
  }

  /** The ids are distinct, every checkbox appears once in the visiting
      order, and every checkbox is selected by some label. */
  lemma CheckboxTable()
    ensures forall a: Checkbox, b: Checkbox :: a != b ==> a.Id() != b.Id()
    ensures forall cb: Checkbox :: cb in AllCheckboxes
    ensures forall i, j :: 0 <= i < j < |AllCheckboxes| ==> AllCheckboxes[i] != AllCheckboxes[j]
    ensures forall cb: Checkbox :: cb in FilterMapping.Values
  {
    forall cb: Checkbox
      ensures cb in AllCheckboxes && cb in FilterMapping.Values
    {
      var k := match cb case NonStop => "Non-stop" case OneStop => "1 Stop" case TwoStop => "2+ Stop";
      assert k in FilterMapping && FilterMapping[k] == cb;
      match cb
      case NonStop => assert AllCheckboxes[0] == cb;
      case OneStop => assert AllCheckboxes[1] == cb;
      case TwoStop => assert AllCheckboxes[2] == cb;
    }
  }

  /** The page-side state the filter acts on: the ticked checkboxes and
      those whose click fails (a missing element, a click timeout). */
  datatype Boxes = Boxes(checked: set<Checkbox>, stuck: set<Checkbox>)

  /** One click: it toggles the box, unless the box is stuck. */
  function Click(b: Boxes, cb: Checkbox): (r: Boxes)
    ensures r.stuck == b.stuck
    ensures cb in b.stuck ==> r == b
    ensures cb !in b.stuck ==> (cb in r.checked <==> cb !in b.checked)
    ensures forall other :: other != cb ==> (other in r.checked <==> other in b.checked)
  {
    if cb in b.stuck then b
    else if cb in b.checked then b.(checked := b.checked - {cb})
    else b.(checked := b.checked + {cb})
  }

  /** What the stops filter did: the clicks it attempted, the state it left
      and the value it returned. */
  datatype StopsOutcome = StopsOutcome(clicks: seq<Checkbox>, boxes: Boxes, success: bool)

  /** Step 2 of the filter over the checkboxes `todo`: click every ticked
      box other than the target. */
  function UncheckOthers(target: Checkbox, todo: seq<Checkbox>, b: Boxes): (r: (seq<Checkbox>, Boxes))
    requires forall i, j :: 0 <= i < j < |todo| ==> todo[i] != todo[j]
    ensures r.1.stuck == b.stuck
    ensures forall cb :: cb in todo && cb != target ==>
      (cb in r.1.checked <==> cb in b.checked && cb in b.stuck)
    ensures forall cb :: cb !in todo || cb == target ==> (cb in r.1.checked <==> cb in b.checked)
    ensures forall cb :: cb in r.0 <==> cb in todo && cb != target && cb in b.checked
    ensures (forall cb :: cb in todo && cb != target ==> cb !in b.checked) ==> r == ([], b)
  {
    if todo == [] then ([], b)
    else
      var cb := todo[0];
      var b' := if cb != target && cb in b.checked then Click(b, cb) else b;
      var (rest, last) := UncheckOthers(target, todo[1..], b');
      assert forall x :: x in todo[1..] ==> x != cb;
      ((if cb != target && cb in b.checked then [cb] else []) + rest, last)
  }

  /** The stops filter for `filterLabel` starting from `b`. An unknown label
      clicks nothing and fails. Otherwise every other ticked box is clicked,
      then the target is clicked if it is not ticked, and the filter
      succeeds exactly when the target is the only ticked box. */
  function ApplyStopsFilter(filterLabel: string, b: Boxes): (r: StopsOutcome)
    ensures filterLabel !in FilterMapping ==> r == StopsOutcome([], b, false)
    ensures r.boxes.stuck == b.stuck
    ensures r.success <==> filterLabel in FilterMapping && r.boxes.checked == {FilterMapping[filterLabel]}
    ensures filterLabel in FilterMapping ==>
      var target := FilterMapping[filterLabel];
      (target in r.boxes.checked <==> target in b.checked || target !in b.stuck)
      && forall cb :: cb != target ==> (cb in r.boxes.checked <==> cb in b.checked && cb in b.stuck)
  {
    match CheckboxFor(filterLabel)
    case None => StopsOutcome([], b, false)
    case Some(target) =>
      CheckboxTable();
      var (clicks, afterOthers) := UncheckOthers(target, AllCheckboxes, b);
      var final := if target !in afterOthers.checked then Click(afterOthers, target) else afterOthers;
      var extra := if target !in afterOthers.checked then [target] else [];
      StopsOutcome(clicks + extra, final, final.checked == {target})
  }

  /** When every click takes effect the filter succeeds for every known label. */
  lemma ClicksThatWorkSucceed(filterLabel: string, checked: set<Checkbox>)
    requires filterLabel in FilterMapping
    ensures ApplyStopsFilter(filterLabel, Boxes(checked, {})).success
  {
    var r := ApplyStopsFilter(filterLabel, Boxes(checked, {}));
    forall cb | cb in r.boxes.checked
      ensures cb == FilterMapping[filterLabel]
    {
    }
  }

  /** The filter succeeds exactly when nothing it needs to click is stuck. */
  lemma {:induction false} StopsFilterSuccess(filterLabel: string, b: Boxes)
    requires filterLabel in FilterMapping
    ensures ApplyStopsFilter(filterLabel, b).success <==>
      var target := FilterMapping[filterLabel];
      (target in b.checked || target !in b.stuck) && forall cb :: cb != target && cb in b.checked ==> cb !in b.stuck
  {
    var target := FilterMapping[filterLabel];
    var r := ApplyStopsFilter(filterLabel, b);
    if r.success {
      forall cb | cb != target && cb in b.checked
        ensures cb !in b.stuck
      {
        assert cb !in r.boxes.checked;
      }
    }
    if (target in b.checked || target !in b.stuck) && forall cb :: cb != target && cb in b.checked ==> cb !in b.stuck {
      forall cb | cb in r.boxes.checked
        ensures cb == target
      {
      }
      assert target in r.boxes.checked;
    }
  }

  /** Running the filter again after a success clicks nothing and succeeds again. */
  lemma StopsFilterIdempotent(filterLabel: string, b: Boxes)
    requires ApplyStopsFilter(filterLabel, b).success
    ensures var again := ApplyStopsFilter(filterLabel, ApplyStopsFilter(filterLabel, b).boxes);
      again.success && again.clicks == [] && again.boxes == ApplyStopsFilter(filterLabel, b).boxes
  {
    var first := ApplyStopsFilter(filterLabel, b);
    var again := ApplyStopsFilter(filterLabel, first.boxes);
    var target := FilterMapping[filterLabel];
    assert again.boxes.checked == {target} by {
      forall cb ensures cb in again.boxes.checked <==> cb == target {
        if cb != target {
          assert cb !in first.boxes.checked;
        }
      }
    }
    CheckboxTable();
    assert UncheckOthers(target, AllCheckboxes, first.boxes) == ([], first.boxes);
  }
}

=== FILE: text.dfy ===
/** String helpers the automation code borrows from Python's `str` and
    JavaScript's `String`: case mapping, trimming, substring tests and
    splitting on a separator character. */
module Text {

  predicate IsUpper(c: char) { 'A' <= c <= 'Z' }

  predicate IsLower(c: char) { 'a' <= c <= 'z' }

  /** A cased character in the sense of Python's `str.title` (ASCII letters). */
  predicate IsLetter(c: char) { IsUpper(c) || IsLower(c) }

  function LowerChar(c: char): (r: char)
    ensures !IsUpper(r)
    ensures IsLetter(c) <==> IsLetter(r)
    ensures !IsUpper(c) ==> r == c
  {
    if IsUpper(c) then (c as int + 32) as char else c
  }

  function UpperChar(c: char): (r: char)
    ensures !IsLower(r)
    ensures IsLetter(c) <==> IsLetter(r)
    ensures LowerChar(r) == LowerChar(c)
  {
    if IsLower(c) then (c as int - 32) as char else c
  }

  /** `s.lower()` / `s.toLowerCase()` */
  function Lower(s: string): (r: string)
    ensures |r| == |s|
    ensures forall k :: 0 <= k < |s| ==> r[k] == LowerChar(s[k])
  {
    seq(|s|, k requires 0 <= k < |s| => LowerChar(s[k]))
  }

  /** `s.upper()` */
  function Upper(s: string): (r: string)
    ensures |r| == |s|
    ensures forall k :: 0 <= k < |s| ==> r[k] == UpperChar(s[k])
  {
    seq(|s|, k requires 0 <= k < |s| => UpperChar(s[k]))
  }

  /** `s.title()`: a character that follows a cased character is lowered,
      every other character is upper-cased. */
  function Title(s: string): (r: string)
    ensures |r| == |s|
    ensures forall k :: 0 <= k < |s| ==>
      r[k] == (if k > 0 && IsLetter(s[k - 1]) then LowerChar(s[k]) else UpperChar(s[k]))
  {
    seq(|s|, k requires 0 <= k < |s| =>
      if k > 0 && IsLetter(s[k - 1]) then LowerChar(s[k]) else UpperChar(s[k]))
  }

  /** Lower-casing forgets every earlier case mapping. */
  lemma LowerAbsorbs(s: string)
    ensures Lower(Lower(s)) == Lower(s)
    ensures Lower(Upper(s)) == Lower(s)
    ensures Lower(Title(s)) == Lower(s)
  {
  }

  /** JavaScript's WhiteSpace and LineTerminator code points, the set `String.prototype.trim` removes. */
  predicate IsSpace(c: char) {
    c == ' ' || c == '\t' || c == '\n' || c == '\r' || c == '\U{000B}' || c == '\U{000C}'
    || c == '\U{00A0}' || c == '\U{1680}' || ('\U{2000}' <= c <= '\U{200A}')
    || c == '\U{2028}' || c == '\U{2029}' || c == '\U{202F}' || c == '\U{205F}'
    || c == '\U{3000}' || c == '\U{FEFF}'
  }

  function TrimStart(s: string): (r: string)
    ensures |r| <= |s| && r == s[|s| - |r|..]
    ensures r == [] || !IsSpace(r[0])
    ensures forall k :: 0 <= k < |s| - |r| ==> IsSpace(s[k])
  {
    if |s| > 0 && IsSpace(s[0]) then TrimStart(s[1..]) else s
  }

  function TrimEnd(s: string): (r: string)
    ensures |r| <= |s| && r == s[..|r|]
    ensures r == [] || !IsSpace(r[|r| - 1])
    ensures forall k :: |r| <= k < |s| ==> IsSpace(s[k])
  {
    if |s| > 0 && IsSpace(s[|s| - 1]) then TrimEnd(s[..|s| - 1]) else s
  }

  /** `s.trim()` */
  function Trim(s: string): (r: string)
    ensures |r| <= |s|
    ensures r == [] || (!IsSpace(r[0]) && !IsSpace(r[|r| - 1]))
  {
    TrimStart(TrimEnd(s))
  }

  /** Trimming only removes characters: what is left was in the text. */
  lemma TrimKeeps(s: string)
    ensures forall c :: c in Trim(s) ==> c in s
  {
    var e := TrimEnd(s);
    var r := TrimStart(e);
    forall c | c in r
      ensures c in s
    {
      var k :| 0 <= k < |r| && r[k] == c;
      assert e[|e| - |r| + k] == c;
      assert s[|e| - |r| + k] == c;
    }
  }

  /** `a.includes(b)` / `b in a`: `b` occurs in `a` as a contiguous piece. */
  predicate Contains(a: string, b: string)
    decreases |a|
  {
    b <= a || (|a| > 0 && Contains(a[1..], b))
  }

  /** Number of occurrences of `c` in `s`. */
  function Count(s: string, c: char): nat {
    if s == [] then 0 else (if s[0] == c then 1 else 0) + Count(s[1..], c)
  }

  lemma {:induction false} CountZero(s: string, c: char)
    ensures Count(s, c) == 0 <==> c !in s
  {
    if s != [] {
      CountZero(s[1..], c);
      assert s == [s[0]] + s[1..];
    }
  }

  /** `s.split(sep)` with an explicit one-character separator (Python and
      JavaScript agree): the pieces between separators, empty ones kept. */
  function Split(s: string, sep: char): (parts: seq<string>)
    ensures |parts| == Count(s, sep) + 1
    ensures forall k :: 0 <= k < |parts| ==> sep !in parts[k]
  {
    if s == [] then [[]]
    else
      var rest := Split(s[1..], sep);
      if s[0] == sep then [[]] + rest
      else [[s[0]] + rest[0]] + rest[1..]
  }

  /** `sep.join(parts)` */
  function Join(parts: seq<string>, sep: char): string
    requires |parts| >= 1
  {
    if |parts| == 1 then parts[0] else parts[0] + [sep] + Join(parts[1..], sep)
  }

  /** Joining the pieces again gives back the split string. */
  lemma {:induction false} JoinSplit(s: string, sep: char)
    ensures Join(Split(s, sep), sep) == s
  {
    if s != [] {
      var rest := Split(s[1..], sep);
      JoinSplit(s[1..], sep);
      if s[0] == sep {
        assert ([[]] + rest)[1..] == rest;
      } else {
        var parts := [[s[0]] + rest[0]] + rest[1..];
        if |rest| > 1 {
          assert parts[1..] == rest[1..];
        }
      }
    }
  }

  lemma {:induction false} SplitPiece(a: string, t: string, sep: char)
    requires sep !in a
    ensures Split(a + [sep] + t, sep) == [a] + Split(t, sep)
  {
    if a == [] {
      assert ([sep] + t)[1..] == t;
    } else {
      assert (a + [sep] + t)[1..] == a[1..] + [sep] + t;
      SplitPiece(a[1..], t, sep);
      assert [a[0]] + a[1..] == a;
    }
  }

  lemma {:induction false} SplitWhole(a: string, sep: char)
    requires sep !in a
    ensures Split(a, sep) == [a]
  {
    if a != [] {
      SplitWhole(a[1..], sep);
      assert [a[0]] + a[1..] == a;
    }
  }

  /** Splitting a join of separator-free pieces gives the pieces back. */
  lemma {:induction false} SplitJoin(parts: seq<string>, sep: char)
    requires |parts| >= 1
    requires forall k :: 0 <= k < |parts| ==> sep !in parts[k]
    ensures Split(Join(parts, sep), sep) == parts
    decreases |parts|
  {
    if |parts| == 1 {
      SplitWhole(parts[0], sep);
    } else {
      SplitJoin(parts[1..], sep);
      SplitPiece(parts[0], Join(parts[1..], sep), sep);
      assert [parts[0]] + parts[1..] == parts;
    }
  }
}
